=== FILE: README.md ===
# bookingRoom — a Dafny model of the meeting-room booking core

bookingRoom is a small web application for reserving meeting rooms.
- Staff sign in with Google.
- They request a room for one hourly time slot on a date.
- Administrators approve or reject the requests, and manage rooms and user roles.

A booking request starts as PENDING. Two things protect a slot:
- a conflict check when the booking is created;
- a unique index on (room, date, time slot) in the booking collection.

When an administrator opens the review page, one automatic pass decides every PENDING request:
- a request whose slot already holds an APPROVED booking is rejected;
- any other request is approved.

This project models that core as pure functions over one database value, `Db(rooms, bookings, users)`:
- Each server action or route handler becomes a function. It takes the caller's session (`Option<Caller>`) and returns either an error or the new database together with what the action returns.
- Clock readings ("today", the current hour, creation times) and freshly generated ids are parameters.
- Stored bookings may lack a status or a note, as documents written before the defaults existed can. The read paths return the normalized form: PENDING and `""` filled in.

Modules:
- `Text`, `Seqs`, `Outcomes`: strings, filtering, stable sorting, and the `Result`/`Option` types.
- `Formats`: the input schemas.
- `Records`: the stored documents and their lookups.
- `Auth`: role assignment at sign-in.
- `TimeSlots`: the slot generator.
- `BookingActions` and `BookingQueries`: booking writes and reads.
- `AutoResolution`: the admin review page.
- `Availability`: the home page and the today route.
- `RoomActions`: room and user administration.
- `RoomPages`: the room search and the room-creation form.

## Behaviour of the code worth knowing

- **Rejected bookings.** A REJECTED booking still occupies its slot: the conflict check searches regardless of status (`BookingActions.RejectedBookingBlocks`). So does the unique index.
- **Duplicate PENDING requests.** When two PENDING requests for one slot exist and no APPROVED one does, the pass approves both. It decides against the snapshot read before the loop (`AutoResolution.DuplicatePendingBothApproved`). With the unique index in force this cannot arise (`AutoResolution.UniqueKeysApproveAll`).
- **Status transitions.** No transition rule is enforced. An administrator may move any booking to any status, including back to PENDING (`BookingActions.UpdateBookingAnyTransition`).
- **Deleting a room.** Deleting a room leaves its bookings in place (`RoomActions.DeleteRoomLeavesOrphans`).
- **Room names.** Room names are kept unique only by `updateRoom`. `createRoom` accepts a name another room already has (`RoomActions.CreateAllowsDuplicateName`).
- **Booking through the POST route.** The `POST /api/bookings` route does not check that the slot is one the room offers; the server action does (`BookingActions.PostSkipsSlotMembership`).
- **Free-slot count on `/api/rooms/today`.** The route assumes eight slots a day, so its free-slot count turns negative past eight approved bookings (`Availability.AvailabilityCanGoNegative`).
- **Renaming a room.** `findByIdAndUpdate` runs no validators, but Mongoose applies the schema's `trim` setter to the updated name and to the name in the duplicate-name query alike. A new name that matches another room's name once its surrounding blanks are removed is refused (`RoomActions.UpdateRoom`).
- **Zero hourly rate.** The room schema demands a positive hourly rate. The stored model accepts a rate of zero, which no schema-validated input can produce (`Records.ZeroRateOnlyStorable`).

## Model

| member | source | states |
|---|---|---|
| Auth.AdminEmails | src/lib/auth.ts:24-30 | The configured admin list when the setting parses; an unparsable setting yields no admins. |
| Auth.ResolveRole | src/lib/auth.ts:46-50 | ADMIN exactly when the token carries a non-empty e-mail that is on the admin list; USER otherwise. |
| Auth.Jwt | src/lib/auth.ts:43-53 | The token always ends up with a role. The role is re-derived on sign-in, on update or when missing; otherwise it is kept. Subject, e-mail and name are unchanged. |
| Auth.SessionUser | src/lib/auth.ts:54-63 | The session user carries the token's subject as id and the token's role. It counts as admin exactly when the token's role is ADMIN. |
| Auth.SignInRole | src/lib/auth.ts:44-47 | A user whose e-mail is on the admin list is an admin in the session right after signing in. |
| Auth.UnparsableConfigMeansNoAdmins | src/lib/auth.ts:25-29 | When the admin setting is not valid JSON, every role the callback assigns is USER. |
| Auth.RoleKeptWithoutTrigger | src/lib/auth.ts:44 | A token that already has a role keeps it on a plain refresh, even if the admin list changed. |
| Formats.DateFormatIsSyntacticOnly | src/types/schema.ts:48 | The date pattern accepts the impossible date 2024-13-99 and rejects a one-digit month. |
| Formats.SlotFormatIsSyntacticOnly | src/types/schema.ts:49 | The slot pattern accepts 23:00-24:00, a backwards slot and 99:99-00:00, and rejects a one-digit hour. |
| Formats.ParseStatus | src/types/schema.ts:39 | Exactly the three names PENDING, APPROVED and REJECTED parse, each to the status of that name. |
| Formats.StatusNameRoundTrip | src/types/schema.ts:39 | Every status survives printing its name and parsing it back. |
| Formats.IsEmail | src/models/Booking.ts:24 | The single-pass check accepts exactly the strings in the language of the pattern "non-blank, @, non-blank, dot, non-blank". |
| Formats.EmailExamples | src/models/Booking.ts:24 | a@b.co is an address. Addresses without a dot after the @, with nothing before the @, with a blank, or with an empty domain part are not. |
| Records.Normalize | src/actions/room/get-bookings.ts:49-50 | The view reads a missing status as PENDING and a missing note as "". It keeps id, room, date, slot, owner and creation time, and leaves a complete record as it is. |
| Records.View | src/actions/room/get-all-bookings.ts:39-40 | Position by position, the listed bookings are the normalized stored ones. |
| Records.FindBooking | src/actions/room/update-booking.ts:33-36 | Finds the first booking with the id, or reports that no booking has it. |
| Records.FindBookingUnique | src/models/Booking.ts:4-50 | With unique ids, looking up a stored booking's id finds that very booking. |
| Records.ZeroRateOnlyStorable | src/models/Room.ts:40-44 | A stored room may charge zero per hour, but such a room never passes the input schema. |
| Records.FindRoom | src/actions/room/create-booking.ts:29-32 | Finds the first room with the id, or reports that none has it. |
| Records.FindUser | src/actions/admin/update-user.ts:33-41 | Finds the first user with the id, or reports that none has it. |
| Records.SlotAscTotalPreorder | src/actions/room/get-bookings.ts:34-37 | Ordering by time slot compares every pair of bookings and is transitive. |
| Records.DateDescSlotAscTotalPreorder | src/actions/room/get-all-bookings.ts:27 | Ordering newest date first, then earliest slot, is a total preorder. |
| Records.RoomNameAscTotalPreorder | src/actions/room/get-today-bookings.ts:23 | Ordering rooms by name is a total preorder. |
| TimeSlots.Generate24HourTimeSlots | src/lib/utils.ts:8-25 | The loop yields (1439 div interval) labels. Label k runs from minute k·interval to minute (k+1)·interval, with two-digit hours and minutes. |
| TimeSlots.DaySlots | src/lib/utils.ts:12-21 | The day's slot list has one entry per interval that ends before midnight. |
| TimeSlots.LabelDecodes | src/lib/utils.ts:20 | Every label is well formed, and reading its hours and minutes back gives its start and end minute. |
| TimeSlots.LabelMonotonic | src/lib/utils.ts:12-21 | A label starting later sorts after one starting earlier under string order. |
| TimeSlots.DaySlotsContiguous | src/lib/utils.ts:12-21 | Each slot ends at the time the next slot starts. |
| TimeSlots.DaySlotsStrictlySorted | src/lib/utils.ts:12-21 | The generated list is strictly increasing in string order, so sorting it changes nothing. |
| TimeSlots.HourlySlots | src/lib/utils.ts:18 | The hourly list has 23 entries, from 00:00-01:00 to 22:00-23:00. Because of the break before the end hour reaches 24, 23:00-24:00 is never offered. |
| TimeSlots.DaySlotsDecode | src/lib/utils.ts:13-20 | Slot k of the list starts at minute k·interval and ends at minute (k+1)·interval. |
| TimeSlots.SlotFits | src/lib/utils.ts:18 | Every slot the loop emits ends before midnight. |
| TimeSlots.NotMidnightEnd | src/lib/utils.ts:18 | No emitted label is the midnight-ending 23:00-24:00. |
| BookingActions.CreateBooking | src/actions/room/create-booking.ts:12-82 | Refusals come in order: no session, invalid input, unknown room, slot not offered by the room, slot already taken. Each refusal carries its own error, given that the earlier checks passed. Success is exactly when all checks pass. It appends one PENDING booking with note "" for the caller, and keeps room-date-slot keys unique. |
| BookingActions.CreatePreservesLedger | src/models/Booking.ts:4-50 | With a fresh id, a successful create keeps every stored booking valid, with unique ids and unique slot keys. |
| BookingActions.SecondCreateConflicts | src/actions/room/create-booking.ts:40-48 | Once a slot is booked, any later valid request for the same room, date and slot is refused as a conflict. |
| BookingActions.RejectedBookingBlocks | src/actions/room/create-booking.ts:40-48 | A REJECTED booking still makes a new request for its slot fail. A request that passes the session, input, room and slot-offered checks is refused as a slot conflict. |
| BookingActions.UnofferedSlotRefused | src/actions/room/create-booking.ts:35-37 | A signed-in caller asking for a slot the room does not offer is refused for that reason, before any conflict check. |
| BookingActions.HttpStatus | src/app/api/bookings/route.ts:49-112 | The route answers 401 exactly for a missing session, 404 exactly for an unknown room, and 400 exactly for a taken slot. |
| BookingActions.PostBooking | src/app/api/bookings/route.ts:47-113 | Refuses a missing session (401) and an unknown room (404), then a taken slot. A missing `bookedBy` is refused as malformed when the session lacks a name or an e-mail, and a record that fails the schema validators is refused. It succeeds exactly when none of these applies. On success it appends one PENDING booking that uses the session's name and e-mail, or the body's when those are empty, and it keeps keys unique. |
| BookingActions.PostRecord | src/app/api/bookings/route.ts:81-88 | The record the route creates: PENDING, the caller's id, the room's name, and the session's name and e-mail, falling back to the body's when empty. There is no record exactly when the body lacks `bookedBy` and the session lacks a name or an e-mail. |
| BookingActions.PostSkipsSlotMembership | src/app/api/bookings/route.ts:67-88 | For a free slot the room does not offer, the server action refuses while the POST route creates the booking. |
| BookingActions.Amend | src/actions/room/update-booking.ts:39-42 | The saved booking has the requested status. Its note is replaced only by a non-empty new note. No other field changes, so id, key and owner are kept, and so is the record's validity. |
| BookingActions.AmendIdempotent | src/actions/room/update-booking.ts:39-45 | Saving the same update twice leaves what saving it once left. |
| BookingActions.UpdateBooking | src/actions/room/update-booking.ts:11-66 | Refusals come in order: no session, not an admin, invalid input, unknown booking. Otherwise exactly that booking is amended, all others are unchanged, and slot keys stay unique. |
| BookingActions.UpdateBookingAnyTransition | src/actions/room/update-booking.ts:39 | An admin can move any existing booking to any status. No transition is forbidden. |
| BookingActions.UpdateBookingStatus | src/actions/booking/update-status.ts:9-60 | Admins only. An admin naming an unknown booking gets BookingNotFound. It succeeds exactly for an existing booking and changes nothing but that booking's status. It reports the stored note, or "" when there is none. |
| BookingActions.DeleteBooking | src/actions/room/delete-booking.ts:9-44 | Refusals, each with its own error: no session, an empty id, an unknown booking, and a caller who is neither its owner nor an admin. Otherwise exactly that booking is removed. |
| BookingActions.DeleteRequiresOwnerOrAdmin | src/actions/room/delete-booking.ts:32-34 | A caller who neither owns the booking nor is an admin is refused. |
| BookingActions.DeleteFreesSlot | src/actions/room/delete-booking.ts:37 | With unique keys, deleting a booking frees its slot and keeps every other booking. |
| BookingActions.CreateAfterDelete | src/actions/room/delete-booking.ts:37 | After the owner or an admin deletes a booking, a new request for its slot no longer conflicts. |
| BookingQueries.ViewFilterMembers | src/actions/room/get-all-bookings.ts:27-40 | A query result holds exactly the normalized stored bookings that pass the query's filter, all normalized. |
| BookingQueries.GetBookings | src/actions/room/get-bookings.ts:10-50 | Refuses an empty room id or a malformed date, then an unknown room with RoomNotFound, and succeeds exactly for a known room. The result is sorted by slot, holds exactly that room's bookings on that date in normalized form, and has as many entries as there are matching stored bookings. |
| BookingQueries.ViewFilterLength | src/actions/room/get-bookings.ts:34-50 | When the filter ignores status and note, normalizing before filtering keeps the count. |
| BookingQueries.GetAllBookings | src/actions/room/get-all-bookings.ts:13-40 | Admins only. The result is a permutation of all normalized bookings, sorted by date descending and then slot ascending. |
| BookingQueries.GetMyBookings | src/actions/booking/get-my-bookings.ts:14-38 | Any signed-in caller receives exactly their own bookings, normalized, sorted by date descending and slot ascending, none lost. |
| BookingQueries.ListCallerBookings | src/app/api/bookings/route.ts:9-44 | A signed-in caller receives their own bookings, newest first, as many as the caller has stored. Each carries a status, PENDING when none is stored, because the hydrated document applies the schema default. Notes are left out. |
| BookingQueries.RoomEntries | src/actions/room/get-today-bookings.ts:33-51 | One room's entry holds exactly today's bookings of that room, relabelled with the room's name, in slot order. It has one element per such booking. |
| BookingQueries.GetTodayBookings | src/actions/room/get-today-bookings.ts:20-56 | The board has a key for every stored room and no other, each entry in slot order. With unique room ids, a room's entry is exactly its bookings of today, one element per stored booking of that room and date. |
| BookingQueries.BoardCounts | src/actions/room/get-today-bookings.ts:23-51 | With unique room ids, each room's entry is as long as the list of that room's stored bookings of the date. |
| BookingQueries.BoardFacts | src/actions/room/get-today-bookings.ts:23-51 | The map built room by room in name order has the same keys, order and entries as the board. |
| AutoResolution.Decide | src/app/admin/bookings/page.tsx:41-59 | A PENDING request is rejected with the automatic rejection note when its slot shows an APPROVED booking in the snapshot, and approved with the approval note otherwise. |
| AutoResolution.Decisions | src/app/admin/bookings/page.tsx:40-62 | The loop sends one decision per PENDING booking of the snapshot and nothing for the rest. The count equals the number of PENDING bookings, and the i-th decision is about the i-th PENDING booking in snapshot order. |
| AutoResolution.ApplyAll | src/app/admin/bookings/page.tsx:54-60 | Running the updates in order changes only bookings. It keeps their number, ids and slot keys, and an empty run changes nothing. |
| AutoResolution.ApplyAllEffect | src/app/admin/bookings/page.tsx:40-62 | For an admin, a run of agreeing updates on a well-formed ledger never fails. Each booking ends amended by its own update, if it has one. |
| AutoResolution.Resolve | src/app/admin/bookings/page.tsx:43-59 | Reference outcome for one PENDING booking: REJECTED with the rejection note when its slot holds an APPROVED booking, else APPROVED with the approval note. Id, key and owner are kept. |
| AutoResolution.ResolvePending | src/app/admin/bookings/page.tsx:40-62 | Reference outcome of a pass: each PENDING booking resolved, every other booking unchanged. |
| AutoResolution.FetchBookings | src/app/admin/bookings/page.tsx:35-72 | A page load touches only bookings and keeps their number. A refused read changes nothing. |
| AutoResolution.FetchResolves | src/app/admin/bookings/page.tsx:35-72 | For an admin on a well-formed ledger the pass performs exactly the reference outcome, and the page shows a list. |
| AutoResolution.SnapshotApprovedAt | src/app/admin/bookings/page.tsx:37-49 | The snapshot shows an APPROVED booking at a slot exactly when the ledger holds one. |
| AutoResolution.PassOutcomeAt | src/app/admin/bookings/page.tsx:40-62 | Each stored booking ends as the reference outcome says. |
| AutoResolution.PassTouchesOnlyPending | src/app/admin/bookings/page.tsx:41 | Non-PENDING bookings are left alone, and no booking is PENDING after the pass. |
| AutoResolution.PassIdempotent | src/app/admin/bookings/page.tsx:35-72 | The resolved ledger stays well formed, resolving again changes nothing, and the next page load sends no update. |
| AutoResolution.UniqueKeysApproveAll | src/models/Booking.ts:49-50 | While the unique index holds, every PENDING booking is approved. |
| AutoResolution.DuplicatePendingBothApproved | src/app/admin/bookings/page.tsx:43-52 | Two PENDING requests for one slot, with no APPROVED one, are both approved. |
| AutoResolution.ManualUpdate | src/app/admin/bookings/page.tsx:78-84 | The approve and reject buttons send the chosen status with its fixed manual note. |
| AutoResolution.HandleAction | src/app/admin/bookings/page.tsx:74-93 | A manual decision keeps the number of bookings. A refused update only alerts: the database and the page's list stay as they were. An accepted one is followed by a fresh load of the page. |
| AutoResolution.ManualDecisionSticks | src/app/admin/bookings/page.tsx:74-93 | After a manual decision and the reload it triggers, the booking carries the chosen status and the manual note. The automatic pass does not override it. |
| AutoResolution.FilterByStatus | src/app/admin/bookings/page.tsx:101-103 | "ALL" keeps the list. Any other value keeps exactly the bookings whose status has that name, in order. |
| AutoResolution.UnknownStatusFilterEmpty | src/app/admin/bookings/page.tsx:101-103 | A filter value naming no status shows nothing. |
| AutoResolution.StatusText | src/app/admin/bookings/page.tsx:118-129 | An unknown status text is shown as it is. |
| AutoResolution.StatusTextInjective | src/app/admin/bookings/page.tsx:118-129 | The three labels are distinct, so a label identifies its status. |
| Availability.Card | src/app/page.tsx:42-56 | A room card keeps the room's id and name. It shows the room's board entries in board order, each booked exactly when APPROVED. Its free count is the room's offered slots minus the bookings shown as booked. A room absent from the board shows no bookings and every slot free. |
| Availability.ApprovedCountIsBooked | src/app/page.tsx:49-55 | Counting APPROVED entries gives the same number as counting the views marked booked. |
| Availability.OnlyApprovedReduces | src/app/page.tsx:53-55 | Adding a PENDING or REJECTED entry leaves the free count as it was. Adding an APPROVED one lowers it by one. |
| Availability.HomeCards | src/app/page.tsx:36-56 | One card per stored room, exactly the cards of the stored rooms, newest room first. |
| Availability.NewestFirst | src/app/api/rooms/today/route.ts:16 | A list sorted by creation time descending puts no room before a newer one. |
| Availability.BookedIffApprovedToday | src/app/page.tsx:49-52 | With unique room ids, a card shows a slot as booked exactly when an APPROVED booking of that room exists today at that slot. |
| Availability.ClampHour | src/app/page.tsx:72-75 | The hour used is the clock's hour held to the range 9..16. |
| Availability.CurrentTimeSlot | src/app/page.tsx:70-76 | The current slot is the hourly slot starting at the clamped hour, and it is well formed. |
| Availability.IsInUse | src/app/page.tsx:102-103 | "In use" implies a view of the current slot marked booked. When slots are distinct, the converse holds as well. |
| Availability.TodayCounts | src/app/api/rooms/today/route.ts:19-37 | Each entry holds the stored APPROVED bookings of its room and day with their multiplicities, and its free count is eight minus their number. |
| Availability.RoomsToday | src/app/api/rooms/today/route.ts:7-47 | One entry per stored room, newest first. Each lists exactly the room's APPROVED bookings of today, each as often as it is stored. The free slots are eight minus the number of those stored bookings. |
| Availability.AvailabilityCanGoNegative | src/app/api/rooms/today/route.ts:34-36 | Nine approved bookings give a free count of minus one. |
| RoomActions.CreateRoom | src/actions/room/create-room.ts:17-75 | Any caller may create a room. Invalid input is refused, and so is a name that is blank once trimmed. Otherwise exactly one room with the trimmed name is appended. |
| RoomActions.BlankNameRefusedAtSave | src/models/Room.ts:4-8 | A name of one blank passes the schema but fails at save. |
| RoomActions.CreateAllowsDuplicateName | src/actions/room/create-room.ts:30-45 | Creating a room whose name another room already has succeeds, and both rooms then carry the name. |
| RoomActions.UpdateRoom | src/actions/room/update-room.ts:26-97 | Refusals come in order: no session, not an admin, invalid patch, unknown room, a trimmed name held by another room. Otherwise exactly that room takes the patched fields. |
| RoomActions.KeepOwnNameAllowed | src/actions/room/update-room.ts:53-60 | A room may keep its own name, blanks around it included: only another room's name clashes. |
| RoomActions.UpdateRoomIdempotent | src/actions/room/update-room.ts:63-77 | Applying the same patch twice leaves what applying it once left. |
| RoomActions.UpdateKeepsNamesDistinct | src/actions/room/update-room.ts:53-60 | An update keeps room names pairwise distinct. |
| RoomActions.DeleteRoom | src/actions/room/delete-room.ts:10-38 | Admins only. It succeeds exactly for an existing room, and removes exactly that room. |
| RoomActions.DeleteRoomLeavesOrphans | src/actions/room/delete-room.ts:29 | The room is gone, but its bookings remain. |
| RoomActions.DeleteUndoesCreate | src/actions/room/delete-room.ts:29 | Deleting a room just created under a fresh id restores the room list. |
| RoomActions.UpdateUser | src/actions/admin/update-user.ts:9-57 | Refusals come in order, each with its own error: no session, not an admin, own account, unknown user (UserNotFound). Otherwise only that user's role changes. |
| RoomActions.NoSelfDemotion | src/actions/admin/update-user.ts:24-27 | An admin can never change their own role. |
| RoomActions.UpdateUserIdempotent | src/actions/admin/update-user.ts:33-37 | Setting a role twice leaves what setting it once left. |
| RoomPages.FilterRooms | src/app/rooms/page.tsx:40-53 | The listed rooms are exactly those whose lower-cased name contains the lower-cased query and whose capacity fits the bucket, in their original order. |
| RoomPages.BucketsPartition | src/app/rooms/page.tsx:44-50 | Every capacity is in exactly one of small, medium and large. |
| RoomPages.EmptySearchKeepsAll | src/app/rooms/page.tsx:40-53 | An empty query with "all" lists every room unchanged. |
| RoomPages.UnknownCapacityMatchesNothing | src/app/rooms/page.tsx:44-50 | A bucket name outside the four known ones lists nothing. |
| RoomPages.SearchIgnoresCase | src/app/rooms/page.tsx:41-43 | Lower-casing the query does not change the result. |
| RoomPages.OfferedSlots | src/app/admin/rooms/create/page.tsx:48 | The form offers 23 well-formed hourly slots. |
| RoomPages.ToggleSlot | src/app/admin/rooms/create/page.tsx:270-274 | Checking adds the slot and keeps the list sorted. Unchecking removes every copy of the slot and keeps the rest in order, each as often as it was selected. |
| RoomPages.UncheckUndoesCheck | src/app/admin/rooms/create/page.tsx:270-274 | Unchecking a slot just checked restores a sorted selection that did not hold it. |
| RoomPages.ToggleKeepsOffered | src/app/admin/rooms/create/page.tsx:270-274 | Toggling offered slots selects only offered slots. |
| RoomPages.SubmitCreateRoom | src/app/admin/rooms/create/page.tsx:51-90 | The form's schema check runs first and blocks an invalid form. A valid form with an empty selection only warns. Otherwise createRoom is called with the selection as the room's slots, never fails its own schema check, and succeeds exactly when the trimmed name is non-empty. |
| RoomPages.OfferedSelectionCreates | src/app/admin/rooms/create/page.tsx:59-75 | A non-empty selection of offered slots, with valid other fields and a non-blank name, creates the room. |

## Left out

- Signing in: the Google OAuth exchange, cookies and the NextAuth session machinery are left out. The session is a parameter, either absent or a `Caller` built by `Auth.SessionUser`.
- Reading the admin setting: the environment variable and `JSON.parse` become the `AdminConfig` parameter, either parsed or unparsable.
- Clocks: the clock, time zones, `createdAt`/`updatedAt` stamping and date formatting are left out. "Today", the current hour and creation times are parameters.
- Ids: `ObjectId` generation is a parameter. A malformed id, which Mongoose rejects with a cast error, is modelled as "not found".
- Data access: network, database connection, logging, toasts, routing and rendering are left out. Server-side errors surface as the `Result` error.
- Concurrency: all operations are modelled as running one at a time. Two concurrent creates could both pass the conflict check, and the unique index would stop the second; the index is modelled only as the `UniqueKeys` invariant.
- Zod's e-mail check: `.email()` is approximated by the storage pattern (non-blank, @, non-blank, dot, non-blank).
- Zod's URL check: `.url()` is approximated by "starts with a URL scheme and a colon".
- Text order and case: string order is the order of `char` values; JavaScript compares UTF-16 code units, which agree on the characters that occur in slots and dates. `toLowerCase` is modelled on ASCII letters only.
- Hourly rates: rates are reals; only their sign matters to any rule, and floating-point rounding is left out.
- Mongoose strict mode: the room model declares no `availableTimeSlots` path. The actions read and write it as a room field, and the model follows the actions.
- Extra POST body fields: the route copies the whole request body into the new document. Only room, date, slot, booker and note are modelled; the route's own fields override the rest and the model's validators check the formats on save.
- Status strings in `updateBookingStatus`: they are typed, so statuses outside the enumeration are not modelled for it.
- Sort ties: the relative order of equal keys under the database's sort is not specified. The model's sort is stable, and contracts state only sortedness and membership.
- Thin endpoints: the statistics action, the admin API routes, user listing, single-room and room-list reads, and the my-bookings route are plain reads or deletes with no rule beyond those modelled here. They are not modelled. In particular the my-bookings route's DELETE does not check ownership.
- TimeSlots.Generate24HourTimeSlots: requires a positive interval. With zero or a negative interval the JavaScript loop never terminates.
- BookingQueries.GetTodayBookings: the exact contents of each room's entry are stated only when room ids are unique. With duplicate ids, the later room in name order wins, and only the keys and order are stated.
- Availability.HomeCards: takes today's board as a parameter rather than calling `GetTodayBookings` itself, because the two reads run in parallel on the page.

=== FILE: auth.dfy ===
/** Role resolution of src/lib/auth.ts: the `jwt` callback derives a role from
    an allow-list of admin e-mail addresses, and the `session` callback copies
    the token into the signed-in caller every action receives. */
module Auth {
  import opened Outcomes

  /** `roleSchema`: `USER | ADMIN`. */
  datatype Role = User | Admin

  /** The admin allow-list configuration: the variable unset (or empty, which
      falls back to `"[]"`), a value JSON cannot parse, or a parsed list. */
  datatype AdminConfig = Unset | Unparsable | Parsed(emails: seq<string>)

  /** `getAdminEmails`: a parse failure yields the empty list. */
  function AdminEmails(config: AdminConfig): (r: seq<string>)
    ensures config.Parsed? ==> r == config.emails
    ensures !config.Parsed? ==> r == []
  {
    match config
    case Parsed(emails) => emails
    case _ => []
  }

  /** The NextAuth `trigger` argument of the `jwt` callback. */
  datatype Trigger = SignIn | SignUp | Update | NoTrigger

  /** The fields of the JWT the callbacks read or write; an empty e-mail is
      falsy in JavaScript, like an absent one. */
  datatype Token = Token(sub: string, name: Option<string>, email: Option<string>, role: Option<Role>)

  /** The role the `jwt` callback assigns when it recomputes one. */
  function ResolveRole(email: Option<string>, config: AdminConfig): (r: Role)
    ensures r == Admin <==> email.Some? && email.value != "" && email.value in AdminEmails(config)
  {
    if email.Some? && email.value != "" && email.value in AdminEmails(config) then Admin else User
  }

  /** The `jwt` callback: the role is recomputed on sign-in, on an explicit
      update, or when the token carries none; otherwise it is kept. */
  function Jwt(token: Token, trigger: Trigger, config: AdminConfig): (r: Token)
    ensures r.role.Some?
    ensures (trigger == SignIn || trigger == Update || token.role.None?) ==> r.role == Some(ResolveRole(token.email, config))
    ensures !(trigger == SignIn || trigger == Update || token.role.None?) ==> r.role == token.role
    ensures r.sub == token.sub && r.email == token.email && r.name == token.name
  {
    if trigger == SignIn || trigger == Update || token.role.None? then
      token.(role := Some(ResolveRole(token.email, config)))
    else
      token
  }

  /** The session user every server action sees as `session.user`. */
  datatype Caller = Caller(id: string, name: string, email: string, role: Role)

  predicate IsAdmin(c: Caller) {
    c.role == Admin
  }

  /** The `session` callback: id, role, e-mail and name come from the token.
      A token without a role (which `Jwt` never produces) acts as a non-admin
      in every `role !== "ADMIN"` check, so it is read as `User`. */
  function SessionUser(token: Token): (c: Caller)
    ensures c.id == token.sub
    ensures token.role.Some? ==> c.role == token.role.value
    ensures IsAdmin(c) <==> token.role == Some(Admin)
  {
    Caller(token.sub, token.name.GetOr(""), token.email.GetOr(""), token.role.GetOr(User))
  }

  /** Signing in: the session user is an admin exactly when the e-mail is
      present and on the parsed allow-list. */
  lemma SignInRole(token: Token, config: AdminConfig)
    ensures IsAdmin(SessionUser(Jwt(token, SignIn, config)))
        <==> token.email.Some? && token.email.value != "" && token.email.value in AdminEmails(config)
  {
  }

  /** An allow-list that does not parse makes everybody a plain user. */
  lemma UnparsableConfigMeansNoAdmins(token: Token, trigger: Trigger)
    requires trigger == SignIn || trigger == Update || token.role.None?
    ensures Jwt(token, trigger, Unparsable).role == Some(User)
  {
  }

  /** Between sign-ins a stored role survives a change of the allow-list. */
  lemma RoleKeptWithoutTrigger(token: Token, config: AdminConfig)
    requires token.role.Some?
    ensures Jwt(token, NoTrigger, config).role == token.role
  {
  }
}

=== FILE: auto_resolution.dfy ===
/** The admin bookings page (src/app/admin/bookings/page.tsx): the automatic
    review pass of `fetchBookings`, the manual approve/reject action, the status
    filter and the status labels.  The pass decides every PENDING booking from
    the snapshot read before it starts: REJECTED when the snapshot holds an
    APPROVED booking of the same room, date and slot, APPROVED otherwise. */
module AutoResolution {
  import opened Outcomes
  import opened Seqs
  import opened Formats
  import opened Auth
  import opened Records
  import opened BookingActions
  import opened BookingQueries

  const AutoRejectNote: string := "該時段已有其他預約"
  const AutoApproveNote: string := "系統自動核准"
  const ManualApproveNote: string := "管理員手動核准"
  const ManualRejectNote: string := "管理員手動拒絕"

  /** Some booking of `bs` with key `key` reads as APPROVED. */
  predicate ApprovedAt(bs: seq<Booking>, key: SlotKey) {
    exists i :: 0 <= i < |bs| && StatusOf(bs[i]) == Approved && KeyOf(bs[i]) == key
  }

  /** The update the pass sends for a PENDING booking `b` of the snapshot. */
  function Decide(snapshot: seq<Booking>, b: Booking): (u: UpdateBookingInput)
    ensures u.id == b.id && UpdateBookingInputValid(u) == (b.id != "")
    ensures ApprovedAt(snapshot, KeyOf(b)) ==> u.status == "REJECTED" && u.note == Some(AutoRejectNote)
    ensures !ApprovedAt(snapshot, KeyOf(b)) ==> u.status == "APPROVED" && u.note == Some(AutoApproveNote)
  {
    if ApprovedAt(snapshot, KeyOf(b)) then UpdateBookingInput(b.id, "REJECTED", Some(AutoRejectNote))
    else UpdateBookingInput(b.id, "APPROVED", Some(AutoApproveNote))
  }

  /** `booking.status === "PENDING"` on the status as read. */
  function IsPending(): Booking -> bool {
    (b: Booking) => StatusOf(b) == Pending
  }

  /** The updates the loop sends, in order, for `rest`, a suffix of `snapshot`:
      one per PENDING booking, the i-th for the i-th PENDING booking. */
  function Decisions(snapshot: seq<Booking>, rest: seq<Booking>): (us: seq<UpdateBookingInput>)
    ensures |us| <= |rest|
    ensures |us| == |Filter(rest, IsPending())|
    ensures forall i :: 0 <= i < |us| ==> us[i] == Decide(snapshot, Filter(rest, IsPending())[i])
    ensures forall u :: u in us <==> exists b :: b in rest && StatusOf(b) == Pending && u == Decide(snapshot, b)
  {
    if rest == [] then []
    else
      var tail := Decisions(snapshot, rest[1..]);
      var us := if StatusOf(rest[0]) == Pending then [Decide(snapshot, rest[0])] + tail else tail;
      DecisionsStep(snapshot, rest, tail, us);
      us
  }

  /** The step of `Decisions`: the first booking's update, if PENDING, goes in
      front of the updates for the rest. */
  lemma DecisionsStep(snapshot: seq<Booking>, rest: seq<Booking>, tail: seq<UpdateBookingInput>, us: seq<UpdateBookingInput>)
    requires rest != []
    requires |tail| == |Filter(rest[1..], IsPending())|
    requires forall i :: 0 <= i < |tail| ==> tail[i] == Decide(snapshot, Filter(rest[1..], IsPending())[i])
    requires us == if StatusOf(rest[0]) == Pending then [Decide(snapshot, rest[0])] + tail else tail
    ensures |us| == |Filter(rest, IsPending())|
    ensures forall i :: 0 <= i < |us| ==> us[i] == Decide(snapshot, Filter(rest, IsPending())[i])
    ensures forall u :: u in us <==> exists b :: b in rest && StatusOf(b) == Pending && u == Decide(snapshot, b)
  {
    var ft := Filter(rest[1..], IsPending());
    var f := Filter(rest, IsPending());
    assert f == if StatusOf(rest[0]) == Pending then [rest[0]] + ft else ft;
    DecisionsMembers(snapshot, rest, f, us);
  }

  /** Updates that follow the PENDING bookings one for one are exactly the
      decisions about PENDING bookings. */
  lemma DecisionsMembers(snapshot: seq<Booking>, rest: seq<Booking>, f: seq<Booking>, us: seq<UpdateBookingInput>)
    requires f == Filter(rest, IsPending())
    requires |us| == |f| && forall i :: 0 <= i < |us| ==> us[i] == Decide(snapshot, f[i])
    ensures forall u :: u in us <==> exists b :: b in rest && StatusOf(b) == Pending && u == Decide(snapshot, b)
  {
    forall u | u in us ensures exists b :: b in rest && StatusOf(b) == Pending && u == Decide(snapshot, b) {
      var i :| 0 <= i < |us| && us[i] == u;
      assert f[i] in f;
      assert f[i] in rest && IsPending()(f[i]);
    }
    forall b | b in rest && StatusOf(b) == Pending ensures Decide(snapshot, b) in us {
      assert IsPending()(b);
      assert b in f;
      var i :| 0 <= i < |f| && f[i] == b;
      assert us[i] == Decide(snapshot, b);
    }
  }

  /** The updates of one pass over `data`. */
  function AutoUpdates(data: seq<Booking>): seq<UpdateBookingInput> {
    Decisions(data, data)
  }

  /** The state after a run of `await updateBooking(...)` calls: the first
      failure ends the loop and the updates already saved stay saved. */
  datatype PassResult = PassResult(db: Db, error: Option<Error>)

  function ApplyAll(db: Db, caller: Option<Caller>, us: seq<UpdateBookingInput>): (r: PassResult)
    ensures r.db.rooms == db.rooms && r.db.users == db.users
    ensures |r.db.bookings| == |db.bookings|
    ensures forall k :: 0 <= k < |db.bookings| ==>
      r.db.bookings[k].id == db.bookings[k].id && KeyOf(r.db.bookings[k]) == KeyOf(db.bookings[k])
    ensures us == [] ==> r == PassResult(db, None)
    decreases |us|
  {
    if us == [] then PassResult(db, None)
    else match UpdateBooking(db, caller, us[0])
      case Err(e) => PassResult(db, Some(e))
      case Ok(step) => ApplyAll(step.db, caller, us[1..])
  }

  /** The first update in `us` for booking `id`, if any. */
  function UpdateFor(us: seq<UpdateBookingInput>, id: string): (r: Option<UpdateBookingInput>)
    ensures r.Some? ==> r.value in us && r.value.id == id
    ensures r.None? ==> forall u :: u in us ==> u.id != id
  {
    if us == [] then None
    else if us[0].id == id then Some(us[0])
    else UpdateFor(us[1..], id)
  }

  /** Updates an admin sends for existing bookings, agreeing whenever they name
      the same booking. */
  predicate ConsistentUpdates(bs: seq<Booking>, us: seq<UpdateBookingInput>) {
    && (forall u :: u in us ==> UpdateBookingInputValid(u) && exists k :: 0 <= k < |bs| && bs[k].id == u.id)
    && (forall u, v :: u in us && v in us && u.id == v.id ==> u == v)
  }

  /** Amending one booking keeps the ledger well formed. */
  lemma AmendKeepsLedger(bs: seq<Booking>, k: nat, u: UpdateBookingInput)
    requires LedgerWellFormed(bs) && k < |bs|
    ensures LedgerWellFormed(bs[k := Amend(bs[k], u)])
  {
    var bs1 := bs[k := Amend(bs[k], u)];
    assert forall j :: 0 <= j < |bs| ==> bs1[j].id == bs[j].id && KeyOf(bs1[j]) == KeyOf(bs[j]);
  }

  /** An admin's valid update of an existing booking on a well-formed ledger
      succeeds and amends exactly that booking. */
  lemma UpdateStep(db: Db, admin: Caller, u: UpdateBookingInput, k0: nat)
    requires IsAdmin(admin) && LedgerWellFormed(db.bookings) && UpdateBookingInputValid(u)
    requires k0 < |db.bookings| && db.bookings[k0].id == u.id
    ensures UpdateBooking(db, Some(admin), u)
         == Ok(Step(db.(bookings := db.bookings[k0 := Amend(db.bookings[k0], u)]), Amend(db.bookings[k0], u)))
  {
    FindBookingUnique(db.bookings, k0);
  }

  /** The rest of a consistent run stays consistent after its first update. */
  lemma ConsistentRest(bs: seq<Booking>, k0: nat, us: seq<UpdateBookingInput>)
    requires ConsistentUpdates(bs, us) && us != [] && k0 < |bs|
    ensures ConsistentUpdates(bs[k0 := Amend(bs[k0], us[0])], us[1..])
  {
    var bs1 := bs[k0 := Amend(bs[k0], us[0])];
    forall v | v in us[1..] ensures UpdateBookingInputValid(v) && exists k :: 0 <= k < |bs1| && bs1[k].id == v.id {
      assert v in us;
      var k :| 0 <= k < |bs| && bs[k].id == v.id;
      assert bs1[k].id == v.id;
    }
    forall v, w | v in us[1..] && w in us[1..] && v.id == w.id ensures v == w {
      assert v in us && w in us;
    }
  }

  /** On a well-formed ledger every update of a consistent run succeeds, and
      each booking ends amended by its update, or untouched if it has none. */
  lemma {:induction false} ApplyAllEffect(db: Db, admin: Caller, us: seq<UpdateBookingInput>)
    requires IsAdmin(admin) && LedgerWellFormed(db.bookings)
    requires ConsistentUpdates(db.bookings, us)
    ensures ApplyAll(db, Some(admin), us).error.None?
    ensures forall k :: 0 <= k < |db.bookings| ==>
      ApplyAll(db, Some(admin), us).db.bookings[k] == Updated(db.bookings[k], us)
    decreases |us|
  {
    if us != [] {
      var bs := db.bookings;
      var u := us[0];
      assert u in us;
      var k0 :| 0 <= k0 < |bs| && bs[k0].id == u.id;
      var bs1 := bs[k0 := Amend(bs[k0], u)];
      var db1 := db.(bookings := bs1);
      ApplyAllFirst(db, admin, us, k0);
      AmendKeepsLedger(bs, k0, u);
      ConsistentRest(bs, k0, us);
      ApplyAllEffect(db1, admin, us[1..]);
      UpdatedAllStep(bs, k0, us);
      var r := ApplyAll(db1, Some(admin), us[1..]);
      forall k | 0 <= k < |bs| ensures r.db.bookings[k] == Updated(bs[k], us) {
        assert r.db.bookings[k] == Updated(bs1[k], us[1..]);
      }
    }
  }

  /** The run's first update succeeds and the rest runs on its result. */
  lemma ApplyAllFirst(db: Db, admin: Caller, us: seq<UpdateBookingInput>, k0: nat)
    requires IsAdmin(admin) && LedgerWellFormed(db.bookings)
    requires us != [] && UpdateBookingInputValid(us[0])
    requires k0 < |db.bookings| && db.bookings[k0].id == us[0].id
    ensures ApplyAll(db, Some(admin), us)
         == ApplyAll(db.(bookings := db.bookings[k0 := Amend(db.bookings[k0], us[0])]), Some(admin), us[1..])
  {
    UpdateStep(db, admin, us[0], k0);
  }

  /** A booking as a run leaves it: amended by the run's update for it, if any. */
  function Updated(b: Booking, us: seq<UpdateBookingInput>): Booking {
    match UpdateFor(us, b.id)
    case Some(u) => Amend(b, u)
    case None => b
  }

  lemma UpdatedAllStep(bs: seq<Booking>, k0: nat, us: seq<UpdateBookingInput>)
    requires UniqueIds(bs) && ConsistentUpdates(bs, us) && us != []
    requires k0 < |bs| && bs[k0].id == us[0].id
    ensures forall k :: 0 <= k < |bs| ==> Updated(bs[k0 := Amend(bs[k0], us[0])][k], us[1..]) == Updated(bs[k], us)
  {
    forall k | 0 <= k < |bs| ensures Updated(bs[k0 := Amend(bs[k0], us[0])][k], us[1..]) == Updated(bs[k], us) {
      UpdatedStep(bs, k0, us, k);
    }
  }

  lemma UpdatedStep(bs: seq<Booking>, k0: nat, us: seq<UpdateBookingInput>, k: nat)
    requires UniqueIds(bs) && ConsistentUpdates(bs, us) && us != []
    requires k0 < |bs| && bs[k0].id == us[0].id && k < |bs|
    ensures Updated(bs[k0 := Amend(bs[k0], us[0])][k], us[1..]) == Updated(bs[k], us)
  {
    var u := us[0];
    if k == k0 {
      assert UpdateFor(us, bs[k].id) == Some(u);
      var r := UpdateFor(us[1..], bs[k].id);
      if r.Some? {
        assert r.value in us && u in us;
        AmendIdempotent(bs[k], u);
      }
    } else {
      assert bs[k].id != u.id;
    }
  }

  /** The reference outcome of one pass: each PENDING booking decided against
      the ledger as it stood before the pass, everything else left alone. */
  function Resolve(bs: seq<Booking>, b: Booking): (r: Booking)
    ensures r.id == b.id && KeyOf(r) == KeyOf(b) && r.userId == b.userId
    ensures StatusOf(r) == (if ApprovedAt(bs, KeyOf(b)) then Rejected else Approved)
    ensures r.note == Some(if ApprovedAt(bs, KeyOf(b)) then AutoRejectNote else AutoApproveNote)
  {
    if ApprovedAt(bs, KeyOf(b)) then b.(status := Some(Rejected), note := Some(AutoRejectNote))
    else b.(status := Some(Approved), note := Some(AutoApproveNote))
  }

  function ResolvePending(bs: seq<Booking>): (r: seq<Booking>)
    ensures |r| == |bs|
    ensures forall k :: 0 <= k < |bs| ==> r[k] == if StatusOf(bs[k]) == Pending then Resolve(bs, bs[k]) else bs[k]
  {
    seq(|bs|, k requires 0 <= k < |bs| => if StatusOf(bs[k]) == Pending then Resolve(bs, bs[k]) else bs[k])
  }

  /** What the page holds after `fetchBookings`: the database, and the list it
      shows or the error it reports. */
  datatype Page = Page(db: Db, shown: Result<seq<Booking>>)

  /** `fetchBookings`: read every booking, send one update per PENDING one,
      then read again. */
  function FetchBookings(db: Db, caller: Option<Caller>): (p: Page)
    ensures p.db.rooms == db.rooms && p.db.users == db.users
    ensures |p.db.bookings| == |db.bookings|
    ensures GetAllBookings(db, caller).Err? ==> p == Page(db, Err(GetAllBookings(db, caller).error))
  {
    match GetAllBookings(db, caller)
    case Err(e) => Page(db, Err(e))
    case Ok(data) =>
      var pass := ApplyAll(db, caller, AutoUpdates(data));
      if pass.error.Some? then Page(pass.db, Err(pass.error.value))
      else Page(pass.db, GetAllBookings(pass.db, caller))
  }

  /** The snapshot is a copy of the ledger: it sees an APPROVED booking of a
      key exactly when the ledger holds one. */
  lemma SnapshotApprovedAt(bs: seq<Booking>, data: seq<Booking>, key: SlotKey)
    requires forall x :: x in data <==> exists i :: 0 <= i < |bs| && x == Normalize(bs[i])
    ensures ApprovedAt(data, key) == ApprovedAt(bs, key)
  {
    if ApprovedAt(data, key) {
      var j :| 0 <= j < |data| && StatusOf(data[j]) == Approved && KeyOf(data[j]) == key;
      assert data[j] in data;
      var i :| 0 <= i < |bs| && data[j] == Normalize(bs[i]);
    }
    if ApprovedAt(bs, key) {
      var i :| 0 <= i < |bs| && StatusOf(bs[i]) == Approved && KeyOf(bs[i]) == key;
      assert Normalize(bs[i]) in data;
      var j :| 0 <= j < |data| && data[j] == Normalize(bs[i]);
    }
  }

  /** The pass's updates, read off a snapshot of a well-formed ledger, are
      consistent. */
  lemma PassConsistent(bs: seq<Booking>, data: seq<Booking>)
    requires LedgerWellFormed(bs)
    requires forall x :: x in data <==> exists i :: 0 <= i < |bs| && x == Normalize(bs[i])
    ensures ConsistentUpdates(bs, AutoUpdates(data))
  {
    var us := AutoUpdates(data);
    forall u | u in us ensures UpdateBookingInputValid(u) && exists k :: 0 <= k < |bs| && bs[k].id == u.id {
      PassUpdateValid(bs, data, u);
    }
    forall u, v | u in us && v in us && u.id == v.id ensures u == v {
      PassUpdatesAgree(bs, data, u, v);
    }
  }

  /** Each update of the pass is valid and names a stored booking. */
  lemma PassUpdateValid(bs: seq<Booking>, data: seq<Booking>, u: UpdateBookingInput)
    requires forall i :: 0 <= i < |bs| ==> bs[i].id != ""
    requires forall x :: x in data <==> exists i :: 0 <= i < |bs| && x == Normalize(bs[i])
    requires u in AutoUpdates(data)
    ensures UpdateBookingInputValid(u) && exists k :: 0 <= k < |bs| && bs[k].id == u.id
  {
    var b :| b in data && StatusOf(b) == Pending && u == Decide(data, b);
    var i :| 0 <= i < |bs| && b == Normalize(bs[i]);
    assert bs[i].id == u.id;
  }

  /** Two updates of the pass naming the same booking are the same update. */
  lemma PassUpdatesAgree(bs: seq<Booking>, data: seq<Booking>, u: UpdateBookingInput, v: UpdateBookingInput)
    requires UniqueIds(bs)
    requires forall x :: x in data <==> exists i :: 0 <= i < |bs| && x == Normalize(bs[i])
    requires u in AutoUpdates(data) && v in AutoUpdates(data) && u.id == v.id
    ensures u == v
  {
    var b :| b in data && StatusOf(b) == Pending && u == Decide(data, b);
    var c :| c in data && StatusOf(c) == Pending && v == Decide(data, c);
    var i :| 0 <= i < |bs| && b == Normalize(bs[i]);
    var j :| 0 <= j < |bs| && c == Normalize(bs[j]);
    assert bs[i].id == bs[j].id;
  }

  /** A stored booking has an update in the pass exactly when it is PENDING,
      and then it is the decision on its snapshot copy. */
  lemma PassUpdateFor(bs: seq<Booking>, data: seq<Booking>, k: nat)
    requires UniqueIds(bs) && k < |bs|
    requires forall x :: x in data <==> exists i :: 0 <= i < |bs| && x == Normalize(bs[i])
    ensures UpdateFor(AutoUpdates(data), bs[k].id) ==
      if StatusOf(bs[k]) == Pending then Some(Decide(data, Normalize(bs[k]))) else None
  {
    var us := AutoUpdates(data);
    var r := UpdateFor(us, bs[k].id);
    if r.Some? {
      var b :| b in data && StatusOf(b) == Pending && r.value == Decide(data, b);
      var i :| 0 <= i < |bs| && b == Normalize(bs[i]);
      assert bs[i].id == bs[k].id;
    } else if StatusOf(bs[k]) == Pending {
      assert Normalize(bs[k]) in data;
    }
  }

  /** Each stored booking ends as the reference outcome says. */
  lemma PassOutcomeAt(bs: seq<Booking>, data: seq<Booking>, k: nat)
    requires UniqueIds(bs) && k < |bs|
    requires forall x :: x in data <==> exists i :: 0 <= i < |bs| && x == Normalize(bs[i])
    ensures Updated(bs[k], AutoUpdates(data)) == ResolvePending(bs)[k]
  {
    PassUpdateFor(bs, data, k);
    if StatusOf(bs[k]) == Pending {
      SnapshotApprovedAt(bs, data, KeyOf(bs[k]));
    }
  }

  /** The pass as a whole: for an admin on a well-formed ledger no update
      fails, every PENDING booking is decided against the pre-pass ledger,
      nothing else changes, and the page shows the new ledger. */
  lemma FetchResolves(db: Db, admin: Caller)
    requires IsAdmin(admin) && LedgerWellFormed(db.bookings)
    ensures FetchBookings(db, Some(admin)).db == db.(bookings := ResolvePending(db.bookings))
    ensures FetchBookings(db, Some(admin)).shown.Ok?
  {
    var bs := db.bookings;
    var data := GetAllBookings(db, Some(admin)).value;
    var us := AutoUpdates(data);
    PassConsistent(bs, data);
    ApplyAllEffect(db, admin, us);
    var pass := ApplyAll(db, Some(admin), us);
    forall k | 0 <= k < |bs| ensures pass.db.bookings[k] == ResolvePending(bs)[k] {
      PassOutcomeAt(bs, data, k);
    }
    assert pass.db.bookings == ResolvePending(bs);
  }

  /** Only PENDING bookings change; after the pass none is left PENDING. */
  lemma PassTouchesOnlyPending(bs: seq<Booking>, k: nat)
    requires k < |bs|
    ensures StatusOf(bs[k]) != Pending ==> ResolvePending(bs)[k] == bs[k]
    ensures StatusOf(ResolvePending(bs)[k]) != Pending
    ensures StatusOf(bs[k]) == Pending ==>
      (StatusOf(ResolvePending(bs)[k]) == Rejected <==> ApprovedAt(bs, KeyOf(bs[k])))
  {
  }

  /** A snapshot with nothing PENDING gives the loop nothing to send. */
  lemma NoPendingNoUpdates(data: seq<Booking>)
    requires forall i :: 0 <= i < |data| ==> StatusOf(data[i]) != Pending
    ensures AutoUpdates(data) == []
  {
    NoPendingNoDecisions(data, data);
  }

  lemma {:induction false} NoPendingNoDecisions(snapshot: seq<Booking>, rest: seq<Booking>)
    requires forall i :: 0 <= i < |rest| ==> StatusOf(rest[i]) != Pending
    ensures Decisions(snapshot, rest) == []
    decreases |rest|
  {
    if rest != [] {
      NoPendingNoDecisions(snapshot, rest[1..]);
    }
  }

  /** Deciding the PENDING bookings keeps ids and keys, so the ledger stays
      well formed. */
  lemma ResolveKeepsLedger(bs: seq<Booking>)
    requires LedgerWellFormed(bs)
    ensures LedgerWellFormed(ResolvePending(bs))
  {
    var after := ResolvePending(bs);
    assert forall k :: 0 <= k < |bs| ==> after[k].id == bs[k].id && KeyOf(after[k]) == KeyOf(bs[k]);
  }

  /** The reference outcome leaves nothing PENDING, so applying it again
      changes nothing. */
  lemma ResolvePendingIdempotent(bs: seq<Booking>)
    ensures ResolvePending(ResolvePending(bs)) == ResolvePending(bs)
  {
    var after := ResolvePending(bs);
    assert forall k :: 0 <= k < |bs| ==> StatusOf(after[k]) != Pending;
  }

  /** After one pass the admin's next read shows no PENDING booking. */
  lemma SecondPassSendsNothing(db: Db, admin: Caller)
    requires IsAdmin(admin) && LedgerWellFormed(db.bookings)
    ensures AutoUpdates(GetAllBookings(FetchBookings(db, Some(admin)).db, Some(admin)).value) == []
  {
    FetchResolves(db, admin);
    var after := FetchBookings(db, Some(admin)).db;
    forall k | 0 <= k < |after.bookings| ensures StatusOf(after.bookings[k]) != Pending {
      PassTouchesOnlyPending(db.bookings, k);
    }
    var data := GetAllBookings(after, Some(admin)).value;
    ResolvedHasNoPending(after.bookings, data);
  }

  /** A read of a ledger the pass has resolved sends the next pass nothing. */
  lemma ResolvedHasNoPending(after: seq<Booking>, data: seq<Booking>)
    requires forall k :: 0 <= k < |after| ==> StatusOf(after[k]) != Pending
    requires forall x :: x in data <==> exists i :: 0 <= i < |after| && x == Normalize(after[i])
    ensures AutoUpdates(data) == []
  {
    forall i | 0 <= i < |data| ensures StatusOf(data[i]) != Pending {
      assert data[i] in data;
      var k :| 0 <= k < |after| && data[i] == Normalize(after[k]);
    }
    NoPendingNoUpdates(data);
  }

  /** Running the pass again changes nothing, and its loop sends no update. */
  lemma PassIdempotent(db: Db, admin: Caller)
    requires IsAdmin(admin) && LedgerWellFormed(db.bookings)
    ensures LedgerWellFormed(ResolvePending(db.bookings))
    ensures ResolvePending(ResolvePending(db.bookings)) == ResolvePending(db.bookings)
    ensures AutoUpdates(GetAllBookings(FetchBookings(db, Some(admin)).db, Some(admin)).value) == []
  {
    ResolveKeepsLedger(db.bookings);
    ResolvePendingIdempotent(db.bookings);
    SecondPassSendsNothing(db, admin);
  }

  /** With the unique index in force no PENDING booking shares its key with an
      APPROVED one, so the pass approves every PENDING booking. */
  lemma UniqueKeysApproveAll(bs: seq<Booking>, k: nat)
    requires UniqueKeys(bs) && k < |bs| && StatusOf(bs[k]) == Pending
    ensures StatusOf(ResolvePending(bs)[k]) == Approved
    ensures ResolvePending(bs)[k].note == Some(AutoApproveNote)
  {
  }

  /** Without the index, two PENDING bookings of one slot and no APPROVED one
      are both approved: decisions read the snapshot, not earlier decisions. */
  lemma DuplicatePendingBothApproved(a: Booking, b: Booking)
    requires KeyOf(a) == KeyOf(b) && StatusOf(a) == Pending && StatusOf(b) == Pending
    ensures StatusOf(ResolvePending([a, b])[0]) == Approved
    ensures StatusOf(ResolvePending([a, b])[1]) == Approved
  {
    assert !ApprovedAt([a, b], KeyOf(a));
  }

  /** The approve and reject buttons of the review dialog. */
  datatype ManualAction = Approve | Reject

  /** The update `handleAction` sends: the chosen status and its fixed note. */
  function ManualUpdate(id: string, action: ManualAction): (u: UpdateBookingInput)
    ensures u.id == id
    ensures action == Approve ==> ParseStatus(u.status) == Some(Approved) && u.note == Some(ManualApproveNote)
    ensures action == Reject ==> ParseStatus(u.status) == Some(Rejected) && u.note == Some(ManualRejectNote)
  {
    match action
    case Approve => UpdateBookingInput(id, "APPROVED", Some(ManualApproveNote))
    case Reject => UpdateBookingInput(id, "REJECTED", Some(ManualRejectNote))
  }

  /** `handleAction` on a page showing `current`: the manual update, then a
      fresh `fetchBookings`.  A refused update only raises an alert, so the
      page keeps what it showed. */
  function HandleAction(db: Db, caller: Option<Caller>, current: Result<seq<Booking>>, id: string, action: ManualAction)
    : (p: Page)
    ensures |p.db.bookings| == |db.bookings|
    ensures UpdateBooking(db, caller, ManualUpdate(id, action)).Err? ==> p == Page(db, current)
    ensures UpdateBooking(db, caller, ManualUpdate(id, action)).Ok? ==>
      p == FetchBookings(UpdateBooking(db, caller, ManualUpdate(id, action)).value.db, caller)
  {
    match UpdateBooking(db, caller, ManualUpdate(id, action))
    case Err(_) => Page(db, current)
    case Ok(step) => FetchBookings(step.db, caller)
  }

  /** A manual decision on a stored booking sticks: the pass that follows leaves
      it alone, with its manual note. */
  lemma ManualDecisionSticks(db: Db, admin: Caller, current: Result<seq<Booking>>, k: nat, action: ManualAction)
    requires IsAdmin(admin) && LedgerWellFormed(db.bookings) && k < |db.bookings|
    ensures HandleAction(db, Some(admin), current, db.bookings[k].id, action).db.bookings[k] ==
      db.bookings[k].(status := Some(if action == Approve then Approved else Rejected),
                      note := Some(if action == Approve then ManualApproveNote else ManualRejectNote))
  {
    var bs := db.bookings;
    var u := ManualUpdate(bs[k].id, action);
    assert UpdateBookingInputValid(u);
    UpdateStep(db, admin, u, k);
    var bs1 := bs[k := Amend(bs[k], u)];
    var db1 := db.(bookings := bs1);
    HandleActionStep(db, Some(admin), current, bs[k].id, action, db1, Amend(bs[k], u));
    AmendKeepsLedger(bs, k, u);
    FetchResolves(db1, admin);
    ManualAmend(bs[k], action);
    assert ResolvePending(bs1)[k] == bs1[k];
  }

  /** The manual update sets the chosen status and the manual note. */
  lemma ManualAmend(b: Booking, action: ManualAction)
    ensures Amend(b, ManualUpdate(b.id, action)) ==
      b.(status := Some(if action == Approve then Approved else Rejected),
         note := Some(if action == Approve then ManualApproveNote else ManualRejectNote))
    ensures StatusOf(Amend(b, ManualUpdate(b.id, action))) != Pending
  {
    assert ManualApproveNote != "" && ManualRejectNote != "";
  }

  lemma HandleActionStep(db: Db, caller: Option<Caller>, current: Result<seq<Booking>>, id: string, action: ManualAction, db1: Db, out: Booking)
    requires UpdateBooking(db, caller, ManualUpdate(id, action)) == Ok(Step(db1, out))
    ensures HandleAction(db, caller, current, id, action) == FetchBookings(db1, caller)
  {
  }

  /** `filteredBookings`: "ALL" keeps the list; any other value keeps, in
      order, the bookings whose status reads as that value. */
  function FilterByStatus(bs: seq<Booking>, statusFilter: string): (r: seq<Booking>)
    ensures statusFilter == "ALL" ==> r == bs
    ensures statusFilter != "ALL" ==> forall x :: x in r <==> x in bs && StatusName(StatusOf(x)) == statusFilter
    ensures IsSubsequence(r, bs)
  {
    if statusFilter == "ALL" then
      FilterAll(bs, (b: Booking) => true);
      Filter(bs, (b: Booking) => true)
    else Filter(bs, (b: Booking) => StatusName(StatusOf(b)) == statusFilter)
  }

  /** An unknown filter value shows nothing. */
  lemma UnknownStatusFilterEmpty(bs: seq<Booking>, statusFilter: string)
    requires statusFilter != "ALL" && ParseStatus(statusFilter).None?
    ensures FilterByStatus(bs, statusFilter) == []
  {
    if FilterByStatus(bs, statusFilter) != [] {
      var x := FilterByStatus(bs, statusFilter)[0];
      assert x in FilterByStatus(bs, statusFilter);
      StatusNameRoundTrip(StatusOf(x));
    }
  }

  /** `getStatusText`: the Chinese label of each status; anything else is
      shown as it is. */
  function StatusText(status: string): (t: string)
    ensures ParseStatus(status).None? ==> t == status
  {
    if status == "PENDING" then "待審核"
    else if status == "APPROVED" then "已核准"
    else if status == "REJECTED" then "已拒絕"
    else status
  }

  /** The three labels are distinct, so the label identifies the status. */
  lemma StatusTextInjective(s1: Status, s2: Status)
    requires StatusText(StatusName(s1)) == StatusText(StatusName(s2))
    ensures s1 == s2
  {
  }
}

=== FILE: availability.dfy ===
/** The availability projections: the room cards of the home page
    (src/app/page.tsx) built from today's board, the current-slot clamp, and the
    GET /api/rooms/today route with its fixed eight slots a day. */
module Availability {
  import opened Outcomes
  import opened Text
  import opened Seqs
  import opened Formats
  import opened TimeSlots
  import opened Records
  import opened BookingQueries

  /** One booking as a card lists it: its slot, and whether it is "booked"
      (APPROVED) or "available" (anything else). */
  datatype SlotView = SlotView(timeSlot: string, booked: bool)

  /** A room card of the home page. */
  datatype RoomCard = RoomCard(id: string, name: string, bookings: seq<SlotView>, availableSlots: int)

  /** `booking.status === "APPROVED"`. */
  function IsApproved(): Booking -> bool {
    (b: Booking) => b.status == Some(Approved)
  }

  function Views(entries: seq<Booking>): (vs: seq<SlotView>)
    ensures |vs| == |entries|
    ensures forall j :: 0 <= j < |entries| ==>
      vs[j].timeSlot == entries[j].timeSlot && (vs[j].booked <==> entries[j].status == Some(Approved))
  {
    seq(|entries|, j requires 0 <= j < |entries| => SlotView(entries[j].timeSlot, entries[j].status == Some(Approved)))
  }

  /** The number of views marked booked. */
  function BookedCount(vs: seq<SlotView>): (n: nat)
    ensures n <= |vs|
  {
    if vs == [] then 0 else (if vs[0].booked then 1 else 0) + BookedCount(vs[1..])
  }

  /** The card of one room given its entry on today's board (none: `[]`):
      the room's slot count less its APPROVED bookings. */
  function Card(room: Room, board: map<string, seq<Booking>>): (c: RoomCard)
    ensures c.id == room.id && c.name == room.info.name
    ensures room.id !in board ==> c.bookings == [] && c.availableSlots == |room.info.availableTimeSlots|
    ensures c.bookings == Views(if room.id in board then board[room.id] else [])
    ensures c.availableSlots == |room.info.availableTimeSlots| - BookedCount(c.bookings)
  {
    var entries := if room.id in board then board[room.id] else [];
    ApprovedCountIsBooked(entries);
    RoomCard(room.id, room.info.name, Views(entries),
             |room.info.availableTimeSlots| - |Filter(entries, IsApproved())|)
  }

  /** Counting APPROVED entries is counting the views marked booked. */
  lemma {:induction false} ApprovedCountIsBooked(entries: seq<Booking>)
    ensures |Filter(entries, IsApproved())| == BookedCount(Views(entries))
    decreases |entries|
  {
    if entries != [] {
      ApprovedCountIsBooked(entries[1..]);
      assert Views(entries)[1..] == Views(entries[1..]);
    }
  }

  /** A PENDING or REJECTED booking on the board does not lower the count; an
      APPROVED one lowers it by one. */
  lemma {:induction false} OnlyApprovedReduces(room: Room, board: map<string, seq<Booking>>, b: Booking)
    requires room.id in board
    ensures var c := Card(room, board[room.id := board[room.id] + [b]]);
      c.availableSlots == Card(room, board).availableSlots - (if b.status == Some(Approved) then 1 else 0)
  {
    var es := board[room.id];
    BookedCountAppend(Views(es), [SlotView(b.timeSlot, b.status == Some(Approved))]);
    assert Views(es + [b]) == Views(es) + [SlotView(b.timeSlot, b.status == Some(Approved))];
  }

  lemma {:induction false} BookedCountAppend(a: seq<SlotView>, b: seq<SlotView>)
    ensures BookedCount(a + b) == BookedCount(a) + BookedCount(b)
    decreases |a|
  {
    if a == [] {
      assert a + b == b;
    } else {
      BookedCountAppend(a[1..], b);
      assert (a + b)[1..] == a[1..] + b;
    }
  }

  /** The cards of `rooms`, in that order. */
  function CardsFor(rooms: seq<Room>, board: map<string, seq<Booking>>): (cs: seq<RoomCard>)
    ensures |cs| == |rooms|
    ensures forall i :: 0 <= i < |rooms| ==> cs[i] == Card(rooms[i], board)
  {
    seq(|rooms|, i requires 0 <= i < |rooms| => Card(rooms[i], board))
  }

  /** Room `first` is at least as new as room `second`, both stored. */
  predicate NotOlder(stored: seq<Room>, first: string, second: string) {
    exists a, b :: (&& 0 <= a < |stored| && 0 <= b < |stored|
                    && stored[a].id == first && stored[b].id == second
                    && stored[a].createdAt >= stored[b].createdAt)
  }

  /** `sort({ createdAt: -1 })` lists the stored rooms newest first. */
  lemma NewestFirst(stored: seq<Room>, rooms: seq<Room>)
    requires forall room :: room in rooms <==> room in stored
    requires SortedBy(rooms, RoomCreatedDesc)
    ensures forall i, j :: 0 <= i < j < |rooms| ==> NotOlder(stored, rooms[i].id, rooms[j].id)
  {
    forall i, j | 0 <= i < j < |rooms| ensures NotOlder(stored, rooms[i].id, rooms[j].id) {
      assert rooms[i] in stored && rooms[j] in stored;
      var a :| 0 <= a < |stored| && stored[a] == rooms[i];
      var b :| 0 <= b < |stored| && stored[b] == rooms[j];
      assert RoomCreatedDesc(rooms[i], rooms[j]);
    }
  }

  /** The home page's room list: the cards of the stored rooms, newest room
      first, each given by `board` (the map `getTodayBookings` returned). */
  function HomeCards(db: Db, board: map<string, seq<Booking>>): (cs: seq<RoomCard>)
    ensures |cs| == |db.rooms|
    ensures forall c :: c in cs <==> c in CardsFor(db.rooms, board)
    ensures forall i, j :: 0 <= i < j < |cs| ==> NotOlder(db.rooms, cs[i].id, cs[j].id)
  {
    RoomCreatedDescTotalPreorder();
    var rooms := SortBy(db.rooms, RoomCreatedDesc);
    SameElements(rooms, db.rooms);
    NewestFirst(db.rooms, rooms);
    CardsCover(db.rooms, rooms, board);
    CardsFor(rooms, board)
  }

  lemma CardsCover(stored: seq<Room>, rooms: seq<Room>, board: map<string, seq<Booking>>)
    requires forall room :: room in rooms <==> room in stored
    ensures forall c :: c in CardsFor(rooms, board) <==> c in CardsFor(stored, board)
  {
    forall c ensures c in CardsFor(rooms, board) <==> c in CardsFor(stored, board) {
      CardCarried(rooms, stored, board, c);
      CardCarried(stored, rooms, board, c);
    }
  }

  lemma CardCarried(from: seq<Room>, to: seq<Room>, board: map<string, seq<Booking>>, c: RoomCard)
    requires forall room :: room in from ==> room in to
    ensures c in CardsFor(from, board) ==> c in CardsFor(to, board)
  {
    var cs := CardsFor(from, board);
    if c in cs {
      var i :| 0 <= i < |cs| && cs[i] == c;
      assert from[i] in to;
      var k :| 0 <= k < |to| && to[k] == from[i];
      assert CardsFor(to, board)[k] == c;
    }
  }

  /** A booking of today, approved, in the given room at the given slot. */
  predicate ApprovedTodayAt(db: Db, today: string, roomId: string, timeSlot: string) {
    exists i :: (&& 0 <= i < |db.bookings|
                 && db.bookings[i].roomId == roomId && db.bookings[i].date == today
                 && db.bookings[i].timeSlot == timeSlot && db.bookings[i].status == Some(Approved))
  }

  /** On the home page built from today's board, a room card shows a slot as
      booked exactly when an APPROVED booking of today holds that room and slot;
      a missing status reads as PENDING and so never shows as booked. */
  lemma BookedIffApprovedToday(db: Db, today: string, k: nat, timeSlot: string)
    requires UniqueRoomIds(db.rooms) && k < |db.rooms|
    ensures (exists v :: v in Card(db.rooms[k], GetTodayBookings(db, today).bookings).bookings && v.timeSlot == timeSlot && v.booked)
        <==> ApprovedTodayAt(db, today, db.rooms[k].id, timeSlot)
  {
    var room := db.rooms[k];
    var board := GetTodayBookings(db, today).bookings;
    assert Card(room, board).bookings == Views(board[room.id]);
    ViewsBookedIff(db, today, room, board[room.id], timeSlot);
  }

  lemma ViewsBookedIff(db: Db, today: string, room: Room, entries: seq<Booking>, timeSlot: string)
    requires forall x :: x in entries <==>
      exists i :: 0 <= i < |db.bookings| && db.bookings[i].roomId == room.id && db.bookings[i].date == today
               && x == Entry(db.bookings[i], room)
    ensures (exists v :: v in Views(entries) && v.timeSlot == timeSlot && v.booked)
        <==> ApprovedTodayAt(db, today, room.id, timeSlot)
  {
    if exists v :: v in Views(entries) && v.timeSlot == timeSlot && v.booked {
      BookedViewIsApproved(db, today, room, entries, timeSlot);
    }
    if ApprovedTodayAt(db, today, room.id, timeSlot) {
      ApprovedShowsBooked(db, today, room, entries, timeSlot);
    }
  }

  lemma BookedViewIsApproved(db: Db, today: string, room: Room, entries: seq<Booking>, timeSlot: string)
    requires forall x :: x in entries <==>
      exists i :: 0 <= i < |db.bookings| && db.bookings[i].roomId == room.id && db.bookings[i].date == today
               && x == Entry(db.bookings[i], room)
    requires exists v :: v in Views(entries) && v.timeSlot == timeSlot && v.booked
    ensures ApprovedTodayAt(db, today, room.id, timeSlot)
  {
    var vs := Views(entries);
    var v :| v in vs && v.timeSlot == timeSlot && v.booked;
    var j :| 0 <= j < |vs| && vs[j] == v;
    assert entries[j] in entries;
    var i :| (&& 0 <= i < |db.bookings| && db.bookings[i].roomId == room.id && db.bookings[i].date == today
              && entries[j] == Entry(db.bookings[i], room));
    assert db.bookings[i].status == Some(Approved);
  }

  lemma ApprovedShowsBooked(db: Db, today: string, room: Room, entries: seq<Booking>, timeSlot: string)
    requires forall x :: x in entries <==>
      exists i :: 0 <= i < |db.bookings| && db.bookings[i].roomId == room.id && db.bookings[i].date == today
               && x == Entry(db.bookings[i], room)
    requires ApprovedTodayAt(db, today, room.id, timeSlot)
    ensures exists v :: v in Views(entries) && v.timeSlot == timeSlot && v.booked
  {
    var vs := Views(entries);
    var i :| (&& 0 <= i < |db.bookings|
              && db.bookings[i].roomId == room.id && db.bookings[i].date == today
              && db.bookings[i].timeSlot == timeSlot && db.bookings[i].status == Some(Approved));
    var e := Entry(db.bookings[i], room);
    assert e in entries;
    var j :| 0 <= j < |entries| && entries[j] == e;
    assert vs[j].timeSlot == timeSlot && vs[j].booked;
    assert vs[j] in vs;
  }

  /** The hour the current-slot label starts at: the local hour held to 9..16. */
  function ClampHour(hour: nat): (h: nat)
    ensures 9 <= h <= 16
    ensures 9 <= hour <= 16 ==> h == hour
    ensures hour < 9 ==> h == 9
    ensures hour > 16 ==> h == 16
  {
    if hour < 9 then 9 else if hour >= 17 then 16 else hour
  }

  /** `getCurrentTimeSlot` for the local hour `hour` (0..23). */
  function CurrentTimeSlot(hour: nat): (s: string)
    requires hour < 24
    ensures IsSlot(s)
    ensures s == DaySlots(60)[ClampHour(hour)]
    ensures StartMinutes(s) == ClampHour(hour) * 60 && EndMinutes(s) == ClampHour(hour) * 60 + 60
  {
    var s := if hour < 9 then "09:00-10:00"
             else if hour >= 17 then "16:00-17:00"
             else Pad2(hour) + ":00-" + Pad2(hour + 1) + ":00";
    CurrentSlotIsLabel(hour);
    LabelDecodes(ClampHour(hour) * 60, 60);
    s
  }

  lemma CurrentSlotIsLabel(hour: nat)
    requires hour < 24
    ensures (if hour < 9 then "09:00-10:00"
             else if hour >= 17 then "16:00-17:00"
             else Pad2(hour) + ":00-" + Pad2(hour + 1) + ":00") == DaySlots(60)[ClampHour(hour)]
  {
    if hour < 9 {
      HourSlot(9);
      NineText();
    } else if hour >= 17 {
      HourSlot(16);
      SixteenText();
    } else {
      HourSlot(hour);
    }
  }

  /** Slot `h` of the hourly day is the hour starting at `h` o'clock. */
  lemma HourSlot(h: nat)
    requires h < 23
    ensures h < |DaySlots(60)| && DaySlots(60)[h] == Pad2(h) + ":00-" + Pad2(h + 1) + ":00"
  {
    HourlySlotCount();
    assert DaySlots(60)[h] == Label(h * 60, 60);
    HourLabel(h);
  }

  lemma NineText()
    ensures Pad2(9) + ":00-" + Pad2(10) + ":00" == "09:00-10:00"
  {
    assert Pad2(9) == "09";
    assert Pad2(10) == "10";
  }

  lemma SixteenText()
    ensures Pad2(16) + ":00-" + Pad2(17) + ":00" == "16:00-17:00"
  {
    assert Pad2(16) == "16";
    assert Pad2(17) == "17";
  }

  /** The label of the hour starting at `h` o'clock. */
  lemma HourLabel(h: nat)
    requires h < 23
    ensures Label(h * 60, 60) == Pad2(h) + ":00-" + Pad2(h + 1) + ":00"
  {
    assert Pad2(0) == "00";
    assert (h * 60) / 60 == h && (h * 60) % 60 == 0;
    assert (h * 60 + 60) / 60 == h + 1 && (h * 60 + 60) % 60 == 0;
    assert Clock(h * 60) == Pad2(h) + ":00";
    assert Clock(h * 60 + 60) == Pad2(h + 1) + ":00";
  }

  lemma HourlySlotCount()
    ensures SlotCount(60) == 23
  {
  }

  /** `room.bookings.find(b => b.timeSlot === currentTimeSlot)?.status === "booked"`. */
  function IsInUse(views: seq<SlotView>, current: string): (inUse: bool)
    ensures inUse ==> exists j :: 0 <= j < |views| && views[j].timeSlot == current && views[j].booked
    ensures (forall j, k :: 0 <= j < k < |views| ==> views[j].timeSlot != views[k].timeSlot) ==>
      (inUse <==> exists j :: 0 <= j < |views| && views[j].timeSlot == current && views[j].booked)
  {
    if views == [] then false
    else if views[0].timeSlot == current then views[0].booked
    else IsInUse(views[1..], current)
  }

  /** One element of the GET /api/rooms/today response. */
  datatype RoomToday = RoomToday(id: string, name: string, bookings: seq<Booking>, availableSlots: int)

  /** The route's assumed number of slots per day. */
  const SlotsPerDay: int := 8

  /** `Booking.find({ date, status: "APPROVED" })`: a stored status is needed. */
  function ApprovedOn(date: string): Booking -> bool {
    (b: Booking) => b.date == date && b.status == Some(Approved)
  }

  /** An APPROVED booking of `roomId` on `date`. */
  function ApprovedIn(date: string, roomId: string): Booking -> bool {
    (b: Booking) => b.date == date && b.status == Some(Approved) && b.roomId == roomId
  }

  function RoomTodayOf(room: Room, approved: seq<Booking>): (e: RoomToday)
    ensures e.id == room.id && e.name == room.info.name
    ensures forall b :: b in e.bookings <==> b in approved && b.roomId == room.id
    ensures e.availableSlots == SlotsPerDay - |e.bookings|
  {
    var mine := Filter(approved, InRoom(room.id));
    RoomToday(room.id, room.info.name, mine, SlotsPerDay - |mine|)
  }

  /** The entries of `rooms`, in that order. */
  function TodayFor(rooms: seq<Room>, approved: seq<Booking>): (r: seq<RoomToday>)
    ensures |r| == |rooms|
    ensures forall i :: 0 <= i < |rooms| ==> r[i] == RoomTodayOf(rooms[i], approved)
  {
    seq(|rooms|, i requires 0 <= i < |rooms| => RoomTodayOf(rooms[i], approved))
  }

  /** GET /api/rooms/today (src/app/api/rooms/today/route.ts): one entry per
      room, newest room first, listing its APPROVED bookings of today and
      eight minus their number, not clamped at zero. */
  function RoomsToday(db: Db, today: string): (r: seq<RoomToday>)
    ensures |r| == |db.rooms|
    ensures forall i, j :: 0 <= i < j < |r| ==> NotOlder(db.rooms, r[i].id, r[j].id)
    ensures forall k :: 0 <= k < |db.rooms| ==> db.rooms[k].id in RoomTodayIds(r)
    ensures forall i :: 0 <= i < |r| ==>
      && r[i].availableSlots == SlotsPerDay - |r[i].bookings|
      && forall b :: b in r[i].bookings <==>
           b in db.bookings && b.date == today && b.status == Some(Approved) && b.roomId == r[i].id
    ensures forall i :: 0 <= i < |r| ==>
      && multiset(r[i].bookings) == multiset(Filter(db.bookings, ApprovedIn(today, r[i].id)))
      && r[i].availableSlots == SlotsPerDay - |Filter(db.bookings, ApprovedIn(today, r[i].id))|
  {
    RoomCreatedDescTotalPreorder();
    var rooms := SortBy(db.rooms, RoomCreatedDesc);
    var approved := Filter(db.bookings, ApprovedOn(today));
    SameElements(rooms, db.rooms);
    NewestFirst(db.rooms, rooms);
    var r := TodayFor(rooms, approved);
    TodayMembers(db.bookings, today, rooms, r);
    TodayCounts(db.bookings, today, rooms, r);
    TodayIdsCover(db.rooms, rooms, approved);
    r
  }

  /** The room ids the response lists. */
  function RoomTodayIds(r: seq<RoomToday>): (ids: set<string>)
    ensures forall id :: id in ids <==> exists i :: 0 <= i < |r| && r[i].id == id
  {
    set i | 0 <= i < |r| :: r[i].id
  }

  lemma TodayIdsCover(stored: seq<Room>, rooms: seq<Room>, approved: seq<Booking>)
    requires forall room :: room in rooms <==> room in stored
    ensures forall k :: 0 <= k < |stored| ==> stored[k].id in RoomTodayIds(TodayFor(rooms, approved))
  {
    var r := TodayFor(rooms, approved);
    forall k | 0 <= k < |stored| ensures stored[k].id in RoomTodayIds(r) {
      assert stored[k] in rooms;
      var i :| 0 <= i < |rooms| && rooms[i] == stored[k];
      assert r[i].id == stored[k].id;
    }
  }

  lemma TodayMembers(bs: seq<Booking>, today: string, rooms: seq<Room>, r: seq<RoomToday>)
    requires r == TodayFor(rooms, Filter(bs, ApprovedOn(today)))
    ensures forall i :: 0 <= i < |r| ==>
      && r[i].availableSlots == SlotsPerDay - |r[i].bookings|
      && forall b :: b in r[i].bookings <==>
           b in bs && b.date == today && b.status == Some(Approved) && b.roomId == r[i].id
  {
    var approved := Filter(bs, ApprovedOn(today));
    forall i, b | 0 <= i < |r|
      ensures b in r[i].bookings <==> b in bs && b.date == today && b.status == Some(Approved) && b.roomId == r[i].id
    {
      assert r[i] == RoomTodayOf(rooms[i], approved);
      assert b in approved <==> b in bs && ApprovedOn(today)(b);
    }
  }

  /** Each entry holds exactly the room's APPROVED bookings of the day, each
      as often as it is stored. */
  lemma TodayCounts(bs: seq<Booking>, today: string, rooms: seq<Room>, r: seq<RoomToday>)
    requires r == TodayFor(rooms, Filter(bs, ApprovedOn(today)))
    ensures forall i :: 0 <= i < |r| ==>
      && multiset(r[i].bookings) == multiset(Filter(bs, ApprovedIn(today, r[i].id)))
      && r[i].availableSlots == SlotsPerDay - |Filter(bs, ApprovedIn(today, r[i].id))|
  {
    var approved := Filter(bs, ApprovedOn(today));
    forall i | 0 <= i < |r|
      ensures multiset(r[i].bookings) == multiset(Filter(bs, ApprovedIn(today, r[i].id)))
      ensures r[i].availableSlots == SlotsPerDay - |Filter(bs, ApprovedIn(today, r[i].id))|
    {
      assert r[i] == RoomTodayOf(rooms[i], approved);
      FilterBoth(bs, ApprovedOn(today), InRoom(r[i].id), ApprovedIn(today, r[i].id));
    }
  }

  /** The count goes negative once a room holds more than eight APPROVED
      bookings for today. */
  lemma AvailabilityCanGoNegative(room: Room, approved: seq<Booking>)
    requires |approved| == 9
    requires forall i :: 0 <= i < |approved| ==> approved[i].roomId == room.id
    ensures RoomTodayOf(room, approved).availableSlots == -1
  {
    FilterAll(approved, InRoom(room.id));
  }
}

=== FILE: booking_actions.dfy ===
/** The booking mutations: the create-booking server action and its POST-route
    twin, the two admin status updates, and owner-or-admin deletion.  Each
    returns the database afterwards or an error, which leaves it unchanged. */
module BookingActions {
  import opened Outcomes
  import opened Text
  import opened Formats
  import opened Auth
  import opened Records

  /** The record both create paths insert: status PENDING, note "". */
  function NewBooking(id: string, room: Room, input: CreateBookingInput, userId: string, now: int): Booking {
    Booking(id, input.roomId, room.info.name, userId, input.bookedBy.name, input.bookedBy.email,
            input.date, input.timeSlot, Some(Pending), Some(""), now)
  }

  /** `createBooking` (src/actions/room/create-booking.ts).  The checks run in
      the order: session, input schema, room, slot membership, conflict; the
      conflict check ignores status, so a REJECTED booking still blocks. */
  function CreateBooking(db: Db, caller: Option<Caller>, input: CreateBookingInput, newId: string, now: int)
    : (r: Result<Step<Booking>>)
    ensures caller.None? ==> r == Err(Unauthenticated)
    ensures caller.Some? && !CreateBookingInputValid(input) ==> r == Err(InvalidInput)
    ensures caller.Some? && CreateBookingInputValid(input) && FindRoom(db.rooms, input.roomId).None?
      ==> r == Err(RoomNotFound)
    ensures caller.Some? && CreateBookingInputValid(input) && FindRoom(db.rooms, input.roomId).Some?
      && input.timeSlot !in db.rooms[FindRoom(db.rooms, input.roomId).value].info.availableTimeSlots
      ==> r == Err(SlotNotOffered)
    ensures caller.Some? && CreateBookingInputValid(input) && FindRoom(db.rooms, input.roomId).Some?
      && input.timeSlot in db.rooms[FindRoom(db.rooms, input.roomId).value].info.availableTimeSlots
      && SlotTaken(db.bookings, SlotKey(input.roomId, input.date, input.timeSlot))
      ==> r == Err(SlotConflict)
    ensures r.Ok? <==>
      && caller.Some? && CreateBookingInputValid(input)
      && FindRoom(db.rooms, input.roomId).Some?
      && input.timeSlot in db.rooms[FindRoom(db.rooms, input.roomId).value].info.availableTimeSlots
      && !SlotTaken(db.bookings, SlotKey(input.roomId, input.date, input.timeSlot))
      && db.rooms[FindRoom(db.rooms, input.roomId).value].info.name != "" && caller.value.id != ""
    ensures r.Ok? ==>
      && r.value.db == db.(bookings := db.bookings + [r.value.out])
      && r.value.out.id == newId
      && KeyOf(r.value.out) == SlotKey(input.roomId, input.date, input.timeSlot)
      && r.value.out.userId == caller.value.id
      && r.value.out.userName == input.bookedBy.name && r.value.out.userEmail == input.bookedBy.email
      && r.value.out.status == Some(Pending) && r.value.out.note == Some("")
      && r.value.out.roomName == db.rooms[FindRoom(db.rooms, input.roomId).value].info.name
      && BookingRecordValid(r.value.out)
    ensures r.Ok? && UniqueKeys(db.bookings) ==> UniqueKeys(r.value.db.bookings)
  {
    if caller.None? then Err(Unauthenticated)
    else if !CreateBookingInputValid(input) then Err(InvalidInput)
    else match FindRoom(db.rooms, input.roomId)
      case None => Err(RoomNotFound)
      case Some(k) =>
        var room := db.rooms[k];
        if input.timeSlot !in room.info.availableTimeSlots then Err(SlotNotOffered)
        else if SlotTaken(db.bookings, SlotKey(input.roomId, input.date, input.timeSlot)) then Err(SlotConflict)
        else
          var b := NewBooking(newId, room, input, caller.value.id, now);
          if !BookingRecordValid(b) then Err(RecordInvalid)
          else Ok(Step(db.(bookings := db.bookings + [b]), b))
  }

  /** A successful create keeps every guarantee of the stored ledger, given the
      database hands out a fresh identifier. */
  lemma CreatePreservesLedger(db: Db, caller: Option<Caller>, input: CreateBookingInput, newId: string, now: int)
    requires LedgerWellFormed(db.bookings)
    requires newId != "" && forall i :: 0 <= i < |db.bookings| ==> db.bookings[i].id != newId
    requires CreateBooking(db, caller, input, newId, now).Ok?
    ensures LedgerWellFormed(CreateBooking(db, caller, input, newId, now).value.db.bookings)
  {
  }

  /** Once a slot is booked, every later create of the same room, date and slot
      fails with a conflict, whoever asks and whatever the first booking's fate. */
  lemma SecondCreateConflicts(db: Db, c1: Option<Caller>, c2: Option<Caller>,
                              in1: CreateBookingInput, in2: CreateBookingInput, id1: string, id2: string, t1: int, t2: int)
    requires CreateBooking(db, c1, in1, id1, t1).Ok?
    requires c2.Some? && CreateBookingInputValid(in2)
    requires in2.roomId == in1.roomId && in2.date == in1.date && in2.timeSlot == in1.timeSlot
    ensures CreateBooking(CreateBooking(db, c1, in1, id1, t1).value.db, c2, in2, id2, t2) == Err(SlotConflict)
  {
    var db1 := CreateBooking(db, c1, in1, id1, t1).value.db;
    assert db1.rooms == db.rooms;
    assert KeyOf(db1.bookings[|db.bookings|]) == SlotKey(in2.roomId, in2.date, in2.timeSlot);
  }

  /** A REJECTED booking still occupies its slot: no create of its room, date
      and slot succeeds, and one that passes every earlier check is refused as
      a conflict. */
  lemma RejectedBookingBlocks(db: Db, caller: Option<Caller>, input: CreateBookingInput, newId: string, now: int, i: nat)
    requires i < |db.bookings| && StatusOf(db.bookings[i]) == Rejected
    requires KeyOf(db.bookings[i]) == SlotKey(input.roomId, input.date, input.timeSlot)
    ensures CreateBooking(db, caller, input, newId, now).Ok? == false
    ensures caller.Some? && CreateBookingInputValid(input) && FindRoom(db.rooms, input.roomId).Some?
      && input.timeSlot in db.rooms[FindRoom(db.rooms, input.roomId).value].info.availableTimeSlots
      ==> CreateBooking(db, caller, input, newId, now) == Err(SlotConflict)
  {
    assert SlotTaken(db.bookings, SlotKey(input.roomId, input.date, input.timeSlot));
  }

  /** The slot-membership check fires before the conflict check: an unoffered
      slot is refused even when free. */
  lemma UnofferedSlotRefused(db: Db, caller: Caller, input: CreateBookingInput, newId: string, now: int, k: nat)
    requires CreateBookingInputValid(input)
    requires FindRoom(db.rooms, input.roomId) == Some(k)
    requires input.timeSlot !in db.rooms[k].info.availableTimeSlots
    ensures CreateBooking(db, Some(caller), input, newId, now) == Err(SlotNotOffered)
  {
  }

  /** The body the POST /api/bookings route reads; `bookedBy` may be missing. */
  datatype BookingBody = BookingBody(roomId: string, date: string, timeSlot: string,
                                     bookedBy: Option<Booker>, note: Option<string>)

  /** The HTTP status a failure of the POST route is answered with. */
  function HttpStatus(e: Error): (code: int)
    ensures e == Unauthenticated <==> code == 401
    ensures e == RoomNotFound <==> code == 404
    ensures e == SlotConflict <==> code == 400
  {
    match e
    case Unauthenticated => 401
    case RoomNotFound => 404
    case SlotConflict => 400
    case _ => 500
  }

  /** `session.user.name || body.bookedBy.name` (and likewise for the e-mail):
      the session's value when non-empty, else the body's, and a missing
      `bookedBy` is then a TypeError. */
  function SessionOrBody(fromSession: string, fromBody: Option<string>): Option<string> {
    if fromSession != "" then Some(fromSession) else fromBody
  }

  /** POST /api/bookings (src/app/api/bookings/route.ts).  Unlike the server
      action it never checks the slot against the room's available slots; only
      the model's validators on save check the formats. */
  function PostBooking(db: Db, caller: Option<Caller>, body: BookingBody, newId: string, now: int)
    : (r: Result<Step<Booking>>)
    ensures caller.None? ==> r == Err(Unauthenticated) && HttpStatus(r.error) == 401
    ensures caller.Some? && FindRoom(db.rooms, body.roomId).None? ==> r == Err(RoomNotFound)
    ensures (caller.Some? && FindRoom(db.rooms, body.roomId).Some?
             && SlotTaken(db.bookings, SlotKey(body.roomId, body.date, body.timeSlot))) ==> r == Err(SlotConflict)
    ensures r.Ok? ==>
      && caller.Some? && FindRoom(db.rooms, body.roomId).Some?
      && !SlotTaken(db.bookings, SlotKey(body.roomId, body.date, body.timeSlot))
      && r.value.db == db.(bookings := db.bookings + [r.value.out])
      && KeyOf(r.value.out) == SlotKey(body.roomId, body.date, body.timeSlot)
      && r.value.out.status == Some(Pending)
      && r.value.out.roomName == db.rooms[FindRoom(db.rooms, body.roomId).value].info.name
      && r.value.out.userId == caller.value.id
      && (caller.value.name != "" ==> r.value.out.userName == caller.value.name)
      && (caller.value.name == "" ==> body.bookedBy.Some? && r.value.out.userName == body.bookedBy.value.name)
      && (caller.value.email != "" ==> r.value.out.userEmail == caller.value.email)
      && (caller.value.email == "" ==> body.bookedBy.Some? && r.value.out.userEmail == body.bookedBy.value.email)
      && BookingRecordValid(r.value.out)
    ensures r.Ok? && UniqueKeys(db.bookings) ==> UniqueKeys(r.value.db.bookings)
    ensures (&& caller.Some? && FindRoom(db.rooms, body.roomId).Some?
             && !SlotTaken(db.bookings, SlotKey(body.roomId, body.date, body.timeSlot))
             && body.bookedBy.None? && (caller.value.name == "" || caller.value.email == ""))
            ==> r == Err(MalformedRequest)
    ensures (&& caller.Some? && FindRoom(db.rooms, body.roomId).Some?
             && !SlotTaken(db.bookings, SlotKey(body.roomId, body.date, body.timeSlot))
             && PostRecord(db.rooms[FindRoom(db.rooms, body.roomId).value], caller.value, body, newId, now).Some?
             && !BookingRecordValid(PostRecord(db.rooms[FindRoom(db.rooms, body.roomId).value], caller.value, body, newId, now).value))
            ==> r == Err(RecordInvalid)
    ensures r.Ok? <==>
      && caller.Some? && FindRoom(db.rooms, body.roomId).Some?
      && !SlotTaken(db.bookings, SlotKey(body.roomId, body.date, body.timeSlot))
      && PostRecord(db.rooms[FindRoom(db.rooms, body.roomId).value], caller.value, body, newId, now).Some?
      && BookingRecordValid(PostRecord(db.rooms[FindRoom(db.rooms, body.roomId).value], caller.value, body, newId, now).value)
  {
    if caller.None? then Err(Unauthenticated)
    else match FindRoom(db.rooms, body.roomId)
      case None => Err(RoomNotFound)
      case Some(k) =>
        if SlotTaken(db.bookings, SlotKey(body.roomId, body.date, body.timeSlot)) then Err(SlotConflict)
        else match PostRecord(db.rooms[k], caller.value, body, newId, now)
          case None => Err(MalformedRequest)
          case Some(b) =>
            if !BookingRecordValid(b) then Err(RecordInvalid)
            else Ok(Step(db.(bookings := db.bookings + [b]), b))
  }

  /** The record the route builds for `room`: PENDING, the note as sent or
      "", and the booker's name and e-mail from the session or else the body.
      None when the body's `bookedBy` is needed and missing. */
  function PostRecord(room: Room, caller: Caller, body: BookingBody, newId: string, now: int): (r: Option<Booking>)
    ensures r.None? <==> body.bookedBy.None? && (caller.name == "" || caller.email == "")
    ensures r.Some? ==>
      && r.value.id == newId && r.value.roomId == body.roomId && r.value.roomName == room.info.name
      && r.value.userId == caller.id && r.value.date == body.date && r.value.timeSlot == body.timeSlot
      && r.value.status == Some(Pending) && r.value.note == Some(body.note.GetOr("")) && r.value.createdAt == now
      && r.value.userName == (if caller.name != "" then caller.name else body.bookedBy.value.name)
      && r.value.userEmail == (if caller.email != "" then caller.email else body.bookedBy.value.email)
  {
    var userName := SessionOrBody(caller.name, if body.bookedBy.Some? then Some(body.bookedBy.value.name) else None);
    var userEmail := SessionOrBody(caller.email, if body.bookedBy.Some? then Some(body.bookedBy.value.email) else None);
    if userName.None? || userEmail.None? then None
    else Some(Booking(newId, body.roomId, room.info.name, caller.id, userName.value, userEmail.value,
                      body.date, body.timeSlot, Some(Pending), Some(body.note.GetOr("")), now))
  }

  /** The two create paths disagree on an unoffered slot: the action refuses
      it, the route books it. */
  lemma PostSkipsSlotMembership(db: Db, caller: Caller, input: CreateBookingInput, newId: string, now: int, k: nat)
    requires CreateBookingInputValid(input)
    requires FindRoom(db.rooms, input.roomId) == Some(k)
    requires input.timeSlot !in db.rooms[k].info.availableTimeSlots
    requires !SlotTaken(db.bookings, SlotKey(input.roomId, input.date, input.timeSlot))
    requires caller.id != "" && caller.name == "" && caller.email == "" && db.rooms[k].info.name != ""
    ensures CreateBooking(db, Some(caller), input, newId, now) == Err(SlotNotOffered)
    ensures PostBooking(db, Some(caller), BookingBody(input.roomId, input.date, input.timeSlot, Some(input.bookedBy), None),
                        newId, now).Ok?
  {
  }

  /** The record `updateBooking` saves: the requested status, and the note
      replaced only by a non-empty one.  Identity, slot and booker are kept. */
  function Amend(b: Booking, input: UpdateBookingInput): (a: Booking)
    ensures a.id == b.id && KeyOf(a) == KeyOf(b) && a.userId == b.userId
    ensures BookingRecordValid(a) == BookingRecordValid(b)
    ensures a.status == ParseStatus(input.status)
    ensures input.note.Some? && input.note.value != "" ==> a.note == input.note
    ensures !(input.note.Some? && input.note.value != "") ==> a.note == b.note
    ensures a == b.(status := a.status, note := a.note)
  {
    b.(status := ParseStatus(input.status),
       note := if input.note.Some? && input.note.value != "" then input.note else b.note)
  }

  /** Saving the same update twice is saving it once. */
  lemma AmendIdempotent(b: Booking, input: UpdateBookingInput)
    ensures Amend(Amend(b, input), input) == Amend(b, input)
  {
  }

  /** `updateBooking` (src/actions/room/update-booking.ts): an admin sets any
      status from any status; the note is replaced only by a non-empty one. */
  function UpdateBooking(db: Db, caller: Option<Caller>, input: UpdateBookingInput): (r: Result<Step<Booking>>)
    ensures caller.None? ==> r == Err(Unauthenticated)
    ensures caller.Some? && !IsAdmin(caller.value) ==> r == Err(NotAdmin)
    ensures caller.Some? && IsAdmin(caller.value) && !UpdateBookingInputValid(input) ==> r == Err(InvalidInput)
    ensures (caller.Some? && IsAdmin(caller.value) && UpdateBookingInputValid(input)
             && FindBooking(db.bookings, input.id).None?) ==> r == Err(BookingNotFound)
    ensures r.Ok? ==>
      var k := FindBooking(db.bookings, input.id).value;
      var old_ := db.bookings[k];
      && r.value.db == db.(bookings := db.bookings[k := r.value.out])
      && r.value.out == Amend(old_, input)
    ensures r.Ok? <==>
      && caller.Some? && IsAdmin(caller.value) && UpdateBookingInputValid(input)
      && FindBooking(db.bookings, input.id).Some?
      && BookingRecordValid(db.bookings[FindBooking(db.bookings, input.id).value])
    ensures r.Ok? && UniqueKeys(db.bookings) ==> UniqueKeys(r.value.db.bookings)
  {
    if caller.None? then Err(Unauthenticated)
    else if !IsAdmin(caller.value) then Err(NotAdmin)
    else if !UpdateBookingInputValid(input) then Err(InvalidInput)
    else match FindBooking(db.bookings, input.id)
      case None => Err(BookingNotFound)
      case Some(k) =>
        var updated := Amend(db.bookings[k], input);
        if !BookingRecordValid(updated) then Err(RecordInvalid)
        else Ok(Step(db.(bookings := db.bookings[k := updated]), updated))
  }

  /** On a well-formed ledger an admin's update of an existing booking always
      succeeds, whatever the current and requested status. */
  lemma UpdateBookingAnyTransition(db: Db, admin: Caller, k: nat, to: Status, note: Option<string>)
    requires LedgerWellFormed(db.bookings) && IsAdmin(admin) && k < |db.bookings|
    ensures UpdateBooking(db, Some(admin), UpdateBookingInput(db.bookings[k].id, StatusName(to), note)).Ok?
    ensures StatusOf(UpdateBooking(db, Some(admin), UpdateBookingInput(db.bookings[k].id, StatusName(to), note)).value.out) == to
  {
    FindBookingUnique(db.bookings, k);
    StatusNameRoundTrip(to);
  }

  /** `updateBookingStatus` (src/actions/booking/update-status.ts): only the
      status changes; there are no input or transition checks; the note is
      reported as stored, or "" when absent. */
  function UpdateBookingStatus(db: Db, caller: Option<Caller>, bookingId: string, status: Status)
    : (r: Result<Step<Booking>>)
    ensures caller.None? ==> r == Err(Unauthenticated)
    ensures caller.Some? && !IsAdmin(caller.value) ==> r == Err(NotAdmin)
    ensures caller.Some? && IsAdmin(caller.value) && FindBooking(db.bookings, bookingId).None? ==> r == Err(BookingNotFound)
    ensures r.Ok? <==> caller.Some? && IsAdmin(caller.value) && FindBooking(db.bookings, bookingId).Some?
    ensures r.Ok? ==>
      var k := FindBooking(db.bookings, bookingId).value;
      && r.value.db == db.(bookings := db.bookings[k := db.bookings[k].(status := Some(status))])
      && r.value.out.note == Some(NoteOf(db.bookings[k]))
      && r.value.out.status == Some(status)
    ensures r.Ok? ==> View(r.value.db.bookings)[FindBooking(db.bookings, bookingId).value].note
                      == View(db.bookings)[FindBooking(db.bookings, bookingId).value].note
  {
    if caller.None? then Err(Unauthenticated)
    else if !IsAdmin(caller.value) then Err(NotAdmin)
    else match FindBooking(db.bookings, bookingId)
      case None => Err(BookingNotFound)
      case Some(k) =>
        var updated := db.bookings[k].(status := Some(status));
        Ok(Step(db.(bookings := db.bookings[k := updated]), updated.(note := Some(NoteOf(updated)))))
  }

  /** `deleteBooking` (src/actions/room/delete-booking.ts): existence is
      checked before permission; the owner or an admin may delete. */
  function DeleteBooking(db: Db, caller: Option<Caller>, bookingId: string): (r: Result<Db>)
    ensures caller.None? ==> r == Err(Unauthenticated)
    ensures caller.Some? && bookingId == "" ==> r == Err(InvalidInput)
    ensures caller.Some? && bookingId != "" && FindBooking(db.bookings, bookingId).None? ==> r == Err(BookingNotFound)
    ensures (&& caller.Some? && bookingId != "" && FindBooking(db.bookings, bookingId).Some?
             && db.bookings[FindBooking(db.bookings, bookingId).value].userId != caller.value.id
             && !IsAdmin(caller.value))
            ==> r == Err(NotPermitted)
    ensures r.Ok? <==>
      && caller.Some? && bookingId != "" && FindBooking(db.bookings, bookingId).Some?
      && (db.bookings[FindBooking(db.bookings, bookingId).value].userId == caller.value.id || IsAdmin(caller.value))
    ensures r.Ok? ==>
      var k := FindBooking(db.bookings, bookingId).value;
      && r.value.rooms == db.rooms && r.value.users == db.users
      && r.value.bookings == db.bookings[..k] + db.bookings[k + 1..]
  {
    if caller.None? then Err(Unauthenticated)
    else if bookingId == "" then Err(InvalidInput)
    else match FindBooking(db.bookings, bookingId)
      case None => Err(BookingNotFound)
      case Some(k) =>
        if db.bookings[k].userId != caller.value.id && !IsAdmin(caller.value) then Err(NotPermitted)
        else Ok(db.(bookings := RemoveAt(db.bookings, k)))
  }

  /** A caller who neither owns the booking nor is an admin cannot delete it. */
  lemma DeleteRequiresOwnerOrAdmin(db: Db, caller: Caller, k: nat)
    requires UniqueIds(db.bookings) && k < |db.bookings| && db.bookings[k].id != ""
    requires db.bookings[k].userId != caller.id && !IsAdmin(caller)
    ensures DeleteBooking(db, Some(caller), db.bookings[k].id) == Err(NotPermitted)
  {
    FindBookingUnique(db.bookings, k);
  }

  /** Deleting removes exactly that booking: with unique keys, its slot is no
      longer taken, and every other booking stays. */
  lemma {:induction false} DeleteFreesSlot(db: Db, caller: Caller, k: nat)
    requires UniqueIds(db.bookings) && UniqueKeys(db.bookings) && k < |db.bookings| && db.bookings[k].id != ""
    requires db.bookings[k].userId == caller.id || IsAdmin(caller)
    ensures DeleteBooking(db, Some(caller), db.bookings[k].id).Ok?
    ensures !SlotTaken(DeleteBooking(db, Some(caller), db.bookings[k].id).value.bookings, KeyOf(db.bookings[k]))
    ensures forall j :: 0 <= j < |db.bookings| && j != k ==>
      db.bookings[j] in DeleteBooking(db, Some(caller), db.bookings[k].id).value.bookings
  {
    FindBookingUnique(db.bookings, k);
    var rest := DeleteBooking(db, Some(caller), db.bookings[k].id).value.bookings;
    assert rest == RemoveAt(db.bookings, k);
    forall i | 0 <= i < |rest| ensures KeyOf(rest[i]) != KeyOf(db.bookings[k]) {
      if i < k {
        assert rest[i] == db.bookings[i];
      } else {
        assert rest[i] == db.bookings[i + 1];
      }
    }
    forall j | 0 <= j < |db.bookings| && j != k ensures db.bookings[j] in rest {
      if j < k {
        assert rest[j] == db.bookings[j];
      } else {
        assert rest[j - 1] == db.bookings[j];
      }
    }
  }

  /** Deletion then a new request for the same slot: the conflict check no
      longer fires. */
  lemma CreateAfterDelete(db: Db, caller: Caller, k: nat, c2: Option<Caller>, input: CreateBookingInput, newId: string, now: int)
    requires UniqueIds(db.bookings) && UniqueKeys(db.bookings) && k < |db.bookings| && db.bookings[k].id != ""
    requires db.bookings[k].userId == caller.id || IsAdmin(caller)
    requires KeyOf(db.bookings[k]) == SlotKey(input.roomId, input.date, input.timeSlot)
    ensures CreateBooking(DeleteBooking(db, Some(caller), db.bookings[k].id).value, c2, input, newId, now) != Err(SlotConflict)
  {
    DeleteFreesSlot(db, caller, k);
  }
}

=== FILE: booking_queries.dfy ===
/** The booking read paths: one room's bookings on a date, every booking (for
    admins), the caller's own bookings, today's bookings grouped by room, and
    the GET /api/bookings route.  The server actions report a missing status as
    PENDING and a missing note as "". */
module BookingQueries {
  import opened Outcomes
  import opened Seqs
  import opened Formats
  import opened Auth
  import opened Records

  /** `Booking.find({ roomId, date })`. */
  function AtRoomOn(roomId: string, date: string): Booking -> bool {
    (b: Booking) => b.roomId == roomId && b.date == date
  }

  /** `Booking.find({ userId })`. */
  function OwnedBy(userId: string): Booking -> bool {
    (b: Booking) => b.userId == userId
  }

  /** `Booking.find({ date })`. */
  function OnDate(date: string): Booking -> bool {
    (b: Booking) => b.date == date
  }

  /** What a filtered and sorted view holds: the normalized stored bookings
      matching `p`, each once per stored copy. */
  lemma {:induction false} ViewFilterMembers(bs: seq<Booking>, p: Booking -> bool, r: seq<Booking>)
    requires multiset(r) == multiset(Filter(View(bs), p))
    ensures forall x :: x in r <==> p(x) && exists i :: 0 <= i < |bs| && x == Normalize(bs[i])
    ensures forall x :: x in r ==> IsNormalized(x)
  {
    var f := Filter(View(bs), p);
    forall x ensures x in r <==> x in f {
      assert x in r <==> x in multiset(r);
      assert x in f <==> x in multiset(f);
    }
    ViewMembers(bs);
  }

  /** The view holds exactly the normalized stored bookings. */
  lemma ViewMembers(bs: seq<Booking>)
    ensures forall x :: x in View(bs) <==> exists i :: 0 <= i < |bs| && x == Normalize(bs[i])
  {
    forall x | x in View(bs) ensures exists i :: 0 <= i < |bs| && x == Normalize(bs[i]) {
      var i :| 0 <= i < |View(bs)| && View(bs)[i] == x;
    }
    forall x, i | 0 <= i < |bs| && x == Normalize(bs[i]) ensures x in View(bs) {
      assert View(bs)[i] == x;
    }
  }

  /** `getBookings` (src/actions/room/get-bookings.ts): a non-empty room id and
      a `YYYY-MM-DD` date, an existing room, then that room's bookings on that
      date of every status, by time slot. */
  function GetBookings(db: Db, roomId: string, date: string): (r: Result<seq<Booking>>)
    ensures (roomId == "" || !IsDate(date)) ==> r == Err(InvalidInput)
    ensures roomId != "" && IsDate(date) && FindRoom(db.rooms, roomId).None? ==> r == Err(RoomNotFound)
    ensures r.Ok? <==> roomId != "" && IsDate(date) && FindRoom(db.rooms, roomId).Some?
    ensures r.Ok? ==> SortedBy(r.value, SlotAsc)
    ensures r.Ok? ==> forall x :: x in r.value <==>
      x.roomId == roomId && x.date == date && exists i :: 0 <= i < |db.bookings| && x == Normalize(db.bookings[i])
    ensures r.Ok? ==> forall x :: x in r.value ==> IsNormalized(x)
    ensures r.Ok? ==> |r.value| == |Filter(db.bookings, AtRoomOn(roomId, date))|
  {
    if roomId == "" || !IsDate(date) then Err(InvalidInput)
    else if FindRoom(db.rooms, roomId).None? then Err(RoomNotFound)
    else
      SlotAscTotalPreorder();
      var found := Filter(View(db.bookings), AtRoomOn(roomId, date));
      var sorted := SortBy(found, SlotAsc);
      ViewFilterMembers(db.bookings, AtRoomOn(roomId, date), sorted);
      ViewFilterLength(db.bookings, AtRoomOn(roomId, date));
      Ok(sorted)
  }

  /** Normalizing keeps the fields every query filters on, so it does not
      change how many bookings a filter keeps. */
  lemma {:induction false} ViewFilterLength(bs: seq<Booking>, p: Booking -> bool)
    requires forall b: Booking :: p(b) == p(Normalize(b))
    ensures |Filter(View(bs), p)| == |Filter(bs, p)|
    decreases |bs|
  {
    if bs != [] {
      ViewFilterLength(bs[1..], p);
      assert View(bs)[1..] == View(bs[1..]);
      assert View(bs)[0] == Normalize(bs[0]);
    }
  }

  /** `getAllBookings` (src/actions/room/get-all-bookings.ts): admins only;
      every booking, latest date first and by time slot within a date. */
  function GetAllBookings(db: Db, caller: Option<Caller>): (r: Result<seq<Booking>>)
    ensures caller.None? ==> r == Err(Unauthenticated)
    ensures caller.Some? && !IsAdmin(caller.value) ==> r == Err(NotAdmin)
    ensures r.Ok? <==> caller.Some? && IsAdmin(caller.value)
    ensures r.Ok? ==> SortedBy(r.value, DateDescSlotAsc)
    ensures r.Ok? ==> multiset(r.value) == multiset(View(db.bookings))
    ensures r.Ok? ==> forall x :: x in r.value <==> exists i :: 0 <= i < |db.bookings| && x == Normalize(db.bookings[i])
  {
    if caller.None? then Err(Unauthenticated)
    else if !IsAdmin(caller.value) then Err(NotAdmin)
    else
      DateDescSlotAscTotalPreorder();
      var sorted := SortBy(View(db.bookings), DateDescSlotAsc);
      FilterAll(View(db.bookings), (b: Booking) => true);
      ViewFilterMembers(db.bookings, (b: Booking) => true, sorted);
      Ok(sorted)
  }

  /** `getMyBookings` (src/actions/booking/get-my-bookings.ts): the caller's own
      bookings, latest date first and by time slot within a date. */
  function GetMyBookings(db: Db, caller: Option<Caller>): (r: Result<seq<Booking>>)
    ensures r.Ok? <==> caller.Some?
    ensures caller.None? ==> r == Err(Unauthenticated)
    ensures r.Ok? ==> SortedBy(r.value, DateDescSlotAsc)
    ensures r.Ok? ==> forall x :: x in r.value <==>
      x.userId == caller.value.id && exists i :: 0 <= i < |db.bookings| && x == Normalize(db.bookings[i])
    ensures r.Ok? ==> forall x :: x in r.value ==> IsNormalized(x)
    ensures r.Ok? ==> |r.value| == |Filter(db.bookings, OwnedBy(caller.value.id))|
  {
    if caller.None? then Err(Unauthenticated)
    else
      DateDescSlotAscTotalPreorder();
      var sorted := SortBy(Filter(View(db.bookings), OwnedBy(caller.value.id)), DateDescSlotAsc);
      ViewFilterMembers(db.bookings, OwnedBy(caller.value.id), sorted);
      ViewFilterLength(db.bookings, OwnedBy(caller.value.id));
      Ok(sorted)
  }

  /** One element of the GET /api/bookings response: the document as Mongoose
      hydrates it, so a missing status reads as the schema default PENDING,
      with the note left out. */
  function Listed(b: Booking): Booking {
    Normalize(b).(note := None)
  }

  function WithoutNotes(s: seq<Booking>): (r: seq<Booking>)
    ensures |r| == |s|
    ensures forall i :: 0 <= i < |s| ==> r[i] == Listed(s[i])
  {
    seq(|s|, i requires 0 <= i < |s| => Listed(s[i]))
  }

  /** GET /api/bookings (src/app/api/bookings/route.ts): the caller's bookings,
      newest first, each with its status (PENDING when missing) and without
      its note. */
  function ListCallerBookings(db: Db, caller: Option<Caller>): (r: Result<seq<Booking>>)
    ensures r.Ok? <==> caller.Some?
    ensures caller.None? ==> r == Err(Unauthenticated)
    ensures r.Ok? ==> SortedBy(r.value, CreatedDesc)
    ensures r.Ok? ==> forall x :: x in r.value <==>
      x.userId == caller.value.id && exists i :: 0 <= i < |db.bookings| && x == Listed(db.bookings[i])
    ensures r.Ok? ==> forall x :: x in r.value ==> x.status.Some? && x.note.None?
    ensures r.Ok? ==> |r.value| == |Filter(db.bookings, OwnedBy(caller.value.id))|
  {
    if caller.None? then Err(Unauthenticated)
    else
      CreatedDescTotalPreorder();
      var mine := Filter(db.bookings, OwnedBy(caller.value.id));
      var shown := WithoutNotes(mine);
      var sorted := SortBy(shown, CreatedDesc);
      SameElements(sorted, shown);
      WithoutNotesMembers(db.bookings, caller.value.id, mine, shown);
      Ok(sorted)
  }

  lemma WithoutNotesMembers(bs: seq<Booking>, userId: string, mine: seq<Booking>, shown: seq<Booking>)
    requires forall b :: b in mine <==> b in bs && b.userId == userId
    requires shown == WithoutNotes(mine)
    ensures forall x :: x in shown <==> x.userId == userId && exists i :: 0 <= i < |bs| && x == Listed(bs[i])
  {
    forall x ensures x in shown <==> x.userId == userId && exists i :: 0 <= i < |bs| && x == Listed(bs[i]) {
      if x in shown {
        var k :| 0 <= k < |shown| && shown[k] == x;
        assert mine[k] in mine;
        var i :| 0 <= i < |bs| && bs[i] == mine[k];
      }
      if x.userId == userId && exists i :: 0 <= i < |bs| && x == Listed(bs[i]) {
        var i :| 0 <= i < |bs| && x == Listed(bs[i]);
        assert bs[i] in mine;
        var k :| 0 <= k < |mine| && mine[k] == bs[i];
        assert shown[k] == x;
      }
    }
  }

  /** `booking.roomId.toString() === roomId`. */
  function InRoom(roomId: string): Booking -> bool {
    (b: Booking) => b.roomId == roomId
  }

  /** A booking of `roomId` on `date`, of any status. */
  function TodayIn(date: string, roomId: string): Booking -> bool {
    (b: Booking) => b.date == date && b.roomId == roomId
  }

  /** The entry reported for a booking on today's board: status and note
      filled in, and the room's current name in place of the stored one. */
  function Entry(b: Booking, room: Room): Booking {
    Normalize(b).(roomName := room.info.name)
  }

  function Relabel(s: seq<Booking>, room: Room): (r: seq<Booking>)
    ensures |r| == |s|
    ensures forall i :: 0 <= i < |s| ==> r[i] == Entry(s[i], room)
  {
    seq(|s|, i requires 0 <= i < |s| => Entry(s[i], room))
  }

  /** One room's entry of today's board: `bookings` is already sorted by time
      slot; the room's own name replaces the stored one. */
  function RoomEntries(todays: seq<Booking>, room: Room): (r: seq<Booking>)
    requires SortedBy(todays, SlotAsc)
    ensures SortedBy(r, SlotAsc)
    ensures forall x :: x in r <==> exists b :: b in todays && b.roomId == room.id && x == Entry(b, room)
    ensures |r| == |Filter(todays, InRoom(room.id))|
  {
    var mine := Filter(todays, InRoom(room.id));
    FilterSorted(todays, InRoom(room.id), SlotAsc);
    var r := Relabel(mine, room);
    assert SortedBy(r, SlotAsc) by {
      forall i, j | 0 <= i < j < |r| ensures SlotAsc(r[i], r[j]) {
        assert SlotAsc(mine[i], mine[j]);
      }
    }
    RelabelMembers(todays, mine, room, r);
    r
  }

  lemma RelabelMembers(todays: seq<Booking>, mine: seq<Booking>, room: Room, r: seq<Booking>)
    requires forall b :: b in mine <==> b in todays && b.roomId == room.id
    requires r == Relabel(mine, room)
    ensures forall x :: x in r <==> exists b :: b in todays && b.roomId == room.id && x == Entry(b, room)
  {
    forall x ensures x in r <==> exists b :: b in todays && b.roomId == room.id && x == Entry(b, room) {
      if x in r {
        var k :| 0 <= k < |r| && r[k] == x;
        assert mine[k] in mine;
      }
      if exists b :: b in todays && b.roomId == room.id && x == Entry(b, room) {
        var b :| b in todays && b.roomId == room.id && x == Entry(b, room);
        var k :| 0 <= k < |mine| && mine[k] == b;
        assert r[k] == x;
      }
    }
  }

  function RoomIds(rooms: seq<Room>): (ids: seq<string>)
    ensures |ids| == |rooms|
    ensures forall i :: 0 <= i < |rooms| ==> ids[i] == rooms[i].id
  {
    seq(|rooms|, i requires 0 <= i < |rooms| => rooms[i].id)
  }

  function AllRoomEntries(todays: seq<Booking>, rooms: seq<Room>): (es: seq<seq<Booking>>)
    requires SortedBy(todays, SlotAsc)
    ensures |es| == |rooms|
    ensures forall i :: 0 <= i < |rooms| ==> es[i] == RoomEntries(todays, rooms[i])
  {
    seq(|rooms|, i requires 0 <= i < |rooms| => RoomEntries(todays, rooms[i]))
  }

  /** The value `getTodayBookings` returns. */
  datatype TodayBoard = TodayBoard(date: string, bookings: map<string, seq<Booking>>)

  /** `getTodayBookings` (src/actions/room/get-today-bookings.ts): for every
      room, today's bookings of that room of every status, by time slot, each
      labelled with the room's current name.  The rooms are visited by name and
      each writes its own entry, so of two rooms sharing an id the later one's
      entry stays. */
  function GetTodayBookings(db: Db, today: string): (r: TodayBoard)
    ensures r.date == today
    ensures forall id :: id in r.bookings <==> id in RoomIds(db.rooms)
    ensures forall k :: 0 <= k < |db.rooms| ==> db.rooms[k].id in r.bookings
    ensures forall id :: id in r.bookings ==> SortedBy(r.bookings[id], SlotAsc)
    ensures UniqueRoomIds(db.rooms) ==> forall k, x :: 0 <= k < |db.rooms| ==>
      (x in r.bookings[db.rooms[k].id] <==>
        exists i :: 0 <= i < |db.bookings| && db.bookings[i].roomId == db.rooms[k].id && db.bookings[i].date == today
                 && x == Entry(db.bookings[i], db.rooms[k]))
    ensures UniqueRoomIds(db.rooms) ==> forall k :: 0 <= k < |db.rooms| ==>
      |r.bookings[db.rooms[k].id]| == |Filter(db.bookings, TodayIn(today, db.rooms[k].id))|
  {
    BoardFacts(db, today);
    BoardCounts(db, today);
    TodayBoard(today, BoardMap(db, today))
  }

  /** The map the rooms write, one room at a time in name order. */
  function BoardMap(db: Db, today: string): map<string, seq<Booking>> {
    RoomNameAscTotalPreorder();
    SlotAscTotalPreorder();
    var rooms := SortBy(db.rooms, RoomNameAsc);
    var todays := SortBy(Filter(db.bookings, OnDate(today)), SlotAsc);
    AssignAll(RoomIds(rooms), AllRoomEntries(todays, rooms))
  }

  lemma BoardFacts(db: Db, today: string)
    ensures forall id :: id in BoardMap(db, today) <==> id in RoomIds(db.rooms)
    ensures forall k :: 0 <= k < |db.rooms| ==> db.rooms[k].id in BoardMap(db, today)
    ensures forall id :: id in BoardMap(db, today) ==> SortedBy(BoardMap(db, today)[id], SlotAsc)
    ensures UniqueRoomIds(db.rooms) ==> forall k, x :: 0 <= k < |db.rooms| ==>
      (x in BoardMap(db, today)[db.rooms[k].id] <==>
        exists i :: 0 <= i < |db.bookings| && db.bookings[i].roomId == db.rooms[k].id && db.bookings[i].date == today
                 && x == Entry(db.bookings[i], db.rooms[k]))
  {
    RoomNameAscTotalPreorder();
    SlotAscTotalPreorder();
    var rooms := SortBy(db.rooms, RoomNameAsc);
    var todays := SortBy(Filter(db.bookings, OnDate(today)), SlotAsc);
    var m := AssignAll(RoomIds(rooms), AllRoomEntries(todays, rooms));
    SameElements(rooms, db.rooms);
    SameElements(todays, Filter(db.bookings, OnDate(today)));
    BoardFactsOn(db, today, rooms, todays, m);
  }

  /** With unique room ids, a room's entry lists each of its bookings of the
      day once per stored copy: no more, no fewer. */
  lemma BoardCounts(db: Db, today: string)
    requires forall k :: 0 <= k < |db.rooms| ==> db.rooms[k].id in BoardMap(db, today)
    ensures UniqueRoomIds(db.rooms) ==> forall k :: 0 <= k < |db.rooms| ==>
      |BoardMap(db, today)[db.rooms[k].id]| == |Filter(db.bookings, TodayIn(today, db.rooms[k].id))|
  {
    RoomNameAscTotalPreorder();
    SlotAscTotalPreorder();
    var rooms := SortBy(db.rooms, RoomNameAsc);
    var onDate := Filter(db.bookings, OnDate(today));
    var todays := SortBy(onDate, SlotAsc);
    var m := AssignAll(RoomIds(rooms), AllRoomEntries(todays, rooms));
    assert m == BoardMap(db, today);
    SameElements(rooms, db.rooms);
    forall k | UniqueRoomIds(db.rooms) && 0 <= k < |db.rooms|
      ensures |m[db.rooms[k].id]| == |Filter(db.bookings, TodayIn(today, db.rooms[k].id))|
    {
      var id := db.rooms[k].id;
      BoardEntryOf(db.rooms, rooms, todays, m, k);
      FilterPermutation(todays, onDate, InRoom(id));
      FilterBoth(db.bookings, OnDate(today), InRoom(id), TodayIn(today, id));
    }
  }

  lemma BoardFactsOn(db: Db, today: string, rooms: seq<Room>, todays: seq<Booking>, m: map<string, seq<Booking>>)
    requires forall room :: room in rooms <==> room in db.rooms
    requires forall b :: b in todays <==> b in db.bookings && b.date == today
    requires SortedBy(todays, SlotAsc)
    requires m == AssignAll(RoomIds(rooms), AllRoomEntries(todays, rooms))
    ensures forall id :: id in m <==> id in RoomIds(db.rooms)
    ensures forall k :: 0 <= k < |db.rooms| ==> db.rooms[k].id in m
    ensures forall id :: id in m ==> SortedBy(m[id], SlotAsc)
    ensures UniqueRoomIds(db.rooms) ==> forall k, x :: 0 <= k < |db.rooms| ==>
      (x in m[db.rooms[k].id] <==>
        exists i :: 0 <= i < |db.bookings| && db.bookings[i].roomId == db.rooms[k].id && db.bookings[i].date == today
                 && x == Entry(db.bookings[i], db.rooms[k]))
  {
    BoardKeys(db.rooms, rooms, todays, m);
    BoardEntries(db, today, rooms, todays, m);
  }

  lemma BoardKeys(stored: seq<Room>, rooms: seq<Room>, todays: seq<Booking>, m: map<string, seq<Booking>>)
    requires forall room :: room in rooms <==> room in stored
    requires SortedBy(todays, SlotAsc)
    requires m == AssignAll(RoomIds(rooms), AllRoomEntries(todays, rooms))
    ensures forall id :: id in m <==> id in RoomIds(stored)
    ensures forall k :: 0 <= k < |stored| ==> stored[k].id in m
    ensures forall id :: id in m ==> SortedBy(m[id], SlotAsc)
  {
    SameIds(stored, rooms);
    forall k | 0 <= k < |stored| ensures stored[k].id in m {
      assert RoomIds(stored)[k] == stored[k].id;
    }
    BoardSorted(rooms, todays, m);
  }

  lemma SameIds(stored: seq<Room>, rooms: seq<Room>)
    requires forall room :: room in rooms <==> room in stored
    ensures forall id :: id in RoomIds(rooms) <==> id in RoomIds(stored)
  {
    var ids := RoomIds(rooms);
    forall id ensures id in ids <==> id in RoomIds(stored) {
      if id in ids {
        var i :| 0 <= i < |rooms| && ids[i] == id;
        assert rooms[i] in stored;
        var k :| 0 <= k < |stored| && stored[k] == rooms[i];
        assert RoomIds(stored)[k] == id;
      }
      if id in RoomIds(stored) {
        var k :| 0 <= k < |stored| && RoomIds(stored)[k] == id;
        assert stored[k] in rooms;
        var i :| 0 <= i < |rooms| && rooms[i] == stored[k];
        assert ids[i] == id;
      }
    }
  }

  lemma BoardSorted(rooms: seq<Room>, todays: seq<Booking>, m: map<string, seq<Booking>>)
    requires SortedBy(todays, SlotAsc)
    requires m == AssignAll(RoomIds(rooms), AllRoomEntries(todays, rooms))
    ensures forall id :: id in m ==> SortedBy(m[id], SlotAsc)
  {
    var ids := RoomIds(rooms);
    var es := AllRoomEntries(todays, rooms);
    forall id | id in m ensures SortedBy(m[id], SlotAsc) {
      assert id in ids;
      var i :| 0 <= i < |ids| && ids[i] == id;
      var j := LastIndex(ids, i);
      assert m[id] == es[j];
    }
  }

  lemma BoardEntries(db: Db, today: string, rooms: seq<Room>, todays: seq<Booking>, m: map<string, seq<Booking>>)
    requires forall room :: room in rooms <==> room in db.rooms
    requires forall b :: b in todays <==> b in db.bookings && b.date == today
    requires SortedBy(todays, SlotAsc)
    requires m == AssignAll(RoomIds(rooms), AllRoomEntries(todays, rooms))
    requires forall k :: 0 <= k < |db.rooms| ==> db.rooms[k].id in m
    ensures UniqueRoomIds(db.rooms) ==> forall k, x :: 0 <= k < |db.rooms| ==>
      (x in m[db.rooms[k].id] <==>
        exists i :: 0 <= i < |db.bookings| && db.bookings[i].roomId == db.rooms[k].id && db.bookings[i].date == today
                 && x == Entry(db.bookings[i], db.rooms[k]))
  {
    forall k, x | UniqueRoomIds(db.rooms) && 0 <= k < |db.rooms|
      ensures x in m[db.rooms[k].id] <==>
        exists i :: 0 <= i < |db.bookings| && db.bookings[i].roomId == db.rooms[k].id && db.bookings[i].date == today
                 && x == Entry(db.bookings[i], db.rooms[k])
    {
      BoardEntryOf(db.rooms, rooms, todays, m, k);
      TodayEntryMembers(db, today, todays, db.rooms[k], m[db.rooms[k].id], x);
    }
  }

  /** With unique room ids, a room's entry on the board is its own. */
  lemma BoardEntryOf(stored: seq<Room>, rooms: seq<Room>, todays: seq<Booking>, m: map<string, seq<Booking>>, k: nat)
    requires UniqueRoomIds(stored) && k < |stored|
    requires forall room :: room in rooms <==> room in stored
    requires SortedBy(todays, SlotAsc)
    requires m == AssignAll(RoomIds(rooms), AllRoomEntries(todays, rooms))
    ensures stored[k].id in m && m[stored[k].id] == RoomEntries(todays, stored[k])
  {
    var ids := RoomIds(rooms);
    var room := stored[k];
    assert room in rooms;
    var i :| 0 <= i < |rooms| && rooms[i] == room;
    assert ids[i] == room.id;
    var j := LastIndex(ids, i);
    assert rooms[j] in stored;
    var k2 :| 0 <= k2 < |stored| && stored[k2] == rooms[j];
    assert stored[k2].id == ids[j] == room.id;
    SameRoomId(stored, k, k2);
    var es := AllRoomEntries(todays, rooms);
    assert m[ids[j]] == es[j] == RoomEntries(todays, rooms[j]);
  }

  lemma SameRoomId(rooms: seq<Room>, k: nat, k2: nat)
    requires UniqueRoomIds(rooms) && k < |rooms| && k2 < |rooms| && rooms[k].id == rooms[k2].id
    ensures k == k2
  {
  }

  lemma TodayEntryMembers(db: Db, today: string, todays: seq<Booking>, room: Room, entries: seq<Booking>, x: Booking)
    requires forall b :: b in todays <==> b in db.bookings && b.date == today
    requires forall y :: y in entries <==> exists b :: b in todays && b.roomId == room.id && y == Entry(b, room)
    ensures x in entries <==>
      exists i :: 0 <= i < |db.bookings| && db.bookings[i].roomId == room.id && db.bookings[i].date == today
               && x == Entry(db.bookings[i], room)
  {
    if x in entries {
      var b :| b in todays && b.roomId == room.id && x == Entry(b, room);
      var i :| 0 <= i < |db.bookings| && db.bookings[i] == b;
    }
    if exists i :: (&& 0 <= i < |db.bookings| && db.bookings[i].roomId == room.id
                    && db.bookings[i].date == today && x == Entry(db.bookings[i], room)) {
      var i :| (&& 0 <= i < |db.bookings| && db.bookings[i].roomId == room.id
                && db.bookings[i].date == today && x == Entry(db.bookings[i], room));
      assert db.bookings[i] in todays;
    }
  }
}

=== FILE: formats.dfy ===
/** The accepted input formats of the application's Zod schemas: dates, time
    slots, the booking status enumeration, e-mail addresses, and the shapes of
    the create-booking, update-booking and room inputs. */
module Formats {
  import opened Outcomes
  import opened Text

  /** `^\d{4}-\d{2}-\d{2}$`: ten characters, digits around two dashes.  No
      calendar check: month 13 and day 99 are accepted. */
  predicate IsDate(s: string) {
    && |s| == 10
    && IsDigit(s[0]) && IsDigit(s[1]) && IsDigit(s[2]) && IsDigit(s[3])
    && s[4] == '-'
    && IsDigit(s[5]) && IsDigit(s[6])
    && s[7] == '-'
    && IsDigit(s[8]) && IsDigit(s[9])
  }

  /** `^\d{2}:\d{2}-\d{2}:\d{2}$`: eleven characters `HH:MM-HH:MM`.  Neither the
      hour range nor start-before-end is checked. */
  predicate IsSlot(s: string) {
    && |s| == 11
    && IsDigit(s[0]) && IsDigit(s[1]) && s[2] == ':' && IsDigit(s[3]) && IsDigit(s[4])
    && s[5] == '-'
    && IsDigit(s[6]) && IsDigit(s[7]) && s[8] == ':' && IsDigit(s[9]) && IsDigit(s[10])
  }

  lemma DateFormatIsSyntacticOnly()
    ensures IsDate("2024-13-99")
    ensures !IsDate("2024-6-01")
  {
  }

  lemma SlotFormatIsSyntacticOnly()
    ensures IsSlot("23:00-24:00") && IsSlot("18:00-09:00") && IsSlot("99:99-00:00")
    ensures !IsSlot("9:00-10:00")
  {
  }

  /** The booking status enumeration `PENDING | APPROVED | REJECTED`. */
  datatype Status = Pending | Approved | Rejected

  function StatusName(s: Status): string {
    match s
    case Pending => "PENDING"
    case Approved => "APPROVED"
    case Rejected => "REJECTED"
  }

  /** `BookingStatusSchema.parse`: exactly the three names are accepted. */
  function ParseStatus(s: string): (r: Option<Status>)
    ensures r.Some? <==> s == "PENDING" || s == "APPROVED" || s == "REJECTED"
    ensures r.Some? ==> StatusName(r.value) == s
  {
    if s == "PENDING" then Some(Pending)
    else if s == "APPROVED" then Some(Approved)
    else if s == "REJECTED" then Some(Rejected)
    else None
  }

  lemma StatusNameRoundTrip(st: Status)
    ensures ParseStatus(StatusName(st)) == Some(st)
  {
  }

  /** A match of `^\S+@\S+\.\S+$` split at its `@` (index `i`) and its `.`
      (index `j`): three non-empty whitespace-free runs around them. */
  ghost predicate EmailMatchAt(s: string, i: int, j: int) {
    && 0 < i && i + 1 < j && j + 1 < |s|
    && NoSpace(s[..i]) && s[i] == '@' && NoSpace(s[i + 1..j]) && s[j] == '.' && NoSpace(s[j + 1..])
  }

  /** The language of the Mongoose pattern `^\S+@\S+\.\S+$`. */
  ghost predicate EmailPattern(s: string) {
    exists i, j :: EmailMatchAt(s, i, j)
  }

  /** The first index at or after `from` holding `c`, if any. */
  function IndexFrom(s: string, c: char, from: nat): (r: Option<nat>)
    ensures r.Some? ==> from <= r.value < |s| && s[r.value] == c
    ensures r.Some? ==> forall k :: from <= k < r.value ==> s[k] != c
    ensures r.None? ==> forall k :: from <= k < |s| ==> s[k] != c
    decreases |s| - from
  {
    if from >= |s| then None
    else if s[from] == c then Some(from)
    else IndexFrom(s, c, from + 1)
  }

  /** The last index below `bound` holding `c`, if any. */
  function LastIndexBelow(s: string, c: char, bound: nat): (r: Option<nat>)
    requires bound <= |s|
    ensures r.Some? ==> r.value < bound && s[r.value] == c
    ensures r.Some? ==> forall k :: r.value < k < bound ==> s[k] != c
    ensures r.None? ==> forall k :: 0 <= k < bound ==> s[k] != c
    decreases bound
  {
    if bound == 0 then None
    else if s[bound - 1] == c then Some(bound - 1)
    else LastIndexBelow(s, c, bound - 1)
  }

  /** A single left-to-right decision procedure for the e-mail pattern: no
      whitespace, an `@` after the first character, and a `.` at least two
      characters after that `@` and before the last character. */
  function IsEmail(s: string): (ok: bool)
    ensures ok <==> EmailPattern(s)
  {
    var at := IndexFrom(s, '@', 1);
    var dot := if |s| >= 1 then LastIndexBelow(s, '.', |s| - 1) else None;
    var ok := NoSpace(s) && at.Some? && dot.Some? && at.value + 1 < dot.value;
    EmailDecision(s, at, dot, ok);
    ok
  }

  lemma EmailDecision(s: string, at: Option<nat>, dot: Option<nat>, ok: bool)
    requires at == IndexFrom(s, '@', 1)
    requires dot == if |s| >= 1 then LastIndexBelow(s, '.', |s| - 1) else None
    requires ok == (NoSpace(s) && at.Some? && dot.Some? && at.value + 1 < dot.value)
    ensures ok <==> EmailPattern(s)
  {
    if ok {
      NoSpaceSlices(s, at.value, dot.value);
      assert EmailMatchAt(s, at.value, dot.value);
    }
    if EmailPattern(s) {
      var i, j :| EmailMatchAt(s, i, j);
      MatchHasNoSpace(s, i, j);
    }
  }

  /** A match of the pattern is free of white space throughout. */
  lemma MatchHasNoSpace(s: string, i: nat, j: nat)
    requires EmailMatchAt(s, i, j)
    ensures NoSpace(s) && s[i] == '@' && s[j] == '.'
  {
    forall k | 0 <= k < |s| ensures !IsSpace(s[k]) {
      if k < i { assert s[k] == s[..i][k]; }
      else if i < k < j { assert s[k] == s[i + 1..j][k - i - 1]; }
      else if j < k { assert s[k] == s[j + 1..][k - j - 1]; }
    }
  }

  lemma NoSpaceSlices(s: string, i: nat, j: nat)
    requires NoSpace(s) && i < j < |s|
    ensures NoSpace(s[..i]) && NoSpace(s[i + 1..j]) && NoSpace(s[j + 1..])
  {
  }

  lemma EmailExamples()
    ensures IsEmail("a@b.co")
    ensures !IsEmail("a@b") && !IsEmail("@b.co") && !IsEmail("a b@c.de") && !IsEmail("a@.c")
  {
    assert EmailMatchAt("a@b.co", 1, 3);
  }

  predicate IsAsciiLetter(c: char) {
    ('a' <= c <= 'z') || ('A' <= c <= 'Z')
  }

  predicate IsSchemeChar(c: char) {
    IsAsciiLetter(c) || IsDigit(c) || c == '+' || c == '-' || c == '.'
  }

  /** The part of Zod's `.url()` the model keeps: the string starts with a URL
      scheme `[A-Za-z][A-Za-z0-9+.-]*` followed by `:`. */
  predicate HasUrlScheme(s: string) {
    exists k :: 1 <= k < |s| && s[k] == ':' && IsAsciiLetter(s[0]) && SchemeCharsBelow(s, k)
  }

  predicate SchemeCharsBelow(s: string, k: nat)
    requires k <= |s|
  {
    forall m :: 1 <= m < k ==> IsSchemeChar(s[m])
  }

  /** `BookerSchema`: the person a booking is made for. */
  datatype Booker = Booker(name: string, email: string)

  predicate BookerValid(b: Booker) {
    |b.name| >= 1 && IsEmail(b.email)
  }

  /** The input of the create-booking action. */
  datatype CreateBookingInput = CreateBookingInput(roomId: string, date: string, timeSlot: string, bookedBy: Booker)

  /** `CreateBookingSchema`. */
  predicate CreateBookingInputValid(input: CreateBookingInput) {
    && |input.roomId| >= 1
    && IsDate(input.date)
    && IsSlot(input.timeSlot)
    && BookerValid(input.bookedBy)
  }

  /** The input of the update-booking action: `status` arrives as text. */
  datatype UpdateBookingInput = UpdateBookingInput(id: string, status: string, note: Option<string>)

  /** `UpdateBookingSchema`: a non-empty id and one of the three status names;
      the note is optional. */
  predicate UpdateBookingInputValid(input: UpdateBookingInput) {
    |input.id| >= 1 && ParseStatus(input.status).Some?
  }

  /** The editable fields of a room, as `RoomSchema` describes them
      (identifier and timestamps aside). */
  datatype RoomInfo = RoomInfo(
    name: string,
    capacity: int,
    imageUrl: string,
    facilities: seq<string>,
    description: string,
    location: string,
    area: string,
    hourlyRate: real,
    availableTimeSlots: seq<string>)

  /** `RoomSchema` on the editable fields: a positive capacity, at least one
      facility, a positive hourly rate, non-empty texts, a URL, and every
      available slot in `HH:MM-HH:MM` form. */
  predicate RoomInfoValid(r: RoomInfo) {
    && |r.name| >= 1
    && r.capacity > 0
    && HasUrlScheme(r.imageUrl)
    && |r.facilities| >= 1
    && |r.description| >= 1
    && |r.location| >= 1
    && |r.area| >= 1
    && r.hourlyRate > 0.0
    && (forall i :: 0 <= i < |r.availableTimeSlots| ==> IsSlot(r.availableTimeSlots[i]))
  }
}

=== FILE: outcomes.dfy ===
/** Optional values, the failures the booking application reports, and results
    that carry either a value or one of those failures. */
module Outcomes {

  datatype Option<+T> = None | Some(value: T) {
    function GetOr(default: T): T {
      match this
      case Some(v) => v
      case None => default
    }
  }

  /** Every distinct failure the modelled actions and routes raise.  An action
      that fails changes nothing: a failure carries no new state. */
  datatype Error =
    | Unauthenticated     // no signed-in session ("請先登入", HTTP 401)
    | NotAdmin            // a session without role ADMIN where one is required
    | InvalidInput        // the Zod input schema rejected the input (ZodError)
    | RecordInvalid       // the Mongoose document validators rejected the record on save
    | MalformedRequest    // the request body lacked a field the handler dereferences
    | RoomNotFound
    | BookingNotFound
    | UserNotFound
    | SlotNotOffered      // the time slot is not among the room's available slots
    | SlotConflict        // a booking with the same (room, date, time slot) exists
    | NotPermitted        // neither the owner nor an admin
    | DuplicateRoomName   // another room already has the requested name
    | OwnRoleChange       // an admin tried to change their own role

  datatype Result<+T> = Ok(value: T) | Err(error: Error)
}

=== FILE: records.dfy ===
/** The stored documents of src/models/Booking.ts, src/models/Room.ts and
    src/models/User.ts, their Mongoose validators, the compound unique key of
    bookings, and the orders the queries sort by. */
module Records {
  import opened Outcomes
  import opened Text
  import opened Seqs
  import opened Formats
  import opened Auth

  /** A stored booking.  `status` and `note` are optional in storage: the
      queries report a missing status as PENDING and a missing note as "". */
  datatype Booking = Booking(
    id: string,
    roomId: string,
    roomName: string,
    userId: string,
    userName: string,
    userEmail: string,
    date: string,
    timeSlot: string,
    status: Option<Status>,
    note: Option<string>,
    createdAt: int)

  /** `booking.status || "PENDING"`. */
  function StatusOf(b: Booking): Status {
    b.status.GetOr(Pending)
  }

  /** `booking.note || ""`. */
  function NoteOf(b: Booking): string {
    b.note.GetOr("")
  }

  /** The booking as the queries report it: status and note filled in. */
  function Normalize(b: Booking): (v: Booking)
    ensures v.status == Some(StatusOf(b)) && v.note == Some(NoteOf(b))
    ensures v.id == b.id && KeyOf(v) == KeyOf(b) && v.userId == b.userId && v.createdAt == b.createdAt
    ensures b.status.Some? && b.note.Some? ==> v == b
  {
    b.(status := Some(StatusOf(b)), note := Some(NoteOf(b)))
  }

  predicate IsNormalized(b: Booking) {
    b.status.Some? && b.note.Some?
  }

  /** The ledger as the queries read it. */
  function View(bs: seq<Booking>): (r: seq<Booking>)
    ensures |r| == |bs|
    ensures forall i :: 0 <= i < |bs| ==> r[i] == Normalize(bs[i])
  {
    seq(|bs|, i requires 0 <= i < |bs| => Normalize(bs[i]))
  }

  /** The fields of the compound unique index `{ roomId, date, timeSlot }`. */
  datatype SlotKey = SlotKey(roomId: string, date: string, timeSlot: string)

  function KeyOf(b: Booking): SlotKey {
    SlotKey(b.roomId, b.date, b.timeSlot)
  }

  /** The unique index: at most one booking per key, whatever its status. */
  predicate UniqueKeys(bs: seq<Booking>) {
    forall i, j :: 0 <= i < j < |bs| ==> KeyOf(bs[i]) != KeyOf(bs[j])
  }

  predicate UniqueIds(bs: seq<Booking>) {
    forall i, j :: 0 <= i < j < |bs| ==> bs[i].id != bs[j].id
  }

  /** `Booking.findOne({ roomId, date, timeSlot })` finds something. */
  predicate SlotTaken(bs: seq<Booking>, key: SlotKey) {
    exists i :: 0 <= i < |bs| && KeyOf(bs[i]) == key
  }

  /** The Mongoose validators of the booking schema: every required string
      non-empty, the e-mail, date and time-slot patterns. */
  predicate BookingRecordValid(b: Booking) {
    && b.roomId != "" && b.roomName != "" && b.userId != ""
    && b.userName != "" && b.userEmail != ""
    && IsEmail(b.userEmail)
    && IsDate(b.date)
    && IsSlot(b.timeSlot)
  }

  /** What the database guarantees of every stored booking collection:
      non-empty unique identifiers, valid records, and the unique index. */
  predicate LedgerWellFormed(bs: seq<Booking>) {
    && UniqueIds(bs)
    && UniqueKeys(bs)
    && (forall i :: 0 <= i < |bs| ==> bs[i].id != "" && BookingRecordValid(bs[i]))
  }

  /** `Booking.findById(id)`: the position of the booking with that id. */
  function FindBooking(bs: seq<Booking>, id: string): (r: Option<nat>)
    ensures r.Some? ==> r.value < |bs| && bs[r.value].id == id
    ensures r.Some? ==> forall k :: 0 <= k < r.value ==> bs[k].id != id
    ensures r.None? ==> forall k :: 0 <= k < |bs| ==> bs[k].id != id
  {
    if |bs| == 0 then None
    else if bs[0].id == id then Some(0)
    else match FindBooking(bs[1..], id)
      case None => None
      case Some(k) => Some(k + 1)
  }

  lemma FindBookingUnique(bs: seq<Booking>, k: nat)
    requires UniqueIds(bs) && k < |bs|
    ensures FindBooking(bs, bs[k].id) == Some(k)
  {
  }

  /** A stored room. */
  datatype Room = Room(id: string, info: RoomInfo, createdAt: int)

  /** The Mongoose validators of the room schema: a required (trimmed) name,
      capacity at least 1, at least one facility, the other texts required and
      a non-negative hourly rate. */
  predicate RoomRecordValid(r: Room) {
    && r.info.name != ""
    && r.info.capacity >= 1
    && r.info.imageUrl != ""
    && |r.info.facilities| > 0
    && r.info.description != ""
    && r.info.location != ""
    && r.info.area != ""
    && r.info.hourlyRate >= 0.0
  }

  /** The two room validations differ on the rate: the Zod schema wants it
      positive, the Mongoose schema accepts zero. */
  lemma ZeroRateOnlyStorable(r: Room)
    requires RoomRecordValid(r) && r.info.hourlyRate == 0.0
    ensures !RoomInfoValid(r.info)
  {
  }

  /** `Room.findById(id)`. */
  function FindRoom(rooms: seq<Room>, id: string): (r: Option<nat>)
    ensures r.Some? ==> r.value < |rooms| && rooms[r.value].id == id
    ensures r.Some? ==> forall k :: 0 <= k < r.value ==> rooms[k].id != id
    ensures r.None? ==> forall k :: 0 <= k < |rooms| ==> rooms[k].id != id
  {
    if |rooms| == 0 then None
    else if rooms[0].id == id then Some(0)
    else match FindRoom(rooms[1..], id)
      case None => None
      case Some(k) => Some(k + 1)
  }

  predicate UniqueRoomIds(rooms: seq<Room>) {
    forall i, j :: 0 <= i < j < |rooms| ==> rooms[i].id != rooms[j].id
  }

  /** A stored user; a missing role reads as USER. */
  datatype User = User(id: string, name: string, email: string, role: Option<Role>)

  function FindUser(users: seq<User>, id: string): (r: Option<nat>)
    ensures r.Some? ==> r.value < |users| && users[r.value].id == id
    ensures r.Some? ==> forall k :: 0 <= k < r.value ==> users[k].id != id
    ensures r.None? ==> forall k :: 0 <= k < |users| ==> users[k].id != id
  {
    if |users| == 0 then None
    else if users[0].id == id then Some(0)
    else match FindUser(users[1..], id)
      case None => None
      case Some(k) => Some(k + 1)
  }

  /** The whole database: the Rooms, Bookings and Users collections. */
  datatype Db = Db(rooms: seq<Room>, bookings: seq<Booking>, users: seq<User>)

  /** What an action returns on success: the database afterwards and its result. */
  datatype Step<T> = Step(db: Db, out: T)

  /** `a` with position `i` replaced by `x`. */
  function Replace<T>(a: seq<T>, i: nat, x: T): (r: seq<T>)
    requires i < |a|
    ensures |r| == |a| && r[i] == x
    ensures forall k :: 0 <= k < |a| && k != i ==> r[k] == a[k]
  {
    a[i := x]
  }

  /** `a` without position `i`. */
  function RemoveAt<T>(a: seq<T>, i: nat): (r: seq<T>)
    requires i < |a|
    ensures |r| == |a| - 1
    ensures forall k :: 0 <= k < i ==> r[k] == a[k]
    ensures forall k :: i <= k < |r| ==> r[k] == a[k + 1]
  {
    a[..i] + a[i + 1..]
  }

  // Orders used by the queries' `.sort(...)` calls.

  /** `sort({ timeSlot: 1 })`. */
  predicate SlotAsc(a: Booking, b: Booking) {
    StrLe(a.timeSlot, b.timeSlot)
  }

  /** `sort({ date: -1, timeSlot: 1 })`. */
  predicate DateDescSlotAsc(a: Booking, b: Booking) {
    StrLt(b.date, a.date) || (a.date == b.date && StrLe(a.timeSlot, b.timeSlot))
  }

  /** `sort({ createdAt: -1 })`. */
  predicate CreatedDesc(a: Booking, b: Booking) {
    a.createdAt >= b.createdAt
  }

  /** `sort({ name: 1 })` on rooms. */
  predicate RoomNameAsc(a: Room, b: Room) {
    StrLe(a.info.name, b.info.name)
  }

  /** `sort({ createdAt: -1 })` on rooms. */
  predicate RoomCreatedDesc(a: Room, b: Room) {
    a.createdAt >= b.createdAt
  }

  lemma StrLeTotalPreorder()
    ensures TotalPreorder(StrLe)
  {
    forall a: string, b: string ensures StrLe(a, b) || StrLe(b, a) {
      StrLtTotal(a, b);
    }
    forall a: string, b: string, c: string | StrLe(a, b) && StrLe(b, c) ensures StrLe(a, c) {
      if a != b && b != c {
        StrLtTransitive(a, b, c);
      }
    }
  }

  lemma SlotAscTotalPreorder()
    ensures TotalPreorder(SlotAsc)
  {
    StrLeTotalPreorder();
    forall a: Booking, b: Booking ensures SlotAsc(a, b) || SlotAsc(b, a) {
      assert StrLe(a.timeSlot, b.timeSlot) || StrLe(b.timeSlot, a.timeSlot);
    }
    forall a: Booking, b: Booking, c: Booking | SlotAsc(a, b) && SlotAsc(b, c) ensures SlotAsc(a, c) {
      assert StrLe(a.timeSlot, b.timeSlot) && StrLe(b.timeSlot, c.timeSlot);
    }
  }

  lemma DateDescSlotAscTotalPreorder()
    ensures TotalPreorder(DateDescSlotAsc)
  {
    StrLeTotalPreorder();
    forall a: Booking, b: Booking ensures DateDescSlotAsc(a, b) || DateDescSlotAsc(b, a) {
      StrLtTotal(a.date, b.date);
      assert StrLe(a.timeSlot, b.timeSlot) || StrLe(b.timeSlot, a.timeSlot);
    }
    forall a: Booking, b: Booking, c: Booking | DateDescSlotAsc(a, b) && DateDescSlotAsc(b, c)
      ensures DateDescSlotAsc(a, c)
    {
      if StrLt(b.date, a.date) && StrLt(c.date, b.date) {
        StrLtTransitive(c.date, b.date, a.date);
      } else if a.date == b.date && b.date == c.date {
        assert StrLe(a.timeSlot, b.timeSlot) && StrLe(b.timeSlot, c.timeSlot);
      }
    }
  }

  lemma RoomNameAscTotalPreorder()
    ensures TotalPreorder(RoomNameAsc)
  {
    StrLeTotalPreorder();
    forall a: Room, b: Room ensures RoomNameAsc(a, b) || RoomNameAsc(b, a) {
      assert StrLe(a.info.name, b.info.name) || StrLe(b.info.name, a.info.name);
    }
    forall a: Room, b: Room, c: Room | RoomNameAsc(a, b) && RoomNameAsc(b, c) ensures RoomNameAsc(a, c) {
      assert StrLe(a.info.name, b.info.name) && StrLe(b.info.name, c.info.name);
    }
  }

  lemma CreatedDescTotalPreorder()
    ensures TotalPreorder(CreatedDesc)
  {
  }

  lemma RoomCreatedDescTotalPreorder()
    ensures TotalPreorder(RoomCreatedDesc)
  {
  }
}

=== FILE: room_actions.dfy ===
/** The room and user administration actions: createRoom, updateRoom and
    deleteRoom (src/actions/room/) and updateUser (src/actions/admin/). */
module RoomActions {
  import opened Outcomes
  import opened Text
  import opened Formats
  import opened Auth
  import opened Records

  /** The room Mongoose builds from validated input: the `trim` option of the
      name applies, everything else is stored as given. */
  function StoredInfo(input: RoomInfo): (info: RoomInfo)
    ensures info.name == Trim(input.name)
    ensures info.(name := input.name) == input
  {
    input.(name := Trim(input.name))
  }

  /** createRoom (src/actions/room/create-room.ts): no session is consulted;
      the room schema without id and timestamps validates the input, then the
      save runs the model's validators on the trimmed name.  Nothing is saved
      on either failure, and no other room's name is consulted. */
  function CreateRoom(db: Db, input: RoomInfo, newId: string, now: int): (r: Result<Step<Room>>)
    ensures !RoomInfoValid(input) ==> r == Err(InvalidInput)
    ensures RoomInfoValid(input) && Trim(input.name) == "" ==> r == Err(RecordInvalid)
    ensures r.Ok? <==> RoomInfoValid(input) && Trim(input.name) != ""
    ensures r.Ok? ==> && r.value.out == Room(newId, StoredInfo(input), now)
                      && RoomRecordValid(r.value.out)
                      && r.value.db == db.(rooms := db.rooms + [r.value.out])
  {
    if !RoomInfoValid(input) then Err(InvalidInput)
    else
      var room := Room(newId, StoredInfo(input), now);
      if !RoomRecordValid(room) then Err(RecordInvalid)
      else Ok(Step(db.(rooms := db.rooms + [room]), room))
  }

  /** A name of blanks passes the schema's length check but is empty once
      trimmed, so the save refuses it. */
  lemma BlankNameRefusedAtSave(db: Db, input: RoomInfo, newId: string, now: int)
    requires RoomInfoValid(input) && input.name == " "
    ensures CreateRoom(db, input, newId, now) == Err(RecordInvalid)
  {
    assert Trim(input.name) == "";
  }

  /** Creating a room whose name another room already carries succeeds. */
  lemma CreateAllowsDuplicateName(db: Db, input: RoomInfo, newId: string, now: int, k: nat)
    requires RoomInfoValid(input) && NoSpace(input.name)
    requires k < |db.rooms| && db.rooms[k].info.name == input.name
    ensures CreateRoom(db, input, newId, now).Ok?
    ensures var rooms := CreateRoom(db, input, newId, now).value.db.rooms;
      rooms[k].info.name == rooms[|rooms| - 1].info.name
  {
  }

  /** The editable fields `updateRoom` accepts: the room schema's name,
      description, location, capacity, hourly rate, facilities, image URL and
      slots, plus the room id.  The area is not among them. */
  datatype RoomPatch = RoomPatch(
    id: string,
    name: string,
    description: string,
    location: string,
    capacity: int,
    hourlyRate: real,
    facilities: seq<string>,
    imageUrl: string,
    availableTimeSlots: seq<string>)

  /** `UpdateRoomSchema`: the picked room-schema rules and a non-empty id. */
  predicate RoomPatchValid(p: RoomPatch) {
    && |p.id| >= 1
    && |p.name| >= 1
    && p.capacity > 0
    && HasUrlScheme(p.imageUrl)
    && |p.facilities| >= 1
    && |p.description| >= 1
    && |p.location| >= 1
    && p.hourlyRate > 0.0
    && (forall i :: 0 <= i < |p.availableTimeSlots| ==> IsSlot(p.availableTimeSlots[i]))
  }

  /** `Room.findOne({ _id: { $ne: id }, name })` finds something.  The schema's
      `trim` setter also casts the query value, so callers pass the trimmed
      name. */
  predicate NameTakenByOther(rooms: seq<Room>, id: string, name: string) {
    exists k :: 0 <= k < |rooms| && rooms[k].id != id && rooms[k].info.name == name
  }

  /** The room after `findByIdAndUpdate`: the patched fields replaced (the
      name trimmed by its setter), the area, id and creation time kept. */
  function Patched(room: Room, p: RoomPatch): (r: Room)
    ensures r.id == room.id && r.createdAt == room.createdAt && r.info.area == room.info.area
    ensures r.info.name == Trim(p.name)
    ensures && r.info.description == p.description && r.info.location == p.location
            && r.info.capacity == p.capacity && r.info.hourlyRate == p.hourlyRate
            && r.info.facilities == p.facilities && r.info.imageUrl == p.imageUrl
            && r.info.availableTimeSlots == p.availableTimeSlots
  {
    room.(info := RoomInfo(Trim(p.name), p.capacity, p.imageUrl, p.facilities, p.description,
                           p.location, room.info.area, p.hourlyRate, p.availableTimeSlots))
  }

  /** updateRoom (src/actions/room/update-room.ts): session, admin role,
      schema, existence, then a clash of the trimmed name with a different
      room, in that order; the update itself runs no validators. */
  function UpdateRoom(db: Db, caller: Option<Caller>, p: RoomPatch): (r: Result<Step<Room>>)
    ensures caller.None? ==> r == Err(Unauthenticated)
    ensures caller.Some? && !IsAdmin(caller.value) ==> r == Err(NotAdmin)
    ensures caller.Some? && IsAdmin(caller.value) && !RoomPatchValid(p) ==> r == Err(InvalidInput)
    ensures caller.Some? && IsAdmin(caller.value) && RoomPatchValid(p) && FindRoom(db.rooms, p.id).None?
            ==> r == Err(RoomNotFound)
    ensures (&& caller.Some? && IsAdmin(caller.value) && RoomPatchValid(p) && FindRoom(db.rooms, p.id).Some?
             && NameTakenByOther(db.rooms, p.id, Trim(p.name)))
            ==> r == Err(DuplicateRoomName)
    ensures r.Ok? <==> (&& caller.Some? && IsAdmin(caller.value) && RoomPatchValid(p)
                        && FindRoom(db.rooms, p.id).Some? && !NameTakenByOther(db.rooms, p.id, Trim(p.name)))
    ensures r.Ok? ==> var k := FindRoom(db.rooms, p.id).value;
      && r.value.out == Patched(db.rooms[k], p)
      && |r.value.db.rooms| == |db.rooms|
      && r.value.db.rooms[k] == r.value.out
      && (forall j :: 0 <= j < |db.rooms| && j != k ==> r.value.db.rooms[j] == db.rooms[j])
      && r.value.db.bookings == db.bookings && r.value.db.users == db.users
  {
    if caller.None? then Err(Unauthenticated)
    else if !IsAdmin(caller.value) then Err(NotAdmin)
    else if !RoomPatchValid(p) then Err(InvalidInput)
    else match FindRoom(db.rooms, p.id)
      case None => Err(RoomNotFound)
      case Some(k) =>
        if NameTakenByOther(db.rooms, p.id, Trim(p.name)) then Err(DuplicateRoomName)
        else
          var room := Patched(db.rooms[k], p);
          Ok(Step(db.(rooms := Replace(db.rooms, k, room)), room))
  }

  /** A room may keep its own name: only a different room's name clashes. */
  lemma KeepOwnNameAllowed(db: Db, admin: Caller, p: RoomPatch, k: nat)
    requires IsAdmin(admin) && RoomPatchValid(p) && UniqueRoomIds(db.rooms)
    requires k < |db.rooms| && db.rooms[k].id == p.id && db.rooms[k].info.name == Trim(p.name)
    requires forall j :: 0 <= j < |db.rooms| && j != k ==> db.rooms[j].info.name != Trim(p.name)
    ensures UpdateRoom(db, Some(admin), p).Ok?
  {
  }

  /** Applying the same patch twice leaves what applying it once left. */
  lemma UpdateRoomIdempotent(db: Db, admin: Caller, p: RoomPatch)
    requires UpdateRoom(db, Some(admin), p).Ok?
    ensures var once := UpdateRoom(db, Some(admin), p).value.db;
      UpdateRoom(once, Some(admin), p).Ok? && UpdateRoom(once, Some(admin), p).value.db == once
  {
    var once := UpdateRoom(db, Some(admin), p).value.db;
    var k := FindRoom(db.rooms, p.id).value;
    assert FindRoom(once.rooms, p.id) == Some(k);
    assert !NameTakenByOther(once.rooms, p.id, Trim(p.name));
    assert Patched(once.rooms[k], p) == once.rooms[k];
    assert Replace(once.rooms, k, once.rooms[k]) == once.rooms;
  }

  /** Room names are pairwise distinct. */
  predicate UniqueRoomNames(rooms: seq<Room>) {
    forall i, j :: 0 <= i < j < |rooms| ==> rooms[i].info.name != rooms[j].info.name
  }

  /** An update keeps room names distinct. */
  lemma UpdateKeepsNamesDistinct(db: Db, admin: Caller, p: RoomPatch)
    requires UniqueRoomNames(db.rooms) && UniqueRoomIds(db.rooms)
    requires UpdateRoom(db, Some(admin), p).Ok?
    ensures UniqueRoomNames(UpdateRoom(db, Some(admin), p).value.db.rooms)
  {
    var rooms := UpdateRoom(db, Some(admin), p).value.db.rooms;
    var k := FindRoom(db.rooms, p.id).value;
    forall i, j | 0 <= i < j < |rooms| ensures rooms[i].info.name != rooms[j].info.name {
      if i == k {
        assert !(db.rooms[j].id != p.id && db.rooms[j].info.name == Trim(p.name));
      } else if j == k {
        assert !(db.rooms[i].id != p.id && db.rooms[i].info.name == Trim(p.name));
      }
    }
  }

  /** deleteRoom (src/actions/room/delete-room.ts): session, admin role, then
      removal by id; the bookings of the room stay where they are. */
  function DeleteRoom(db: Db, caller: Option<Caller>, roomId: string): (r: Result<Db>)
    ensures caller.None? ==> r == Err(Unauthenticated)
    ensures caller.Some? && !IsAdmin(caller.value) ==> r == Err(NotAdmin)
    ensures caller.Some? && IsAdmin(caller.value) && FindRoom(db.rooms, roomId).None? ==> r == Err(RoomNotFound)
    ensures r.Ok? <==> caller.Some? && IsAdmin(caller.value) && FindRoom(db.rooms, roomId).Some?
    ensures r.Ok? ==> var k := FindRoom(db.rooms, roomId).value;
      && r.value.rooms == db.rooms[..k] + db.rooms[k + 1..]
      && r.value.bookings == db.bookings && r.value.users == db.users
  {
    if caller.None? then Err(Unauthenticated)
    else if !IsAdmin(caller.value) then Err(NotAdmin)
    else match FindRoom(db.rooms, roomId)
      case None => Err(RoomNotFound)
      case Some(k) => Ok(db.(rooms := RemoveAt(db.rooms, k)))
  }

  /** Under unique room ids the room is gone afterwards, while every booking
      that referred to it is still stored. */
  lemma DeleteRoomLeavesOrphans(db: Db, admin: Caller, roomId: string)
    requires IsAdmin(admin) && UniqueRoomIds(db.rooms)
    requires DeleteRoom(db, Some(admin), roomId).Ok?
    ensures var after := DeleteRoom(db, Some(admin), roomId).value;
      && FindRoom(after.rooms, roomId).None?
      && forall i :: 0 <= i < |db.bookings| && db.bookings[i].roomId == roomId ==> db.bookings[i] in after.bookings
  {
    var after := DeleteRoom(db, Some(admin), roomId).value;
    var k := FindRoom(db.rooms, roomId).value;
    forall j | 0 <= j < |after.rooms| ensures after.rooms[j].id != roomId {
      if j < k {
        assert after.rooms[j] == db.rooms[j];
      } else {
        assert after.rooms[j] == db.rooms[j + 1];
      }
    }
  }

  /** Deleting the room just created, under a fresh id, restores the rooms. */
  lemma DeleteUndoesCreate(db: Db, admin: Caller, input: RoomInfo, newId: string, now: int)
    requires IsAdmin(admin)
    requires forall k :: 0 <= k < |db.rooms| ==> db.rooms[k].id != newId
    requires CreateRoom(db, input, newId, now).Ok?
    ensures DeleteRoom(CreateRoom(db, input, newId, now).value.db, Some(admin), newId) == Ok(db)
  {
    var mid := CreateRoom(db, input, newId, now).value.db;
    assert mid.rooms[|db.rooms|].id == newId;
    assert forall k :: 0 <= k < |db.rooms| ==> mid.rooms[k] == db.rooms[k];
    assert FindRoom(mid.rooms, newId) == Some(|db.rooms|);
    assert mid.rooms[..|db.rooms|] == db.rooms;
    assert RemoveAt(mid.rooms, |db.rooms|) == db.rooms;
  }

  /** What updateUser returns: the stored user with a missing role read as
      USER. */
  datatype UserView = UserView(id: string, name: string, email: string, role: Role)

  /** updateUser (src/actions/admin/update-user.ts): session, admin role, the
      refusal to change one's own role (before any lookup), then the lookup
      and the role assignment. */
  function UpdateUser(db: Db, caller: Option<Caller>, userId: string, role: Role): (r: Result<Step<UserView>>)
    ensures caller.None? ==> r == Err(Unauthenticated)
    ensures caller.Some? && !IsAdmin(caller.value) ==> r == Err(NotAdmin)
    ensures caller.Some? && IsAdmin(caller.value) && caller.value.id == userId ==> r == Err(OwnRoleChange)
    ensures caller.Some? && IsAdmin(caller.value) && caller.value.id != userId && FindUser(db.users, userId).None?
            ==> r == Err(UserNotFound)
    ensures r.Ok? <==> (&& caller.Some? && IsAdmin(caller.value) && caller.value.id != userId
                        && FindUser(db.users, userId).Some?)
    ensures r.Ok? ==> var k := FindUser(db.users, userId).value;
      && r.value.out == UserView(userId, db.users[k].name, db.users[k].email, role)
      && |r.value.db.users| == |db.users|
      && r.value.db.users[k] == db.users[k].(role := Some(role))
      && (forall j :: 0 <= j < |db.users| && j != k ==> r.value.db.users[j] == db.users[j])
      && r.value.db.rooms == db.rooms && r.value.db.bookings == db.bookings
  {
    if caller.None? then Err(Unauthenticated)
    else if !IsAdmin(caller.value) then Err(NotAdmin)
    else if caller.value.id == userId then Err(OwnRoleChange)
    else match FindUser(db.users, userId)
      case None => Err(UserNotFound)
      case Some(k) =>
        var user := db.users[k].(role := Some(role));
        Ok(Step(db.(users := Replace(db.users, k, user)),
                UserView(user.id, user.name, user.email, user.role.GetOr(Role.User))))
  }

  /** An admin can never demote (or otherwise touch) their own account, even
      when it is missing from the store. */
  lemma NoSelfDemotion(db: Db, admin: Caller, role: Role)
    requires IsAdmin(admin)
    ensures UpdateUser(db, Some(admin), admin.id, role) == Err(OwnRoleChange)
  {
  }

  /** The lookup depends only on the users' ids. */
  lemma {:induction false} FindUserSameIds(a: seq<User>, b: seq<User>, id: string)
    requires |a| == |b| && forall j :: 0 <= j < |a| ==> a[j].id == b[j].id
    ensures FindUser(a, id) == FindUser(b, id)
    decreases |a|
  {
    if |a| > 0 {
      FindUserSameIds(a[1..], b[1..], id);
    }
  }

  /** Setting a role twice in a row gives what setting it once gave. */
  lemma UpdateUserIdempotent(db: Db, admin: Caller, userId: string, role: Role)
    requires UpdateUser(db, Some(admin), userId, role).Ok?
    ensures var once := UpdateUser(db, Some(admin), userId, role).value;
      UpdateUser(once.db, Some(admin), userId, role) == Ok(once)
  {
    var once := UpdateUser(db, Some(admin), userId, role).value;
    var k := FindUser(db.users, userId).value;
    FindUserSameIds(db.users, once.db.users, userId);
    assert once.db.users[k].(role := Some(role)) == once.db.users[k];
    assert Replace(once.db.users, k, once.db.users[k]) == once.db.users;
  }
}

=== FILE: room_pages.dfy ===
/** The pure parts of two pages: the room search of src/app/rooms/page.tsx and
    the slot picker and submit guard of src/app/admin/rooms/create/page.tsx. */
module RoomPages {
  import opened Outcomes
  import opened Text
  import opened Seqs
  import opened Formats
  import opened TimeSlots
  import opened Records
  import opened RoomActions

  /** The capacity select: "all", or one of three buckets; any other value
      matches nothing. */
  predicate MatchesCapacity(filter: string, capacity: int) {
    || filter == "all"
    || (filter == "small" && capacity <= 6)
    || (filter == "medium" && capacity > 6 && capacity <= 12)
    || (filter == "large" && capacity > 12)
  }

  /** The three buckets split the capacities: each capacity is in exactly one. */
  lemma BucketsPartition(capacity: int)
    ensures MatchesCapacity("small", capacity) || MatchesCapacity("medium", capacity) || MatchesCapacity("large", capacity)
    ensures !(MatchesCapacity("small", capacity) && MatchesCapacity("medium", capacity))
    ensures !(MatchesCapacity("small", capacity) && MatchesCapacity("large", capacity))
    ensures !(MatchesCapacity("medium", capacity) && MatchesCapacity("large", capacity))
  {
  }

  /** The name search: a substring test after lower-casing both sides. */
  predicate MatchesSearch(name: string, query: string) {
    Contains(Lower(name), Lower(query))
  }

  function RoomMatches(query: string, filter: string): Room -> bool {
    (room: Room) => MatchesSearch(room.info.name, query) && MatchesCapacity(filter, room.info.capacity)
  }

  /** `filteredRooms`: the rooms passing both tests, in their listed order. */
  function FilterRooms(rooms: seq<Room>, query: string, filter: string): (r: seq<Room>)
    ensures IsSubsequence(r, rooms)
    ensures forall room :: room in r <==>
      room in rooms && MatchesSearch(room.info.name, query) && MatchesCapacity(filter, room.info.capacity)
  {
    Filter(rooms, RoomMatches(query, filter))
  }

  /** An empty query with "all" lists every room unchanged. */
  lemma EmptySearchKeepsAll(rooms: seq<Room>)
    ensures FilterRooms(rooms, "", "all") == rooms
  {
    forall room | room in rooms ensures RoomMatches("", "all")(room) {
      ContainsEmpty(Lower(room.info.name));
    }
    FilterAll(rooms, RoomMatches("", "all"));
  }

  /** A capacity value outside the four known ones lists nothing. */
  lemma UnknownCapacityMatchesNothing(rooms: seq<Room>, query: string, filter: string)
    requires filter != "all" && filter != "small" && filter != "medium" && filter != "large"
    ensures FilterRooms(rooms, query, filter) == []
  {
    FilterNone(rooms, RoomMatches(query, filter));
  }

  lemma LowerIdempotent(s: string)
    ensures Lower(Lower(s)) == Lower(s)
  {
  }

  /** The search ignores the case of the query's ASCII letters. */
  lemma SearchIgnoresCase(rooms: seq<Room>, query: string, filter: string)
    ensures FilterRooms(rooms, Lower(query), filter) == FilterRooms(rooms, query, filter)
  {
    LowerIdempotent(query);
    FilterExt(rooms, RoomMatches(Lower(query), filter), RoomMatches(query, filter));
  }

  /** The slots the create page offers: `generate24HourTimeSlots()` with its
      default interval of an hour. */
  function OfferedSlots(): (r: seq<string>)
    ensures |r| == 23
    ensures forall k :: 0 <= k < |r| ==> IsSlot(r[k])
  {
    HourlySlots();
    forall k | 0 <= k < |DaySlots(60)| ensures IsSlot(DaySlots(60)[k]) {
      SlotFits(k, 60);
      LabelDecodes(k * 60, 60);
    }
    DaySlots(60)
  }

  function NotSlot(slot: string): string -> bool {
    (s: string) => s != slot
  }

  /** The checkbox handler: checking appends the slot and sorts the list by
      code unit; unchecking drops every copy of the slot and keeps the rest in
      order. */
  function ToggleSlot(selected: seq<string>, slot: string, checked: bool): (r: seq<string>)
    ensures checked ==> && SortedBy(r, StrLe)
                        && multiset(r) == multiset(selected) + multiset{slot}
                        && slot in r
    ensures !checked ==> && IsSubsequence(r, selected)
                         && slot !in r
                         && (forall s :: s in r <==> s in selected && s != slot)
                         && (forall s :: multiset(r)[s] == if s == slot then 0 else multiset(selected)[s])
  {
    StrLeTotalPreorder();
    if checked then
      var r := SortBy(selected + [slot], StrLe);
      assert slot in multiset(r);
      r
    else
      Filter(selected, NotSlot(slot))
  }

  /** Under the string order, two sorted lists with the same elements are
      the same list. */
  lemma {:induction false} SortedPermutationUnique(a: seq<string>, b: seq<string>)
    requires SortedBy(a, StrLe) && SortedBy(b, StrLe) && multiset(a) == multiset(b)
    ensures a == b
    decreases |a|
  {
    if a != [] {
      SortedHeadsAgree(a, b);
      SortedPermutationUnique(a[1..], b[1..]);
    }
  }

  /** Sorted lists with the same elements start with the same element, and
      the rest of them again hold the same elements. */
  lemma SortedHeadsAgree(a: seq<string>, b: seq<string>)
    requires SortedBy(a, StrLe) && SortedBy(b, StrLe) && multiset(a) == multiset(b) && a != []
    ensures b != [] && a[0] == b[0]
    ensures SortedBy(a[1..], StrLe) && SortedBy(b[1..], StrLe)
    ensures multiset(a[1..]) == multiset(b[1..])
  {
    assert |b| == |multiset(b)| == |multiset(a)| == |a|;
    assert a[0] in multiset(b) && b[0] in multiset(a);
    var i :| 0 <= i < |b| && b[i] == a[0];
    var j :| 0 <= j < |a| && a[j] == b[0];
    assert StrLe(b[0], a[0]) && StrLe(a[0], b[0]);
    if a[0] != b[0] {
      StrLtAsymmetric(a[0], b[0]);
    }
    TailMultiset(a);
    TailMultiset(b);
  }

  lemma TailMultiset(a: seq<string>)
    requires a != []
    ensures multiset(a[1..]) == multiset(a) - multiset{a[0]}
  {
    assert a == [a[0]] + a[1..];
  }

  /** Unchecking a slot that was just checked restores a sorted selection
      that did not hold it. */
  lemma UncheckUndoesCheck(selected: seq<string>, slot: string)
    requires SortedBy(selected, StrLe) && slot !in selected
    ensures ToggleSlot(ToggleSlot(selected, slot, true), slot, false) == selected
  {
    var on := ToggleSlot(selected, slot, true);
    var off := ToggleSlot(on, slot, false);
    assert off == Filter(on, NotSlot(slot));
    FilterSorted(on, NotSlot(slot), StrLe);
    RemoveAddedSlot(selected, on, slot);
    SortedPermutationUnique(off, selected);
  }

  lemma RemoveAddedSlot(selected: seq<string>, on: seq<string>, slot: string)
    requires slot !in selected
    requires multiset(on) == multiset(selected) + multiset{slot}
    ensures multiset(Filter(on, NotSlot(slot))) == multiset(selected)
  {
    var off := Filter(on, NotSlot(slot));
    forall s ensures multiset(off)[s] == multiset(selected)[s] {
      if s == slot {
        assert s !in multiset(selected);
      }
    }
  }

  /** Toggling offered slots only ever selects offered slots. */
  lemma ToggleKeepsOffered(selected: seq<string>, slot: string, checked: bool)
    requires forall s :: s in selected ==> s in OfferedSlots()
    requires slot in OfferedSlots()
    ensures forall s :: s in ToggleSlot(selected, slot, checked) ==> s in OfferedSlots()
  {
    var r := ToggleSlot(selected, slot, checked);
    forall s | s in r ensures s in OfferedSlots() {
      if checked {
        assert s in multiset(r);
      }
    }
  }

  /** What pressing submit does.  The form's resolver checks the room schema
      first (the checkboxes keep the form's slot field equal to the selection)
      and shows its messages without submitting; then an empty selection only
      raises a message; otherwise createRoom is called with the selection as
      the room's slots. */
  datatype SubmitOutcome = FormRejected | NoSlotSelected | Submitted(result: Result<Step<Room>>)

  function SubmitCreateRoom(db: Db, data: RoomInfo, selected: seq<string>, newId: string, now: int): (o: SubmitOutcome)
    ensures o.FormRejected? <==> !RoomInfoValid(data.(availableTimeSlots := selected))
    ensures o.NoSlotSelected? <==> RoomInfoValid(data.(availableTimeSlots := selected)) && selected == []
    ensures o.Submitted? <==> RoomInfoValid(data.(availableTimeSlots := selected)) && selected != []
    ensures o.Submitted? ==> o.result != Err(InvalidInput)
    ensures o.Submitted? ==> (o.result.Ok? <==> Trim(data.name) != "")
    ensures o.Submitted? && o.result.Ok? ==>
      && o.result.value.out.info.availableTimeSlots == selected
      && o.result.value.db.rooms == db.rooms + [o.result.value.out]
  {
    var form := data.(availableTimeSlots := selected);
    if !RoomInfoValid(form) then FormRejected
    else if |selected| == 0 then NoSlotSelected
    else Submitted(CreateRoom(db, form, newId, now))
  }

  /** A non-empty selection of offered slots, with the other fields valid and
      a name that is not blank, creates the room. */
  lemma OfferedSelectionCreates(db: Db, data: RoomInfo, selected: seq<string>, newId: string, now: int)
    requires selected != []
    requires forall s :: s in selected ==> s in OfferedSlots()
    requires RoomInfoValid(data.(availableTimeSlots := [])) && Trim(data.name) != ""
    ensures SubmitCreateRoom(db, data, selected, newId, now).Submitted?
    ensures SubmitCreateRoom(db, data, selected, newId, now).result.Ok?
  {
    var info := data.(availableTimeSlots := selected);
    forall i | 0 <= i < |selected| ensures IsSlot(selected[i]) {
      assert selected[i] in OfferedSlots();
    }
    assert RoomInfoValid(info);
  }
}

=== FILE: seqs.dfy ===
/** The collection operations the queries are built from: `Array.prototype.filter`,
    order-preserving subsequences, and a sort by a total preorder standing for
    MongoDB's `.sort(...)` and JavaScript's `Array.prototype.sort`. */
module Seqs {

  /** `a` is obtained from `b` by deleting elements, keeping the order of the rest. */
  predicate IsSubsequence<T(==)>(a: seq<T>, b: seq<T>)
    decreases |b|
  {
    if a == [] then true
    else if b == [] then false
    else if a[0] == b[0] then IsSubsequence(a[1..], b[1..])
    else IsSubsequence(a, b[1..])
  }

  /** `s.filter(p)`: the elements satisfying `p`, in their original order. */
  function Filter<T(==,!new)>(s: seq<T>, p: T -> bool): (r: seq<T>)
    ensures |r| <= |s|
    ensures forall x :: x in r <==> x in s && p(x)
    ensures forall x :: multiset(r)[x] == if p(x) then multiset(s)[x] else 0
    ensures IsSubsequence(r, s)
    decreases |s|
  {
    if s == [] then []
    else
      var rest := Filter(s[1..], p);
      assert s == [s[0]] + s[1..];
      if p(s[0]) then [s[0]] + rest else rest
  }

  lemma {:induction false} FilterAll<T(!new)>(s: seq<T>, p: T -> bool)
    requires forall i :: 0 <= i < |s| ==> p(s[i])
    ensures Filter(s, p) == s
    decreases |s|
  {
    if s != [] {
      FilterAll(s[1..], p);
    }
  }

  lemma {:induction false} FilterNone<T(!new)>(s: seq<T>, p: T -> bool)
    requires forall i :: 0 <= i < |s| ==> !p(s[i])
    ensures Filter(s, p) == []
    decreases |s|
  {
    if s != [] {
      FilterNone(s[1..], p);
    }
  }

  /** Filtering depends only on the values the predicate takes. */
  lemma {:induction false} FilterExt<T(!new)>(s: seq<T>, p: T -> bool, q: T -> bool)
    requires forall i :: 0 <= i < |s| ==> p(s[i]) == q(s[i])
    ensures Filter(s, p) == Filter(s, q)
    decreases |s|
  {
    if s != [] {
      FilterExt(s[1..], p, q);
    }
  }

  /** Filtering distributes over concatenation. */
  lemma {:induction false} FilterAppend<T(!new)>(a: seq<T>, b: seq<T>, p: T -> bool)
    ensures Filter(a + b, p) == Filter(a, p) + Filter(b, p)
    decreases |a|
  {
    if a == [] {
      assert a + b == b;
    } else {
      assert (a + b)[0] == a[0] && (a + b)[1..] == a[1..] + b;
      FilterAppend(a[1..], b, p);
    }
  }

  /** Filtering by `p` and then by `q` keeps, with their multiplicities, the
      elements one filter by "`p` and `q`" keeps. */
  lemma FilterBoth<T(!new)>(s: seq<T>, p: T -> bool, q: T -> bool, pq: T -> bool)
    requires forall x :: pq(x) == (p(x) && q(x))
    ensures multiset(Filter(Filter(s, p), q)) == multiset(Filter(s, pq))
    ensures |Filter(Filter(s, p), q)| == |Filter(s, pq)|
  {
    var a := Filter(Filter(s, p), q);
    var b := Filter(s, pq);
    forall x ensures multiset(a)[x] == multiset(b)[x] {
    }
    assert multiset(a) == multiset(b);
    assert |a| == |multiset(a)| == |multiset(b)| == |b|;
  }

  /** Filtering two orderings of the same elements keeps the same elements. */
  lemma FilterPermutation<T(!new)>(a: seq<T>, b: seq<T>, p: T -> bool)
    requires multiset(a) == multiset(b)
    ensures multiset(Filter(a, p)) == multiset(Filter(b, p))
    ensures |Filter(a, p)| == |Filter(b, p)|
  {
    forall x ensures multiset(Filter(a, p))[x] == multiset(Filter(b, p))[x] {
    }
    assert multiset(Filter(a, p)) == multiset(Filter(b, p));
    assert |Filter(a, p)| == |multiset(Filter(a, p))| == |multiset(Filter(b, p))| == |Filter(b, p)|;
  }

  /** `le` is a total preorder: every two elements compare, transitively. */
  ghost predicate TotalPreorder<T(!new)>(le: (T, T) -> bool) {
    && (forall a, b :: le(a, b) || le(b, a))
    && (forall a, b, c :: le(a, b) && le(b, c) ==> le(a, c))
  }

  predicate SortedBy<T>(s: seq<T>, le: (T, T) -> bool) {
    forall i, j :: 0 <= i < j < |s| ==> le(s[i], s[j])
  }

  /** Insert `x` before the first element it is not after. */
  function Insert<T(!new)>(x: T, s: seq<T>, le: (T, T) -> bool): (r: seq<T>)
    requires TotalPreorder(le)
    requires SortedBy(s, le)
    ensures multiset(r) == multiset(s) + multiset{x}
    ensures SortedBy(r, le)
    decreases |s|
  {
    if s == [] then [x]
    else if le(x, s[0]) then
      assert forall j :: 0 < j < |s| ==> le(s[0], s[j]);
      [x] + s
    else
      var rest := Insert(x, s[1..], le);
      InsertBehind(x, s, rest, le);
      [s[0]] + rest
  }

  /** `x` goes after the head of `s`: the head followed by `x` inserted into
      the tail is sorted and holds `s` and `x`. */
  lemma InsertBehind<T(!new)>(x: T, s: seq<T>, rest: seq<T>, le: (T, T) -> bool)
    requires TotalPreorder(le) && SortedBy(s, le) && s != [] && !le(x, s[0])
    requires multiset(rest) == multiset(s[1..]) + multiset{x} && SortedBy(rest, le)
    ensures multiset([s[0]] + rest) == multiset(s) + multiset{x}
    ensures SortedBy([s[0]] + rest, le)
  {
    assert s == [s[0]] + s[1..];
    forall j | 0 <= j < |rest| ensures le(s[0], rest[j]) {
      assert rest[j] in multiset(rest);
      if rest[j] != x {
        assert rest[j] in multiset(s[1..]);
        var m :| 0 <= m < |s[1..]| && s[1..][m] == rest[j];
        assert s[m + 1] == rest[j];
      }
    }
    var r := [s[0]] + rest;
    forall i, j | 0 <= i < j < |r| ensures le(r[i], r[j]) {
      assert r[j] == rest[j - 1];
      if i > 0 {
        assert r[i] == rest[i - 1];
      }
    }
  }

  /** A stable insertion sort: a permutation of `s` ordered by `le`.  Where the
      source's sort leaves the order of equal elements open, this is one choice. */
  function SortBy<T(!new)>(s: seq<T>, le: (T, T) -> bool): (r: seq<T>)
    requires TotalPreorder(le)
    ensures multiset(r) == multiset(s)
    ensures |r| == |s|
    ensures SortedBy(r, le)
    decreases |s|
  {
    if s == [] then []
    else
      assert s == [s[0]] + s[1..];
      Insert(s[0], SortBy(s[1..], le), le)
  }

  /** Filtering keeps a sorted sequence sorted. */
  lemma {:induction false} FilterSorted<T(!new)>(s: seq<T>, p: T -> bool, le: (T, T) -> bool)
    requires SortedBy(s, le)
    ensures SortedBy(Filter(s, p), le)
    decreases |s|
  {
    if s != [] {
      FilterSorted(s[1..], p, le);
      var rest := Filter(s[1..], p);
      forall j | 0 <= j < |rest| ensures le(s[0], rest[j]) {
        assert rest[j] in s[1..];
        var m :| 0 <= m < |s[1..]| && s[1..][m] == rest[j];
        assert s[m + 1] == rest[j];
      }
    }
  }

  /** Permutations have the same elements. */
  lemma SameElements<T>(a: seq<T>, b: seq<T>)
    requires multiset(a) == multiset(b)
    ensures forall x :: x in a <==> x in b
  {
    forall x ensures x in a <==> x in b {
      assert x in a <==> x in multiset(a);
      assert x in b <==> x in multiset(b);
    }
  }

  /** No later position holds the key at position `i`. */
  predicate LastOccurrence<K(==)>(keys: seq<K>, i: nat)
    requires i < |keys|
  {
    forall m :: i < m < |keys| ==> keys[m] != keys[i]
  }

  /** The last position at or after `i` holding `keys[i]`. */
  function LastIndex<K(==)>(keys: seq<K>, i: nat): (j: nat)
    requires i < |keys|
    ensures i <= j < |keys| && keys[j] == keys[i] && LastOccurrence(keys, j)
    decreases |keys|
  {
    if keys[|keys| - 1] == keys[i] then |keys| - 1
    else LastIndex(keys[..|keys| - 1], i)
  }

  /** `obj[keys[i]] = vals[i]` for each `i` in turn: every key is present and
      holds the value of its last assignment. */
  function AssignAll<K(==,!new), V>(keys: seq<K>, vals: seq<V>): (m: map<K, V>)
    requires |keys| == |vals|
    ensures forall k :: k in m <==> k in keys
    ensures forall i :: 0 <= i < |keys| && LastOccurrence(keys, i) ==> m[keys[i]] == vals[i]
    decreases |keys|
  {
    if keys == [] then map[]
    else
      var n := |keys| - 1;
      var prev := AssignAll(keys[..n], vals[..n]);
      AssignLast(keys, vals, prev);
      prev[keys[n] := vals[n]]
  }

  /** The last assignment on top of the earlier ones. */
  lemma AssignLast<K(!new), V>(keys: seq<K>, vals: seq<V>, prev: map<K, V>)
    requires |keys| == |vals| && keys != []
    requires forall k :: k in prev <==> k in keys[..|keys| - 1]
    requires forall i :: 0 <= i < |keys| - 1 && LastOccurrence(keys[..|keys| - 1], i) ==> prev[keys[..|keys| - 1][i]] == vals[i]
    ensures var m := prev[keys[|keys| - 1] := vals[|keys| - 1]];
      && (forall k :: k in m <==> k in keys)
      && (forall i :: 0 <= i < |keys| && LastOccurrence(keys, i) ==> m[keys[i]] == vals[i])
  {
    var n := |keys| - 1;
    var m := prev[keys[n] := vals[n]];
    forall i | 0 <= i < |keys| && LastOccurrence(keys, i) ensures m[keys[i]] == vals[i] {
      if i < n {
        assert keys[..n][i] == keys[i];
        assert LastOccurrence(keys[..n], i);
      }
    }
    forall k ensures k in m <==> k in keys {
      if k in keys && k != keys[n] {
        var i :| 0 <= i < |keys| && keys[i] == k;
        assert keys[..n][i] == k;
      }
    }
  }
}

=== FILE: text.dfy ===
/** Character classes and string operations the application relies on:
    JavaScript whitespace, digits, the code-unit order strings are sorted by,
    zero padding, trimming, ASCII lower-casing and substring search. */
module Text {

  /** The characters JavaScript's `\s` and `String.prototype.trim` treat as
      whitespace (WhiteSpace and LineTerminator of ECMAScript). */
  predicate IsSpace(c: char) {
    || c == ' ' || c == '\t' || c == '\n' || c == '\r'
    || c == '\U{B}' || c == '\U{C}' || c == '\U{A0}' || c == '\U{1680}'
    || ('\U{2000}' <= c <= '\U{200A}')
    || c == '\U{2028}' || c == '\U{2029}' || c == '\U{202F}' || c == '\U{205F}'
    || c == '\U{3000}' || c == '\U{FEFF}'
  }

  predicate IsDigit(c: char) {
    '0' <= c <= '9'
  }

  predicate AllDigits(s: string) {
    forall i :: 0 <= i < |s| ==> IsDigit(s[i])
  }

  /** No character of `s` is whitespace: every character matches `\S`. */
  predicate NoSpace(s: string) {
    forall i :: 0 <= i < |s| ==> !IsSpace(s[i])
  }

  /** Strict lexicographic order on strings, character by character, a proper
      prefix coming first: the order of JavaScript's `<` and default `sort()`
      and of MongoDB's binary string sort on the strings of this application. */
  predicate StrLt(a: string, b: string)
    decreases |a|
  {
    if |a| == 0 then |b| > 0
    else if |b| == 0 then false
    else if a[0] != b[0] then a[0] < b[0]
    else StrLt(a[1..], b[1..])
  }

  predicate StrLe(a: string, b: string) {
    a == b || StrLt(a, b)
  }

  lemma {:induction false} StrLtIrreflexive(a: string)
    ensures !StrLt(a, a)
    decreases |a|
  {
    if |a| > 0 {
      StrLtIrreflexive(a[1..]);
    }
  }

  lemma {:induction false} StrLtTransitive(a: string, b: string, c: string)
    requires StrLt(a, b) && StrLt(b, c)
    ensures StrLt(a, c)
    decreases |a|
  {
    if |a| > 0 && a[0] == b[0] && b[0] == c[0] {
      StrLtTransitive(a[1..], b[1..], c[1..]);
    }
  }

  lemma {:induction false} StrLtTotal(a: string, b: string)
    ensures a == b || StrLt(a, b) || StrLt(b, a)
    decreases |a|
  {
    if |a| > 0 && |b| > 0 && a[0] == b[0] {
      StrLtTotal(a[1..], b[1..]);
      if a[1..] == b[1..] {
        assert a == [a[0]] + a[1..] && b == [b[0]] + b[1..];
      }
    }
  }

  lemma {:induction false} StrLtAsymmetric(a: string, b: string)
    requires StrLt(a, b)
    ensures !StrLt(b, a)
  {
    if StrLt(b, a) {
      StrLtTransitive(a, b, a);
      StrLtIrreflexive(a);
    }
  }

  /** Two strings of equal length keep their order whatever follows them. */
  lemma {:induction false} StrLtAppend(a: string, b: string, c: string, d: string)
    requires |a| == |b| && StrLt(a, b)
    ensures StrLt(a + c, b + d)
    decreases |a|
  {
    assert (a + c)[0] == a[0] && (b + d)[0] == b[0];
    if a[0] == b[0] {
      assert (a + c)[1..] == a[1..] + c && (b + d)[1..] == b[1..] + d;
      StrLtAppend(a[1..], b[1..], c, d);
    }
  }

  /** A common prefix does not change the order of what follows it. */
  lemma {:induction false} StrLtPrefix(p: string, c: string, d: string)
    requires StrLt(c, d)
    ensures StrLt(p + c, p + d)
    decreases |p|
  {
    if |p| == 0 {
      assert p + c == c && p + d == d;
    } else {
      assert (p + c)[0] == p[0] == (p + d)[0];
      assert (p + c)[1..] == p[1..] + c && (p + d)[1..] == p[1..] + d;
      StrLtPrefix(p[1..], c, d);
    }
  }

  /** The decimal digit character of `d`. */
  function DigitChar(d: nat): (c: char)
    requires d < 10
    ensures IsDigit(c)
    ensures c as int - '0' as int == d
  {
    (('0' as int) + d) as char
  }

  /** `String(n).padStart(2, '0')` for a number below 100. */
  function Pad2(n: nat): (s: string)
    requires n < 100
    ensures |s| == 2 && AllDigits(s)
    ensures (s[0] as int - '0' as int) * 10 + (s[1] as int - '0' as int) == n
  {
    [DigitChar(n / 10), DigitChar(n % 10)]
  }

  /** Zero-padded two-digit numbers sort like the numbers they denote. */
  lemma Pad2Monotonic(m: nat, n: nat)
    requires m < n < 100
    ensures StrLt(Pad2(m), Pad2(n))
  {
    var p, q := Pad2(m), Pad2(n);
    if p[0] == q[0] {
      assert p[1..] == [p[1]] && q[1..] == [q[1]];
    }
  }

  /** `String.prototype.trim`: leading and trailing whitespace removed. */
  function Trim(s: string): (r: string)
    ensures |r| <= |s|
    ensures r == [] || (!IsSpace(r[0]) && !IsSpace(r[|r| - 1]))
    ensures Contains(s, r)
    ensures NoSpace(s) ==> r == s
  {
    var t := TrimStart(s);
    var r := TrimEnd(t);
    TrimOccurs(s, t, r);
    r
  }

  /** A prefix of a suffix of `s` occurs in `s`. */
  lemma TrimOccurs(s: string, t: string, r: string)
    requires |t| <= |s| && t == s[|s| - |t|..]
    requires |r| <= |t| && r == t[..|r|]
    ensures Contains(s, r)
  {
    assert OccursAt(s, r, |s| - |t|);
  }

  function TrimStart(s: string): (r: string)
    ensures r == [] || !IsSpace(r[0])
    ensures |r| <= |s| && r == s[|s| - |r|..]
    ensures NoSpace(s) ==> r == s
    decreases |s|
  {
    if |s| > 0 && IsSpace(s[0]) then TrimStart(s[1..]) else s
  }

  function TrimEnd(s: string): (r: string)
    ensures r == [] || !IsSpace(r[|r| - 1])
    ensures |r| <= |s| && r == s[..|r|]
    ensures NoSpace(s) ==> r == s
    ensures |s| > 0 && !IsSpace(s[0]) ==> |r| > 0 && r[0] == s[0]
    decreases |s|
  {
    if |s| > 0 && IsSpace(s[|s| - 1]) then TrimEnd(s[..|s| - 1]) else s
  }

  /** ASCII lower-casing of one character. */
  function LowerChar(c: char): char {
    if 'A' <= c <= 'Z' then ((c as int) + 32) as char else c
  }

  /** `toLowerCase`, restricted to the ASCII letters. */
  function Lower(s: string): (r: string)
    ensures |r| == |s|
    ensures forall i :: 0 <= i < |s| ==> r[i] == LowerChar(s[i])
  {
    seq(|s|, i requires 0 <= i < |s| => LowerChar(s[i]))
  }

  /** `haystack.includes(needle)`: `needle` occurs as a contiguous substring. */
  predicate Contains(haystack: string, needle: string) {
    exists i :: 0 <= i <= |haystack| - |needle| && OccursAt(haystack, needle, i)
  }

  /** `needle` occurs in `haystack` starting at index `i`. */
  predicate OccursAt(haystack: string, needle: string, i: nat)
    requires i + |needle| <= |haystack|
  {
    haystack[i..i + |needle|] == needle
  }

  lemma ContainsEmpty(s: string)
    ensures Contains(s, "")
  {
    assert OccursAt(s, "", 0);
  }
}

=== FILE: time_slots.dfy ===
/** `generate24HourTimeSlots` of src/lib/utils.ts: the `HH:MM-HH:MM` labels of
    consecutive intervals of a day, none of which reaches 24:00. */
module TimeSlots {
  import opened Text
  import opened Formats

  const MinutesPerDay: nat := 24 * 60

  /** `HH:MM` for a minute offset; `t < 6000` keeps the hour at two digits. */
  function Clock(t: nat): (s: string)
    requires t < 6000
    ensures |s| == 5
  {
    Pad2(t / 60) + ":" + Pad2(t % 60)
  }

  /** The label of the interval starting `m` minutes into the day and lasting
      `interval` minutes. */
  function Label(m: nat, interval: nat): (s: string)
    requires m + interval < MinutesPerDay
    ensures |s| == 11
  {
    Clock(m) + "-" + Clock(m + interval)
  }

  /** The two-digit number written at `s[i..i+2]`. */
  function TwoDigits(s: string, i: nat): int
    requires i + 2 <= |s|
  {
    (s[i] as int - '0' as int) * 10 + (s[i + 1] as int - '0' as int)
  }

  function StartMinutes(s: string): int
    requires |s| == 11
  {
    TwoDigits(s, 0) * 60 + TwoDigits(s, 3)
  }

  function EndMinutes(s: string): int
    requires |s| == 11
  {
    TwoDigits(s, 6) * 60 + TwoDigits(s, 9)
  }

  /** A label is well formed and reads back as the minute offsets it was made
      from, with both minute fields below 60 and the end hour below 24. */
  lemma LabelDecodes(m: nat, interval: nat)
    requires m + interval < MinutesPerDay
    ensures IsSlot(Label(m, interval))
    ensures StartMinutes(Label(m, interval)) == m
    ensures EndMinutes(Label(m, interval)) == m + interval
    ensures TwoDigits(Label(m, interval), 3) < 60 && TwoDigits(Label(m, interval), 9) < 60
    ensures TwoDigits(Label(m, interval), 6) < 24
  {
    var s := Label(m, interval);
    var a, b, c, d := Pad2(m / 60), Pad2(m % 60), Pad2((m + interval) / 60), Pad2((m + interval) % 60);
    assert s == a + ":" + b + "-" + c + ":" + d;
    assert s[0] == a[0] && s[1] == a[1] && s[3] == b[0] && s[4] == b[1];
    assert s[6] == c[0] && s[7] == c[1] && s[9] == d[0] && s[10] == d[1];
  }

  lemma ClockMonotonic(t1: nat, t2: nat)
    requires t1 < t2 < MinutesPerDay
    ensures StrLt(Clock(t1), Clock(t2))
  {
    var h1, h2 := t1 / 60, t2 / 60;
    if h1 < h2 {
      Pad2Monotonic(h1, h2);
      StrLtAppend(Pad2(h1), Pad2(h2), ":" + Pad2(t1 % 60), ":" + Pad2(t2 % 60));
      assert Clock(t1) == Pad2(h1) + (":" + Pad2(t1 % 60));
      assert Clock(t2) == Pad2(h2) + (":" + Pad2(t2 % 60));
    } else {
      Pad2Monotonic(t1 % 60, t2 % 60);
      StrLtPrefix(Pad2(h1) + ":", Pad2(t1 % 60), Pad2(t2 % 60));
    }
  }

  /** Labels of later starts sort strictly after earlier ones, because every
      field is zero-padded. */
  lemma LabelMonotonic(m1: nat, m2: nat, interval: nat)
    requires m1 < m2 && m2 + interval < MinutesPerDay
    ensures StrLt(Label(m1, interval), Label(m2, interval))
  {
    ClockMonotonic(m1, m2);
    StrLtAppend(Clock(m1), Clock(m2), "-" + Clock(m1 + interval), "-" + Clock(m2 + interval));
    assert Label(m1, interval) == Clock(m1) + ("-" + Clock(m1 + interval));
    assert Label(m2, interval) == Clock(m2) + ("-" + Clock(m2 + interval));
  }

  /** The number of slots: the `k` with `(k + 1) * interval < 1440`. */
  function SlotCount(interval: nat): nat
    requires interval > 0
  {
    (MinutesPerDay - 1) / interval
  }

  lemma SlotFits(k: nat, interval: nat)
    requires interval > 0 && k < SlotCount(interval)
    ensures k * interval + interval < MinutesPerDay
  {
    var n := SlotCount(interval);
    assert k + 1 <= n;
    assert (k + 1) * interval <= n * interval by {
      MulLe(k + 1, n, interval);
    }
    assert n * interval <= MinutesPerDay - 1;
  }

  lemma MulLe(a: nat, b: nat, c: nat)
    requires a <= b
    ensures a * c <= b * c
  {
  }

  /** The reference definition: slot `k` covers minutes `k * interval` to
      `(k + 1) * interval`. */
  function DaySlots(interval: nat): (r: seq<string>)
    requires interval > 0
    ensures |r| == SlotCount(interval)
  {
    seq(SlotCount(interval), k requires 0 <= k < SlotCount(interval) =>
      SlotFits(k, interval); Label(k * interval, interval))
  }

  /** The loop of `generate24HourTimeSlots`, stepping `minutes` by the interval
      and stopping before an end hour of 24.  JavaScript leaves a zero or
      negative interval looping for ever; the model demands a positive one. */
  method Generate24HourTimeSlots(intervalMinutes: nat) returns (slots: seq<string>)
    requires intervalMinutes > 0
    ensures slots == DaySlots(intervalMinutes)
    ensures |slots| == (MinutesPerDay - 1) / intervalMinutes
    ensures forall k :: 0 <= k < |slots| ==>
      && IsSlot(slots[k])
      && StartMinutes(slots[k]) == k * intervalMinutes
      && EndMinutes(slots[k]) == (k + 1) * intervalMinutes
      && TwoDigits(slots[k], 6) < 24
  {
    slots := [];
    var minutes: nat := 0;
    while minutes < MinutesPerDay
      invariant minutes == |slots| * intervalMinutes
      invariant minutes < MinutesPerDay
      invariant forall k :: 0 <= k < |slots| ==>
        k * intervalMinutes + intervalMinutes < MinutesPerDay
        && slots[k] == Label(k * intervalMinutes, intervalMinutes)
      decreases MinutesPerDay - minutes
    {
      var startHour := minutes / 60;
      var startMinute := minutes % 60;
      var endHour := (minutes + intervalMinutes) / 60;
      var endMinute := (minutes + intervalMinutes) % 60;
      if endHour >= 24 {
        assert minutes + intervalMinutes >= MinutesPerDay;
        break;
      }
      var timeSlot := Pad2(startHour) + ":" + Pad2(startMinute) + "-" + Pad2(endHour) + ":" + Pad2(endMinute);
      StepLabel(minutes, intervalMinutes);
      assert (|slots| + 1) * intervalMinutes == minutes + intervalMinutes;
      slots := slots + [timeSlot];
      minutes := minutes + intervalMinutes;
    }
    assert (|slots| + 1) * intervalMinutes == minutes + intervalMinutes;
    CountFromBounds(|slots|, intervalMinutes);
    SlotsAreDaySlots(slots, intervalMinutes);
    DaySlotsDecode(intervalMinutes);
  }

  /** One loop step: an end hour below 24 keeps the interval inside the day,
      and the padded fields spell the interval's label. */
  lemma StepLabel(minutes: nat, interval: nat)
    requires (minutes + interval) / 60 < 24
    ensures minutes + interval < MinutesPerDay
    ensures Pad2(minutes / 60) + ":" + Pad2(minutes % 60) + "-" + Pad2((minutes + interval) / 60) + ":"
            + Pad2((minutes + interval) % 60) == Label(minutes, interval)
  {
  }

  lemma SlotsAreDaySlots(slots: seq<string>, interval: nat)
    requires interval > 0 && |slots| == SlotCount(interval)
    requires forall k :: 0 <= k < |slots| ==>
      k * interval + interval < MinutesPerDay && slots[k] == Label(k * interval, interval)
    ensures slots == DaySlots(interval)
  {
  }

  /** Every label of the day decodes to its own interval. */
  lemma DaySlotsDecode(interval: nat)
    requires interval > 0
    ensures forall k :: 0 <= k < |DaySlots(interval)| ==>
      && IsSlot(DaySlots(interval)[k])
      && StartMinutes(DaySlots(interval)[k]) == k * interval
      && EndMinutes(DaySlots(interval)[k]) == (k + 1) * interval
      && TwoDigits(DaySlots(interval)[k], 6) < 24
  {
    forall k | 0 <= k < |DaySlots(interval)|
      ensures IsSlot(DaySlots(interval)[k]) && StartMinutes(DaySlots(interval)[k]) == k * interval
      ensures EndMinutes(DaySlots(interval)[k]) == (k + 1) * interval && TwoDigits(DaySlots(interval)[k], 6) < 24
    {
      SlotFits(k, interval);
      LabelDecodes(k * interval, interval);
    }
  }

  lemma CountFromBounds(n: nat, interval: nat)
    requires interval > 0
    requires n * interval < MinutesPerDay <= (n + 1) * interval
    ensures n == SlotCount(interval)
  {
    var q := SlotCount(interval);
    if n < q {
      MulLe(n + 1, q, interval);
    } else if n > q {
      MulLe(q + 1, n, interval);
    }
  }

  /** Consecutive slots are contiguous: each ends where the next begins. */
  lemma DaySlotsContiguous(interval: nat, k: nat)
    requires interval > 0 && k + 1 < SlotCount(interval)
    ensures DaySlots(interval)[k][6..] == DaySlots(interval)[k + 1][..5]
  {
    SlotFits(k + 1, interval);
    assert (k + 1) * interval == k * interval + interval;
    LabelsMeet(k * interval, interval);
  }

  lemma LabelsMeet(m: nat, interval: nat)
    requires m + interval + interval < MinutesPerDay
    ensures Label(m, interval)[6..] == Label(m + interval, interval)[..5]
  {
    assert Label(m, interval)[6..] == Clock(m + interval);
    assert Label(m + interval, interval)[..5] == Clock(m + interval);
  }

  /** The labels are strictly increasing in string order. */
  lemma DaySlotsStrictlySorted(interval: nat, i: nat, j: nat)
    requires interval > 0 && i < j < SlotCount(interval)
    ensures StrLt(DaySlots(interval)[i], DaySlots(interval)[j])
  {
    SlotFits(j, interval);
    MulLe(i, j, interval);
    assert i * interval < j * interval by {
      MulLe(i + 1, j, interval);
    }
    LabelMonotonic(i * interval, j * interval, interval);
  }

  /** The default call: 23 hourly slots from "00:00-01:00" to "22:00-23:00";
      "23:00-24:00" is never offered. */
  lemma HourlySlots()
    ensures |DaySlots(60)| == 23
    ensures DaySlots(60)[0] == "00:00-01:00"
    ensures DaySlots(60)[22] == "22:00-23:00"
    ensures "23:00-24:00" !in DaySlots(60)
  {
    var s := DaySlots(60);
    assert s[0] == Label(0, 60);
    FirstHourLabel();
    assert s[22] == Label(1320, 60);
    LastHourLabel();
    if "23:00-24:00" in s {
      var k :| 0 <= k < |s| && s[k] == "23:00-24:00";
      SlotFits(k, 60);
      NotMidnightEnd(k * 60, 60);
    }
  }

  /** No label of the day ends at 24:00. */
  lemma NotMidnightEnd(m: nat, interval: nat)
    requires m + interval < MinutesPerDay
    ensures Label(m, interval) != "23:00-24:00"
  {
    LabelDecodes(m, interval);
    assert EndMinutes("23:00-24:00") == MinutesPerDay;
  }

  lemma FirstHourLabel()
    ensures Label(0, 60) == "00:00-01:00"
  {
    assert Clock(0) == "00:00";
    assert Clock(60) == "01:00";
  }

  lemma LastHourLabel()
    ensures Label(1320, 60) == "22:00-23:00"
  {
    assert Clock(1320) == "22:00";
    assert Clock(1380) == "23:00";
  }
}
